=== FILE: README.md ===
# portfolio-projects core, modelled in Dafny

A Dafny model of the deterministic logic in the portfolio-projects
repository. It covers three parts.

- The devstack-manager backend:
  - profile orchestration (hooks, per-service dispatch, error folding and status reports);
  - the mock-service registry and its route table;
  - the Docker helpers (port, volume and binding reshaping, usage guards, error mapping, log splitting);
  - the VM controller (provider probe, provider dispatch, and the VirtualBox, libvirt and Vagrant output parsers).
- projgen and projen scaffolding:
  - the template validator and its report;
  - the Docker and Docs plugins and the plugin registry;
  - both `scaffold_project` variants.
- Small text tools:
  - the patch-file fixer;
  - the README table generator;
  - the Gradle-to-Bazel dependency conversion and BUILD stub;
  - the bookstore's placeholder token authentication.

Effects are modelled as follows:

- Drivers, subprocesses, hooks, the Docker SDK and template rendering are parameters: functions from the request (and, for the orchestrator, the trace of earlier events) to the result.
- Orchestration returns the trace of hook runs and driver calls it made, so ordering and the absence of calls can be stated.
- A Python dict is an insertion-ordered association list (`Dicts`). `Put` keeps the position of an existing key, as assignment to a Python dict does.
- A file tree is such a list from path to contents, plus a set of directories.

Files:

| file | module | models |
|---|---|---|
| wrappers.dfy | Wrappers | `Option` and `Result` |
| text.dfy | Text | Python string operations: `split`, `join`, `splitlines`, `strip`, `find`, `replace`, `int()`, `str()` |
| dicts.dfy | Dicts | insertion-ordered dictionaries |
| profile_manager.dfy | ProfileManager | devstack-manager/backend/app/services/profile_manager.py |
| mock_service.dfy | MockServices | devstack-manager/backend/app/services/mock_service.py |
| docker_control.dfy | DockerControl | devstack-manager/backend/app/services/docker_control.py |
| vm_control.dfy | VmControl | devstack-manager/backend/services/vm_control.py |
| validation.dfy | Validation | projgen/src/projgen/validation.py |
| plugins.dfy | Plugins | projgen/src/projgen/plugins.py |
| projgen_scaffold.dfy | ProjgenScaffold | projgen/src/generators/scaffold.py |
| projen_scaffold.dfy | ProjenScaffold | projen/generators/scaffold.py |
| fix_patches.dfy | FixPatches | scripts/fix_patches.py |
| readme_table.dfy | ReadmeTable | scripts/gen_readme_table.py |
| gradle_migrate.dfy | GradleMigrate | tools/gradle_to_bazel/tests/migrate.py |
| security.dfy | Security | online-bookstore/src/security.py |

## Model

| member | source | states |
|---|---|---|
| Security.HashPassword | online-bookstore/src/security.py:18-19 | The hash is `hashed` followed by the password, and the password is what follows that prefix |
| Security.HashInjective | online-bookstore/src/security.py:18-19 | Two passwords have the same hash exactly when they are equal |
| Security.StoredHashes | online-bookstore/src/security.py:4-13 | The built-in table maps `johndoe` and `janedoe` to records holding the hashes of `secret` and `secret2` |
| Security.GetUser | online-bookstore/src/security.py:24-27 | There is no record exactly when the name is not a key. In a table where each record sits under its own name, the record found is that user's |
| Security.TokenFor | online-bookstore/src/security.py:29-31 | The token is `tokenized` followed by the username, and the username is what follows the prefix |
| Security.ResolveToken | online-bookstore/src/security.py:33-37 | A token resolves exactly when it is the prefix followed by a key of the table, to the record stored under that key. In a table keyed by username, a resolving token is the prefix followed by the resolved user's name, and the prefix followed by a name that is not a key resolves to nothing |
| Security.UserFromTokenIn | online-bookstore/src/security.py:39-44 | Gives a user exactly when the resolver finds a record, and that user carries the record's username |
| Security.UserFromToken | online-bookstore/src/security.py:39-44 | Any user returned for the built-in table is one of its keys |
| Security.TokenRoundTrip | online-bookstore/src/security.py:29-44 | For every stored user, resolving that user's token gives back a user with the same name |
| Security.ResolvedTokenIsIssued | online-bookstore/src/security.py:33-44 | Conversely, a token that resolves is exactly the prefix followed by the name it resolves to |
| Security.UnknownUserToken | online-bookstore/src/security.py:33-44 | The prefix followed by a name that is not in the table resolves to nothing |
| Security.BuiltInTokens | online-bookstore/src/security.py:4-44 | `tokenizedjohndoe` and `tokenizedjanedoe` log in as those users, and a bare username does not |
| GradleMigrate.ConvertDep | tools/gradle_to_bazel/tests/migrate.py:68-70 | The result is the coordinate without its last `:`-segment, with each `:` and `.` replaced by `_`, character by character. So it has no `:` and no `.` |
| GradleMigrate.ConvertDepNoColon | tools/gradle_to_bazel/tests/migrate.py:68-70 | Without a colon nothing is dropped and only the dots change. The empty string maps to the empty string |
| GradleMigrate.ConvertDepOfCoordinate | tools/gradle_to_bazel/tests/migrate.py:68-70 | For `group:artifact:version`, the version is dropped and the rest is `group_artifact` with its dots turned into `_` (the source's `com.google.guava:guava:30.1-jre` case) |
| GradleMigrate.ConvertDepKeepsHyphen | tools/gradle_to_bazel/tests/migrate.py:68-70 | A hyphen in the artifact survives the conversion, while the label format of the format tests turns it into `_` |
| GradleMigrate.ConvertDepLabel | tools/gradle_to_bazel/tests/test_dep_format.py:3 | The test's label format: the conversion with each `-` also replaced by `_`, so it has no `:`, `.` or `-` |
| GradleMigrate.ConvertDepEmpty | tools/gradle_to_bazel/tests/test_dep_format.py:5-6 | The empty coordinate maps to the empty fragment under both conversions |
| GradleMigrate.CoordinateOf | tools/gradle_to_bazel/tests/migrate.py:16 | Every `group:artifact:version` made of the pattern's characters, with each part non-empty, is a coordinate the group matches |
| GradleMigrate.MatchDependency | tools/gradle_to_bazel/tests/migrate.py:16 | A match is a coordinate. The line is white space, then `implementation("`, then the coordinate, then `")` |
| GradleMigrate.MatchDependencyOf | tools/gradle_to_bazel/tests/migrate.py:16 | Every indented `implementation("…")` call holding a well-formed coordinate matches and yields that coordinate, whatever follows it |
| GradleMigrate.CommentedOutIgnored | tools/gradle_to_bazel/tests/migrate.py:16 | A line starting with `// ` does not match |
| GradleMigrate.BuildTextRoundTrip | tools/gradle_to_bazel/tests/migrate.py:19-32 | The lines read back from the written BUILD text are the stub's lines. There are 7 of them with no dependencies and 8 more than the dependency count otherwise, and the dependency list reads back unchanged and in order |
| GradleMigrate.BuildLines | tools/gradle_to_bazel/tests/migrate.py:19-32 | The stub has 7 lines without dependencies and 8 more than their count otherwise. It opens with the five preamble lines and closes with `)`. An empty list gives `deps = [],`, and otherwise the i-th dependency is quoted on the line after `deps = [`, and `],` comes before the closing parenthesis |
| GradleMigrate.BuildText | tools/gradle_to_bazel/tests/migrate.py:19-32 | The written text starts with the `load` line and ends with the `)` line, each ended by a newline |
| GradleMigrate.CollectDeps | tools/gradle_to_bazel/tests/migrate.py:15-18 | The collected dependencies are coordinates, at most one per line |
| GradleMigrate.CollectDepsAppend | tools/gradle_to_bazel/tests/migrate.py:15-18 | Collecting from two pieces of a file gives the two collections one after the other |
| GradleMigrate.CollectDepsOne | tools/gradle_to_bazel/tests/migrate.py:15-18 | A matching line contributes its coordinate, and any other line contributes nothing |
| GradleMigrate.MigrateAsWritten | tools/gradle_to_bazel/tests/migrate.py:13-32 | As written: an empty input fails, and every other input gives the stub with an empty `deps` |
| GradleMigrate.Migrate | tools/gradle_to_bazel/tests/migrate.py:13-32 | The corrected migration always writes a stub |
| GradleMigrate.MigrateKeepsDeps | tools/gradle_to_bazel/tests/migrate.py:13-32 | Every coordinate the corrected migration finds can be read back from its output, in file order |
| GradleMigrate.AsWrittenDropsDependency | tools/gradle_to_bazel/tests/migrate.py:15-18 | On the migration test's `kotlin-stdlib` line, the code as written emits no dependency while the corrected migration lists it |
| GradleMigrate.AsWrittenFailsOnEmpty | tools/gradle_to_bazel/tests/migrate.py:15-17 | On an empty file the code as written fails, while the corrected migration writes a stub with an empty `deps` |
| MockServices.StartService | devstack-manager/backend/app/services/mock_service.py:26-72 | Checks, in order: a running service gives `already_running` and no change; a missing config gives the `No configuration found` error and no change. Otherwise the service starts exactly when launching does not raise. It is then recorded as running on the configured port, or 9000, and the reply carries that port and says "Mock service <name> started on port <port>". A launch that raises gives "Failed to start mock service <name>: <error>". Any other outcome leaves the registry unchanged |
| MockServices.FirstPort | devstack-manager/backend/app/services/mock_service.py:80-87 | The port is 9000 with no entries. It is the first entry itself when that is an int, and the integer before its first `:` when it is a string with a colon. It is 9000 for any other first entry. There is no port when `int()` would raise on an ASCII host part |
| MockServices.FirstPortOfMapping | devstack-manager/backend/app/services/mock_service.py:83-85 | `"h:c"` gives port `h` |
| MockServices.StartFromConfig | devstack-manager/backend/app/services/mock_service.py:74-95 | Stores a config with the chosen port and the definition's routes under the name, overwriting any earlier one, and then behaves as a start. A successful start reports that port |
| MockServices.StopService | devstack-manager/backend/app/services/mock_service.py:97-112 | `not_found` exactly for a name never started, with no change. Otherwise only the running flag is cleared, the port is kept and the set of names is unchanged |
| MockServices.CreateService | devstack-manager/backend/app/services/mock_service.py:114-128 | An error exactly when the name is missing or empty, with no change. Otherwise the config is stored under its name and the running entries are untouched |
| MockServices.DeleteService | devstack-manager/backend/app/services/mock_service.py:130-145 | Always `deleted`. Both entries for the name are gone and every other name's entries are unchanged |
| MockServices.ServiceStatus | devstack-manager/backend/app/services/mock_service.py:147-161 | `not_found` exactly for a name never started. Otherwise it gives the name, the recorded port, type `mock`, and `running` or `stopped` according to the flag |
| MockServices.ListServices | devstack-manager/backend/app/services/mock_service.py:14-24 | One entry per started service, in order. Each has the name, the port, `running` exactly when the flag is set and `stopped` exactly when it is not, and the route paths of its config, or none without a config |
| MockServices.StartThenStatus | devstack-manager/backend/app/services/mock_service.py:26-161 | After a successful start, status reports the service running on the port the start reported |
| MockServices.StopThenStatus | devstack-manager/backend/app/services/mock_service.py:97-161 | After a stop, status reports the service stopped on the same port |
| MockServices.StopThenStart | devstack-manager/backend/app/services/mock_service.py:26-112 | A stopped service whose config is still present starts again |
| MockServices.StartTwice | devstack-manager/backend/app/services/mock_service.py:26-72 | A second start after a successful one reports `already_running` and changes nothing |
| MockServices.DeleteThenStatus | devstack-manager/backend/app/services/mock_service.py:14-161 | After deletion, status says `not_found` and the listing has no entry with that name |
| MockServices.CreateThenStart | devstack-manager/backend/app/services/mock_service.py:26-128 | A created config can be started, on its port or 9000 |
| MockServices.RouteRegistrations | devstack-manager/backend/app/services/mock_service.py:168-192 | At most one registration per configured route, each with one of GET, POST, PUT, DELETE or PATCH |
| MockServices.RouteTable | devstack-manager/backend/app/services/mock_service.py:163-200 | The table ends with the GET `/health` route, and every method in it is one of the five |
| MockServices.RouteRegistered | devstack-manager/backend/app/services/mock_service.py:168-192 | A registration is made exactly for a configured route whose upper-cased method (GET by default) is one of the five, with the route's status or 200 |
| DockerControl.TcpKey | devstack-manager/backend/app/services/docker_control.py:196 | The key is the container port followed by `/tcp`, and the port is what precedes that suffix |
| DockerControl.PortEntry | devstack-manager/backend/app/services/docker_control.py:193-198 | An entry raises exactly when it is text with a colon that does not split into exactly two parts. It is skipped exactly when it is neither text nor an int, or text without a colon |
| DockerControl.PortEntryOfPair | devstack-manager/backend/app/services/docker_control.py:194-196 | `"h:c"` binds key `c/tcp` to host `h` |
| DockerControl.PortPairs | devstack-manager/backend/app/services/docker_control.py:192-199 | At most one binding per entry |
| DockerControl.ParsePorts | devstack-manager/backend/app/services/docker_control.py:190-199 | A successful parse is the bindings assigned in order to an empty dict |
| DockerControl.FirstBadPort | devstack-manager/backend/app/services/docker_control.py:194-195 | Gives the position of the first entry whose unpacking raises, and none exactly when no entry raises |
| DockerControl.ParsePortsFails | devstack-manager/backend/app/services/docker_control.py:190-199 | Parsing fails exactly when some entry has more than one colon, and then with the error of the first such entry |
| DockerControl.ParsePortsGet | devstack-manager/backend/app/services/docker_control.py:190-199 | After a successful parse, each key holds the host of its last binding, no other key is present, and no key occurs twice |
| DockerControl.ParsePortsSkips | devstack-manager/backend/app/services/docker_control.py:194-198 | Appending an entry that is neither an int nor text with a colon leaves the result unchanged |
| DockerControl.ParsePortsLoop | devstack-manager/backend/app/services/docker_control.py:190-199 | The loop over the entries computes the parse, stopping at the first entry that raises |
| DockerControl.PortsStep | devstack-manager/backend/app/services/docker_control.py:193-198 | One more entry after a successful prefix: a skip changes nothing, a binding assigns its key, and a raise fails |
| DockerControl.PortsFailureSticks | devstack-manager/backend/app/services/docker_control.py:193-198 | Once a prefix fails, the whole list fails with the same error |
| DockerControl.VolumePairs | devstack-manager/backend/app/services/docker_control.py:204-207 | At most one mount per entry, each read-write |
| DockerControl.ParseVolumes | devstack-manager/backend/app/services/docker_control.py:201-208 | The result is the mounts assigned in order to an empty dict |
| DockerControl.ParseVolumesGet | devstack-manager/backend/app/services/docker_control.py:201-208 | Each host path holds the container path of the last entry naming it, in mode `rw`. Entries without a colon add nothing, and no host occurs twice |
| DockerControl.VolumeEntryOf | devstack-manager/backend/app/services/docker_control.py:205-207 | Only the first colon separates: an entry `host:rest` mounts `host` at `rest`, keeping any later colons |
| DockerControl.FormatBinding | devstack-manager/backend/app/services/docker_control.py:183-187 | A record carries the container port and the host port, and the host IP or `0.0.0.0` |
| DockerControl.FormatBindings | devstack-manager/backend/app/services/docker_control.py:182-187 | One record per binding, in order |
| DockerControl.FormatPorts | devstack-manager/backend/app/services/docker_control.py:177-188 | The number of records is the number of bindings over all ports |
| DockerControl.FormatPortsAppend | devstack-manager/backend/app/services/docker_control.py:180-187 | The records of a port table are the records of its parts, in order |
| DockerControl.NoBindingsNoRecords | devstack-manager/backend/app/services/docker_control.py:181 | A port whose bindings are `None` or empty contributes nothing |
| DockerControl.FormatOnePort | devstack-manager/backend/app/services/docker_control.py:180-187 | A single port gives exactly its bindings' records, in order |
| DockerControl.CpuUsage | devstack-manager/backend/app/services/docker_control.py:210-226 | The usage is 0 when the system time did not advance or no CPU is listed. It is non-negative when the container time did not go back, and at most 100 times the CPU count when the container used no more than the system. When the system time advanced, the usage is the container's share of the system time delta times the CPU count times 100 |
| DockerControl.MemoryUsage | devstack-manager/backend/app/services/docker_control.py:228-241 | The megabyte figures are the byte counts divided by 1024·1024. The percentage is 0 when the limit is not positive, and otherwise it is usage over limit times 100, so between 0 and 100 when usage is within the limit |
| DockerControl.NetworkUsage | devstack-manager/backend/app/services/docker_control.py:245-257 | The byte figures are the received and transmitted totals over all networks, a missing count being 0, and both are 0 without networks. The megabyte figures are the totals divided by 1024·1024 |
| DockerControl.TotalsAppend | devstack-manager/backend/app/services/docker_control.py:249-250 | The totals over two groups of networks are the sums of their totals |
| DockerControl.MissingCountsAddNothing | devstack-manager/backend/app/services/docker_control.py:249-250 | A network reporting neither count adds nothing to the totals |
| DockerControl.TotalsBound | devstack-manager/backend/app/services/docker_control.py:249 | With non-negative counts, the received total is non-negative and at least each network's count |
| DockerControl.ContainerAction | devstack-manager/backend/app/services/docker_control.py:54-109 | Succeeds exactly when there is a client, the container exists and the action does not raise, and then reports `started`, `stopped` or `restarted` with the name. With no client the message is "Docker client not available", and for a missing container it is "Container <name> not found". A success says "Container <name> <done> successfully", and an action that raises reports the exception's text |
| DockerControl.SucceededNamesContainer | devstack-manager/backend/app/services/docker_control.py:63-67 | The success message is `Container `, then the name, then the action's phrase, so the name can be read back from it |
| DockerControl.SucceededInjective | devstack-manager/backend/app/services/docker_control.py:63-67 | Two containers get the same success message for an action exactly when they are the same container |
| DockerControl.ContainerLogs | devstack-manager/backend/app/services/docker_control.py:137-150 | With no client, or a missing container, the result is the one error line. A read that raises gives the one line `Error getting logs: ` followed by the exception's message. Otherwise the result is empty exactly when the log is empty, joining the lines with `\n` gives back the log, and no line holds `\n` |
| DockerControl.LogError | devstack-manager/backend/app/services/docker_control.py:149-150 | The line is `Error getting logs: ` followed by the exception's message, which can be read back |
| VmControl.DetectProvider | devstack-manager/backend/services/vm_control.py:7-19 | The provider is the one for the first of VBoxManage, virsh and vagrant found on the path, and `none` when none is found. A chosen provider's tool is on the path |
| VmControl.Command | devstack-manager/backend/services/vm_control.py:112-134 | The command runs the provider's tool on the named VM |
| VmControl.Control | devstack-manager/backend/services/vm_control.py:32-52 | The status is `error` exactly when there is no provider or the command fails. It is `started` or `stopped` exactly when the command succeeds, and then comes with the VM and provider names. The message is "No VM provider available" without a provider, and otherwise "Failed to start VM: " or "Failed to stop VM: " followed by the error |
| VmControl.FillReportKeeps | devstack-manager/backend/services/vm_control.py:146-155 | A key that no output line produces keeps its initial value |
| VmControl.FillReport | devstack-manager/backend/services/vm_control.py:146-155 | Each key holds the value of the last output line that sets it, and a key no line sets keeps its initial value |
| VmControl.FillReportLast | devstack-manager/backend/services/vm_control.py:146-155 | A key holds the value from the last line that produces it |
| VmControl.AfterEqualsOf | devstack-manager/backend/services/vm_control.py:149-153 | For a key without `=`, the value read is the text up to the next `=` |
| VmControl.UnquoteOf | devstack-manager/backend/services/vm_control.py:149 | A quoted value loses its quotes |
| VmControl.VBoxField | devstack-manager/backend/services/vm_control.py:147-153 | Only `status`, `memory` and `cpus` are read, and `status` only from a `VMState=` line |
| VmControl.VBoxStatus | devstack-manager/backend/services/vm_control.py:136-157 | A failed command gives `not_found` with the name. The report always carries the name, and on success the provider `virtualbox` |
| VmControl.VBoxStateLine | devstack-manager/backend/services/vm_control.py:148-149 | `VMState="v"` gives status `v` |
| VmControl.VBoxStatusOf | devstack-manager/backend/services/vm_control.py:147-149 | The status is the unquoted value of the last `VMState=` line |
| VmControl.LibvirtField | devstack-manager/backend/services/vm_control.py:218-226 | Only `status`, `max_memory`, `used_memory` and `cpus` are read, and `status` only from a `State:` line |
| VmControl.LibvirtStatus | devstack-manager/backend/services/vm_control.py:207-230 | A failed command gives `not_found` with the name. The report always carries the name, and on success the provider `libvirt` |
| VmControl.LibvirtStateLine | devstack-manager/backend/services/vm_control.py:219-220 | `State:v` gives the stripped `v` as the status |
| VmControl.LibvirtStatusOf | devstack-manager/backend/services/vm_control.py:218-220 | The status is the stripped text after `State:` on the last such line |
| VmControl.VagrantStatusOf | devstack-manager/backend/services/vm_control.py:286-310 | A failed command gives `not_found`. Otherwise a report with provider `vagrant` comes back exactly when some line mentions the VM and has at least two words, and its status is the later words of the first such line joined by spaces. Without such a line the result is `not_found`. The name is always reported |
| VmControl.VagrantStatus | devstack-manager/backend/services/vm_control.py:286-310 | Runs `vagrant status <name>`. A failed run gives `not_found`. The provider is `vagrant` exactly when the run completes and some output line names the VM with a state. The name is always reported |
| VmControl.VagrantLinesReport | devstack-manager/backend/services/vm_control.py:296-308 | Over the lines of the output: provider `vagrant` exactly when some line mentions the VM and has a state word, with the status taken from the first such line; otherwise the `not_found` report |
| VmControl.VBoxLineOf | devstack-manager/backend/services/vm_control.py:80-83 | A `"name" {uuid}` listing line reads back as that name and uuid |
| VmControl.VBoxState | devstack-manager/backend/services/vm_control.py:92-97 | A failed `showvminfo` gives `unknown`, and so does output without a `VMState=` line |
| VmControl.VBoxStateOf | devstack-manager/backend/services/vm_control.py:94-97 | The first `VMState=` line decides the state |
| VmControl.VBoxEntries | devstack-manager/backend/services/vm_control.py:77-104 | At most one VirtualBox VM per line |
| VmControl.VBoxEntriesCons | devstack-manager/backend/services/vm_control.py:77-104 | A readable line contributes its VM, with the state `showvminfo` gives for its uuid, ahead of the rest |
| VmControl.VBoxEntriesOf | devstack-manager/backend/services/vm_control.py:77-104 | Reading a printed listing gives every VM back, in order, each with its state |
| VmControl.ListVBox | devstack-manager/backend/services/vm_control.py:66-110 | A `VBoxManage list vms` that cannot be started gives the single "Error listing VMs: <e>" entry. A listing that exits with an error gives the single "Failed to list VirtualBox VMs: <e>" entry. Otherwise, if a `showvminfo` call cannot be started, the result is the single "Error listing VMs: <e>" entry, and if every call starts it is the VMs read from the listing. Every entry is a VirtualBox VM or an error |
| VmControl.VBoxFault | devstack-manager/backend/services/vm_control.py:77-110 | No exception exactly when the `showvminfo` call of every readable listing line can be started. Otherwise it is the exception of one of those calls |
| VmControl.InfoFaultDropsListing | devstack-manager/backend/services/vm_control.py:86-110 | One `showvminfo` call that cannot be started replaces the whole listing with the single catch-all error entry |
| VmControl.LibvirtRow | devstack-manager/backend/services/vm_control.py:173-185 | A line gives a VM exactly when it has at least three words |
| VmControl.LibvirtRowOf | devstack-manager/backend/services/vm_control.py:174-178 | For a row printed from its words, the name is the second word and an id of `-` means none. The status is the remaining words joined by spaces |
| VmControl.LibvirtEntries | devstack-manager/backend/services/vm_control.py:172-185 | At most one libvirt VM per line |
| VmControl.DropHeader | devstack-manager/backend/services/vm_control.py:171 | The listing without its first two lines |
| VmControl.ListLibvirt | devstack-manager/backend/services/vm_control.py:160-189 | A failed listing gives the one error entry. Otherwise there is at most one VM per line after the two header lines, and every entry is a libvirt VM |
| VmControl.VagrantRow | devstack-manager/backend/services/vm_control.py:255-264 | A line gives a VM exactly when it has at least four words |
| VmControl.VagrantRowOf | devstack-manager/backend/services/vm_control.py:256-264 | For a row printed from its words: the id, name and state are words 0, 1 and 3, and the directory is word 4, or empty |
| VmControl.VagrantScan | devstack-manager/backend/services/vm_control.py:247-264 | At most one Vagrant VM per line |
| VmControl.VagrantOutsideSection | devstack-manager/backend/services/vm_control.py:245-255 | Without an `id` line nothing is listed |
| VmControl.VagrantHeaderThenRule | devstack-manager/backend/services/vm_control.py:247-255 | A header followed at once by a `---` rule clears the flag, so the rows under it are not listed |
| VmControl.VagrantFlagLine | devstack-manager/backend/services/vm_control.py:248-253 | A line that sets or clears the flag is not a row |
| VmControl.VagrantSectionRow | devstack-manager/backend/services/vm_control.py:255-264 | Inside the section, a row is listed in place |
| VmControl.ListVagrant | devstack-manager/backend/services/vm_control.py:233-268 | A failed listing gives the one error entry, and every entry is a Vagrant VM or an error |
| VmControl.ListVms | devstack-manager/backend/services/vm_control.py:21-30 | With no provider the list is empty. Every entry belongs to the detected provider, or is an error |
| VmControl.VmStatus | devstack-manager/backend/services/vm_control.py:54-63 | With no provider the result is the "No VM provider available" error. Otherwise the report names the VM |
| ProfileManager.GetProfile | devstack-manager/backend/app/services/profile_manager.py:40-54 | `<name>.yaml` is read when present, and otherwise `<name>.yml`. Only a document that parses to a non-empty mapping is a profile. Without either file there is no profile |
| ProfileManager.Chosen | devstack-manager/backend/app/services/profile_manager.py:40-54 | `get_profile` returns the `.yaml` file's document when that file exists, and otherwise the `.yml` file's. A file that fails to load, or no file, gives nothing |
| ProfileManager.ListProfiles | devstack-manager/backend/app/services/profile_manager.py:17-38 | At most one entry per file in the directory |
| ProfileManager.Summary | devstack-manager/backend/app/services/profile_manager.py:31-33 | The entry is the `profile` section with `filename` set to the file name and `services_count` to the number of services. Every other key is left as it was |
| ProfileManager.ListProfilesOf | devstack-manager/backend/app/services/profile_manager.py:24-34 | Exactly the `.yaml`/`.yml` files that load as mappings are listed, in directory order, each as its summary (ProfileManager.Summarise) |
| ProfileManager.Loadable | devstack-manager/backend/app/services/profile_manager.py:25-34 | The files kept are files of the listing with a profile extension that load as mappings |
| ProfileManager.RunHooks | devstack-manager/backend/app/services/profile_manager.py:167-186 | One hook run per hook, in list order, and nothing else. Each hook sees the events of the hooks before it, and no outcome stops the rest |
| ProfileManager.HooksAllRun | devstack-manager/backend/app/services/profile_manager.py:167-186 | Whatever the hooks' outcomes, the commands run are exactly the hook list |
| ProfileManager.HookCommands | devstack-manager/backend/app/services/profile_manager.py:169-172 | Hook runs of the listed commands, position by position, run exactly those commands |
| ProfileManager.DockerStart | devstack-manager/backend/app/services/profile_manager.py:126-136 | Lists the containers first. It creates the container exactly when no listed container has the name, and starts it exactly when the container existed or creation did not reply with an error. An error reply from creation is the result, and otherwise the start call's reply is |
| ProfileManager.Dispatch | devstack-manager/backend/app/services/profile_manager.py:121-165 | Makes no call exactly when the type is not docker, vm or mock, and then the result is "Unknown service type: <type>". Apart from starting a docker service, a known type makes the one driver call for its type, action and name, and the driver's reply is the outcome. Starting a docker service lists the containers first, and a start call it makes is its last call. Every call is about the service |
| ProfileManager.VisitService | devstack-manager/backend/app/services/profile_manager.py:68-77 | The visit makes exactly the dispatch's calls. A reply from the service is its result, and an exception becomes a `{service, status: error, message}` entry. An unknown type makes no call |
| ProfileManager.Visits | devstack-manager/backend/app/services/profile_manager.py:68-77 | Every service is visited, in the given order, each after the events of the visits before it. A failing service does not stop the loop |
| ProfileManager.NoHooksInVisits | devstack-manager/backend/app/services/profile_manager.py:121-165 | Visiting services runs no hook |
| ProfileManager.Results | devstack-manager/backend/app/services/profile_manager.py:68-77 | One result per visit, in visit order |
| ProfileManager.RunProfile | devstack-manager/backend/app/services/profile_manager.py:56-119 | A missing profile gives "Profile <name> not found", and a file holding a truthy value that is not a mapping raises `AttributeError`; neither runs a hook or calls a driver. Otherwise the `pre_` hooks run, then each service is visited (declared order to start, reversed to stop), then the `post_` hooks run; the hook segments hold hook runs only. The reply is completed, names the profile and lists one result per visit, in order |
| ProfileManager.HookOrder | devstack-manager/backend/app/services/profile_manager.py:56-119 | The hooks a request runs are its `pre_` hooks followed by its `post_` hooks, with none between service visits |
| ProfileManager.VisitsInOrder | devstack-manager/backend/app/services/profile_manager.py:68-77 | A request makes one visit per service in visiting order, and the i-th visit makes driver calls about the i-th service only |
| ProfileManager.StopReverses | devstack-manager/backend/app/services/profile_manager.py:99-101 | Stopping visits the last-declared service first: the i-th visit is about the i-th service from the end |
| ProfileManager.UnknownStatus | devstack-manager/backend/app/services/profile_manager.py:206-207 | The status of an unknown type is `unknown` |
| ProfileManager.Stamp | devstack-manager/backend/app/services/profile_manager.py:209-210 | The entry carries the service's name and type, and the driver's status |
| ProfileManager.StatusEntry | devstack-manager/backend/app/services/profile_manager.py:196-211 | An entry is stamped with the name and type. An unknown type is `unknown` with no call, and a known one makes exactly one status query |
| ProfileManager.ProfileStatus | devstack-manager/backend/app/services/profile_manager.py:188-216 | A missing profile gives "Profile <name> not found" with no call, and a file holding a truthy value that is not a mapping raises `AttributeError` before any call. Otherwise there is one entry per service, in declared order. No hook runs |
| ProfileManager.StatusCalls | devstack-manager/backend/app/services/profile_manager.py:196-205 | Status queries run no hook |
| Validation.TrailingNewlineAccepted | projgen/src/projgen/validation.py:60 | The pattern as written accepts `demo\n`, which is not a name |
| Validation.CheckName | projgen/src/projgen/validation.py:54-70 | A name passes exactly when it is a letter followed by letters, digits, `_` and `-`. An empty name is the "required" error and a malformed one the pattern error, each appended once. A passing name adds no error, and warns exactly when it is longer than 50 characters |
| Validation.CheckLanguage | projgen/src/projgen/validation.py:72-84 | A language passes exactly when it is one of the supported languages, and then nothing is recorded. A failure appends one error: "Programming language is required" for an empty language, otherwise "Unsupported language: <language>" |
| Validation.CheckBuildSystem | projgen/src/projgen/validation.py:86-98 | A build system passes exactly when it is bazel, gradle or both, and then nothing is recorded. A failure appends one error: "Build system is required" for an empty value, otherwise "Invalid build system: <value>" |
| Validation.CheckLicense | projgen/src/projgen/validation.py:100-115 | The license never fails and never adds an error. Nothing is recorded exactly when it is a common license. Otherwise one warning is appended: "No license specified" for an empty license, "Uncommon license: <id>" for any other |
| Validation.Field | projgen/src/projgen/validation.py:37-49 | A missing key reads as the empty string |
| Validation.ValidateConfig | projgen/src/projgen/validation.py:23-52 | Valid exactly when the name, language and build system pass, and exactly when no error is recorded. At most one error is ever recorded. A bad name leaves only its own error, with nothing from before the call |
| Validation.LicenseLast | projgen/src/projgen/validation.py:23-52 | An uncommon license warns exactly when every earlier check passed |
| Validation.NameExamples | projgen/src/tests/test_enhanced_features.py:23-33 | "my-project", "MyProject123" and "project_name" pass; "", "123project" and "my project" fail |
| Validation.ChoiceExamples | projgen/src/tests/test_enhanced_features.py:35-48 | python and java are languages and "invalid" and "" are not; gradle, bazel and both are build systems and "maven" and "" are not |
| Validation.GoodConfigExample | projgen/src/tests/test_enhanced_features.py:50-58 | The suite's valid configuration validates |
| Validation.BadConfigExample | projgen/src/tests/test_enhanced_features.py:60-66 | The suite's invalid configuration fails with the name error alone |
| Validation.MissingFields | projgen/src/projgen/validation.py:184-188 | No error exactly when every required field is present, and at most one error per field. When every listed field is absent, the i-th error is "Missing required field in manifest: <i-th field>" |
| Validation.MissingMessage | projgen/src/projgen/validation.py:188 | The message starts with "Missing required field in manifest: ", and the field reads back from the rest |
| Validation.MissingFieldsAppend | projgen/src/projgen/validation.py:186-188 | The errors for a list of fields are those of its first part followed by those of the rest, so each absent field gets its message in list order |
| Validation.NoRequiredField | projgen/src/projgen/validation.py:185-188 | A manifest with none of the required fields gets the four messages for name, description, version and templates, in that order |
| Validation.EntryErrors | projgen/src/projgen/validation.py:190-198 | No error exactly when every entry is an object with `source` and `target`, and at most one error per entry. When every entry is bad, the i-th error is the i-th entry's message |
| Validation.EntryMessage | projgen/src/projgen/validation.py:192-198 | A bad entry's message is "Template entries must be objects" exactly when it is not an object. It is "Template entries must have 'source' and 'target'" exactly when it is an object missing one of them |
| Validation.EntryErrorsAppend | projgen/src/projgen/validation.py:191-198 | The errors for a list of entries are those of its first part followed by those of the rest, so each bad entry gets its message in order |
| Validation.ValidateManifest | projgen/src/projgen/validation.py:170-207 | Raises `TypeError` exactly in two cases. A null document (an empty file) raises it before anything is recorded. A `templates` value the loop cannot iterate (`null`, a number, a boolean) raises it after the missing-field errors are recorded. Otherwise warnings are untouched, and a mapping's errors are the earlier ones, then the missing-field errors, then the entry errors. Valid exactly when no error was recorded before and the manifest has every required field and only well-formed entries. A missing file appends the not-found error |
| Validation.MappingErrorsEmpty | projgen/src/projgen/validation.py:184-200 | A mapping whose `templates` loop does not raise gets no error exactly when it has every required field and only well-formed entries |
| Validation.ManifestErrorsExample | projgen/src/projgen/validation.py:184-200 | A manifest with `name` and `templates` only, whose entries are a string and a mapping with only `source`, fails with the description and version errors, then the two entry errors |
| Validation.Bullets | projgen/src/projgen/validation.py:215-221 | One bullet line per message, in order |
| Validation.Section | projgen/src/projgen/validation.py:213-221 | A section with no messages is absent. Otherwise it is the heading followed by one bullet per message |
| Validation.ReportLines | projgen/src/projgen/validation.py:211-224 | The report's lines are the errors section, then the warnings section, then the all-clear line when both lists are empty |
| Validation.Report | projgen/src/projgen/validation.py:209-226 | With no errors and no warnings, the report is the all-clear line |
| Validation.AllPassedIff | projgen/src/projgen/validation.py:223-224 | The all-clear line appears exactly when there are no errors and no warnings |
| Plugins.BaseImage | projgen/src/projgen/plugins.py:92-104 | A language in the image table gets its image. Every other language, and a missing one, gets `ubuntu:22.04`, and only those do |
| Plugins.PortFor | projgen/src/projgen/plugins.py:106-118 | A language in the port table gets its port. Every other language, and a missing one, gets 8080 |
| Plugins.DockerConfigure | projgen/src/projgen/plugins.py:84-90 | Only the docker section can change. With the feature off it stays as it was. With it on, it holds the language's base image and default port |
| Plugins.DockerConfigureIdempotent | projgen/src/projgen/plugins.py:84-90 | Configuring an already configured project changes nothing |
| Plugins.Dockerfile | projgen/src/projgen/plugins.py:140-194 | The file starts with `FROM` and the configured image (or the default), exposes the configured port (or 8080) and ends with the language's start command |
| Plugins.Compose | projgen/src/projgen/plugins.py:196-213 | The compose file declares a service named after the project, or `app` when there is no name |
| Plugins.DockerignoreLines | projgen/src/projgen/plugins.py:215-235 | Read back line by line, the `.dockerignore` gives the common patterns followed by the language's own |
| Plugins.Dockerignore | projgen/src/projgen/plugins.py:215-235 | The text is the common patterns and then the language's own, each ended by a newline, and read back line by line it gives those patterns |
| Plugins.DockerFiles | projgen/src/projgen/plugins.py:120-138 | No files exactly when the docker feature is off. Otherwise exactly `Dockerfile`, `docker-compose.yml` and `.dockerignore` |
| Plugins.PythonDockerExample | projgen/src/tests/test_enhanced_features.py:78-99 | A Python project with the feature on is configured with `python:3.12-slim` and port 8000, and gets the three Docker files |
| Plugins.MkDocs | projgen/src/projgen/plugins.py:262-284 | `mkdocs.yml` starts by naming the site after the project |
| Plugins.DocsFiles | projgen/src/projgen/plugins.py:257-328 | No files exactly when the docs feature is off. Otherwise exactly `mkdocs.yml` and the three pages, with `Project` standing in for a missing name |
| Plugins.Register | projgen/src/projgen/plugins.py:343-345 | The plugin is found under its name afterwards, and every other name finds what it found before. The registry grows by one exactly when the name is new, and it keeps one entry per name |
| Plugins.Builtins | projgen/src/projgen/plugins.py:334-341 | A new manager's registry has one entry per name |
| Plugins.GetPlugin | projgen/src/projgen/plugins.py:386-388 | A plugin is found exactly when its name is registered, and it is the one stored under that name |
| Plugins.ListPlugins | projgen/src/projgen/plugins.py:390-392 | The plugins in registration order, one per entry |
| Plugins.BuiltinsListed | projgen/src/projgen/plugins.py:334-341 | A new manager lists two plugins and finds `docker` and `docs` by name |
| Plugins.ApplyOne | projgen/src/projgen/plugins.py:396-408 | A configure that raises logs one error and changes nothing else. Otherwise its configuration is kept and the files generated from it are written. At most one error is logged, after the earlier ones. The hooks come from Plugins.Configure, Plugins.Generate and Plugins.PostGenerate: the built-ins use DockerConfigure, DockerFiles and DocsFiles, and an external plugin uses its own functions |
| Plugins.Log | projgen/src/projgen/plugins.py:407-408 | No exception logs nothing. An exception appends one line naming the plugin (Plugins.Name: `docker`, `docs`, or an external plugin's own name) and the error |
| Plugins.ApplyAll | projgen/src/projgen/plugins.py:394-408 | Earlier errors are kept, and each plugin logs at most one more |
| Plugins.ApplyPlugins | projgen/src/projgen/plugins.py:394-408 | At most one error per registered plugin |
| Plugins.ApplyAllAppend | projgen/src/projgen/plugins.py:396-408 | Applying a list of plugins is applying its first part and then the rest, so no plugin's outcome stops the ones after it |
| Plugins.BuiltinsApply | projgen/src/projgen/plugins.py:84-408 | The built-in plugins log nothing. The configuration is the Docker-configured one, and the files are the Docker files then the docs files |
| Plugins.DockerStep | projgen/src/projgen/plugins.py:84-138 | The Docker plugin's turn configures, writes its files and logs nothing |
| Plugins.DocsStep | projgen/src/projgen/plugins.py:253-328 | The docs plugin's turn leaves the configuration alone, writes its files and logs nothing |
| Plugins.InfoLines | projgen/src/projgen/plugins.py:416-417 | One line per plugin, in order |
| Plugins.PluginInfo | projgen/src/projgen/plugins.py:410-419 | "No plugins available." exactly when the registry is empty. Otherwise the text starts with the header |
| Plugins.PluginInfoLines | projgen/src/projgen/plugins.py:410-419 | With single-line names and descriptions, the text splits back into the header and one line per plugin, in registry order |
| ProjgenScaffold.Readme | projgen/src/generators/scaffold.py:49-50 | The README starts with the project name as a heading |
| ProjgenScaffold.License | projgen/src/generators/scaffold.py:52-53 | The LICENSE starts by naming the license |
| ProjgenScaffold.CiWorkflow | projgen/src/generators/scaffold.py:91 | The workflow starts with a comment naming the project |
| ProjgenScaffold.Paths | projgen/src/generators/scaffold.py:33-44 | The files written always begin with README.md, LICENSE and .gitignore, in that order |
| ProjgenScaffold.Contents | projgen/src/generators/scaffold.py:47-92 | One text per file written, and the three common files hold the README, the license text and the fixed ignore list |
| ProjgenScaffold.Dirs | projgen/src/generators/scaffold.py:59-89 | Both language source directories are always made. The workflows directory is made exactly when the provider is GitHub, and no other directory is made |
| ProjgenScaffold.Scaffold | projgen/src/generators/scaffold.py:8-44 | An error exactly when the directory exists and `overwrite` is off, with message "Directory <name> already exists". Otherwise the project holds exactly the planned files with their texts and exactly the planned directories |
| ProjgenScaffold.GradleIff | projgen/src/generators/scaffold.py:37-38 | `build.gradle` and `settings.gradle` are written exactly when the build system is gradle or both |
| ProjgenScaffold.BazelIff | projgen/src/generators/scaffold.py:40-41 | `WORKSPACE` and `BUILD.bazel` are written exactly when the build system is bazel or both |
| ProjgenScaffold.CiIff | projgen/src/generators/scaffold.py:43-44 | `.github/workflows/ci.yml` is written exactly when the provider is `github` |
| ProjgenScaffold.PathsDistinct | projgen/src/generators/scaffold.py:33-44 | No file is written twice, so each file holds the one text written to it |
| ProjgenScaffold.CommonFiles | projgen/src/generators/scaffold.py:47-56 | A successful scaffold always holds README.md, LICENSE and .gitignore with their fixed texts |
| ProjenScaffold.OutputNameOf | projen/generators/scaffold.py:40 | Removing `.j2` from a template name without a `j` gives back its stem |
| ProjenScaffold.OutputNameStem | projen/generators/scaffold.py:40-64 | The output name of `<stem>.j2` is the stem, except that `gitignore` becomes `.gitignore` |
| ProjenScaffold.RenderAll | projen/generators/scaffold.py:37-66 | One render step per template, in order. Each reads `<dir>/<stem>.j2` and writes the template's output name |
| ProjenScaffold.WrittenRenderAll | projen/generators/scaffold.py:37-44 | Rendering a group writes exactly the group's output names, in order |
| ProjenScaffold.CommonNames | projen/generators/scaffold.py:36-42 | The common templates write README.md, LICENSE and .gitignore |
| ProjenScaffold.GradleNames | projen/generators/scaffold.py:49-52 | The Gradle templates write `build.gradle` and `settings.gradle` |
| ProjenScaffold.BazelNames | projen/generators/scaffold.py:61-64 | The Bazel templates write `WORKSPACE` and `BUILD.bazel` |
| ProjenScaffold.Plan | projen/generators/scaffold.py:35-77 | The run always starts with the three common templates and always ends with the CI workflow |
| ProjenScaffold.WrittenAppend | projen/generators/scaffold.py:35-77 | The files written by two runs in sequence are the first run's files, then the second's |
| ProjenScaffold.CommonWritten | projen/generators/scaffold.py:35-44 | The common block writes README.md, LICENSE and .gitignore |
| ProjenScaffold.GradleWritten | projen/generators/scaffold.py:46-57 | The Gradle block writes `build.gradle` and `settings.gradle`, and nothing else |
| ProjenScaffold.BazelWritten | projen/generators/scaffold.py:59-70 | The Bazel block writes `WORKSPACE`, `BUILD.bazel` and `src/BUILD.bazel` |
| ProjenScaffold.PlanWritten | projen/generators/scaffold.py:35-77 | The files written are the common files, then the Gradle files when the build system is gradle or both, then the Bazel files when it is bazel or both, then `.github/workflows/ci.yml` |
| ProjenScaffold.GradleIff | projen/generators/scaffold.py:47-54 | `build.gradle` and `settings.gradle` are written exactly when the build system is gradle or both |
| ProjenScaffold.BazelIff | projen/generators/scaffold.py:60-70 | `WORKSPACE` and `src/BUILD.bazel` are written exactly when the build system is bazel or both |
| ProjenScaffold.SourceDirsIff | projen/generators/scaffold.py:56-57 | `src/main/<language>` is made exactly when the build system is gradle or both |
| ProjenScaffold.Writes | projen/generators/scaffold.py:43-77 | One write per file-producing step, to that step's path |
| ProjenScaffold.Execute | projen/generators/scaffold.py:37-77 | The run stops exactly when a template cannot be loaded, and the one it reports cannot be loaded |
| ProjenScaffold.ExecuteComplete | projen/generators/scaffold.py:35-77 | When every template loads, the files are the step writes applied in order, and the directories made are added |
| ProjenScaffold.ExecuteAppend | projen/generators/scaffold.py:35-77 | Running two step lists in sequence is the same as running them joined. A missing template in the first list stops the run before the second |
| ProjenScaffold.PlanKeys | projen/generators/scaffold.py:35-77 | When every template loads, the files of the project are exactly the planned files, each once |
| ProjenScaffold.Scaffold | projen/generators/scaffold.py:7-77 | An error exactly when the directory exists and `overwrite` is off, with message "Project directory <root> already exists.". When every template loads, the run completes and holds exactly the planned files. A run that stops names a template that cannot be loaded |
| ProjenScaffold.PlanDistinct | projen/generators/scaffold.py:35-77 | No path is written twice |
| FixPatches.Group | scripts/fix_patches.py:36-43 | Each input line is kept. It is preceded by one blank line exactly when it and the line before it both start a diff |
| FixPatches.Groups | scripts/fix_patches.py:36-43 | One group per input line, in order |
| FixPatches.SeparateLoop | scripts/fix_patches.py:33-43 | The loop produces every line's group, in input order |
| FixPatches.SeparateSeparated | scripts/fix_patches.py:36-43 | After separation no two adjacent lines both start a diff |
| FixPatches.SeparateIdempotent | scripts/fix_patches.py:36-43 | Separating twice is the same as separating once |
| FixPatches.SeparateTwoDiffs | scripts/fix_patches.py:38-42 | Two consecutive diff headers get a blank line between them |
| FixPatches.TrimTrailing | scripts/fix_patches.py:45-47 | The result is a prefix of the lines, ends with a non-empty line when non-empty, and only empty lines were dropped |
| FixPatches.BlockLines | scripts/fix_patches.py:29-30 | Nothing when the end marker comes before the start marker. Otherwise the first line of the block, rejoined with the rest, gives the block back, and no line contains a newline |
| FixPatches.FixPatchMarkers | scripts/fix_patches.py:18-27 | A file is refused exactly when one of the two markers does not occur in it |
| FixPatches.FixPatch | scripts/fix_patches.py:11-58 | Nothing is written exactly when one of the two markers does not occur. Otherwise the written text does not end with a newline |
| FixPatches.FixedLines | scripts/fix_patches.py:45-50 | A successful fix is its lines joined by newlines, and the last line is not empty |
| FixPatches.FixPatchLines | scripts/fix_patches.py:29-50 | Splitting a non-empty fixed patch at newlines gives back exactly its lines |
| FixPatches.SeparateNoNewlines | scripts/fix_patches.py:36-43 | Separation adds no line that contains a newline |
| FixPatches.FixedPath | scripts/fix_patches.py:53 | The fixed path ends in `.fixed.patch` and keeps the name before `.patch` |
| FixPatches.FixedPathInjective | scripts/fix_patches.py:53 | Two patch names have the same fixed path exactly when they are the same name |
| FixPatches.Fixes | scripts/fix_patches.py:72-73 | One fix result per patch file, in order |
| FixPatches.Outcomes | scripts/fix_patches.py:73 | Each file counts as a success exactly when its fix produced output |
| FixPatches.CountTrue | scripts/fix_patches.py:71-74 | The count is at most the number of files, and equals it exactly when every file succeeded |
| FixPatches.FixedPathsDistinct | scripts/fix_patches.py:53-62 | Distinct patch files are written to distinct places |
| FixPatches.FixAll | scripts/fix_patches.py:60-79 | The exit code is 0 exactly when there is at least one file and every file was fixed, and 1 otherwise. Every fixed file is written to its own fixed path with its fixed text, no refused file is written, and one file is written per success |
| FixPatches.Written | scripts/fix_patches.py:72-74 | Only the paths of visited files are written |
| FixPatches.WrittenCount | scripts/fix_patches.py:71-74 | With distinct paths, one file is written per success |
| FixPatches.WrittenSuccesses | scripts/fix_patches.py:72-74 | With distinct paths, each success is written to its own path with its own text |
| FixPatches.WrittenFailures | scripts/fix_patches.py:72-74 | A refused file is never written |
| FixPatches.WriteFixed | scripts/fix_patches.py:71-74 | The success count equals the number of successes and the number of files written. Each success is written to its path, and no failure is |
| ReadmeTable.Link | scripts/gen_readme_table.py:14 | The link shows the path and points to `./<path>` |
| ReadmeTable.Row | scripts/gen_readme_table.py:12-15 | A row starts with the project's name cell and ends with its link cell |
| ReadmeTable.Rows | scripts/gen_readme_table.py:10-15 | One row per project, in manifest order |
| ReadmeTable.TableLines | scripts/gen_readme_table.py:9-17 | The table has the two header lines, then one line per project, or one empty line when there are no projects |
| ReadmeTable.Table | scripts/gen_readme_table.py:9-17 | The table text is its lines, each ended by a newline: the two header lines, then one row per project (or one blank line when there are none) |
| ReadmeTable.RowOneLine | scripts/gen_readme_table.py:12-15 | A project without line breaks in its fields gives a single-line row |
| ReadmeTable.TableReadsBack | scripts/gen_readme_table.py:9-17 | Split at newlines, the table text of single-line projects gives back its lines |
| ReadmeTable.Emit | scripts/gen_readme_table.py:21-32 | A start marker is kept and followed by the table. An end marker is kept. Any other line is kept exactly when it lies outside the block |
| ReadmeTable.SpliceLoop | scripts/gen_readme_table.py:20-32 | The loop computes the splice of the README's lines, starting outside the block |
| ReadmeTable.Splice | scripts/gen_readme_table.py:20-32 | At most two output lines per README line, and every output line is a README line or the table |
| ReadmeTable.Regenerate | scripts/gen_readme_table.py:19-34 | The new text ends with a newline. A README with no marker lines keeps its lines unchanged |
| ReadmeTable.SpliceLine | scripts/gen_readme_table.py:21-32 | One step appends what the line emits and moves to the line's block state |
| ReadmeTable.SpliceSkipsBlock | scripts/gen_readme_table.py:31-32 | Lines inside the block, up to the next marker, are dropped |
| ReadmeTable.SpliceKeepsOutside | scripts/gen_readme_table.py:31-32 | Lines outside the block, up to the next marker, are kept as they are |
| ReadmeTable.OneBlock | scripts/gen_readme_table.py:20-32 | In a README with one marked block, everything outside is kept and the block's old contents are replaced by the table |
| ReadmeTable.CheckStatus | scripts/gen_readme_table.py:34-38 | With `--check`, the status is 0 exactly when regenerating would not change the README, and 1 otherwise |
| ReadmeTable.RegenerateIdempotent | scripts/gen_readme_table.py:9-40 | With single-line fields, regenerating an already regenerated README changes nothing, so `--check` passes right after a regeneration |
| ReadmeTable.SpliceTextIdempotent | scripts/gen_readme_table.py:19-34 | Splicing the text of a splice again, with the same single-line table, gives the same text |
| ReadmeTable.EmptySpliceText | scripts/gen_readme_table.py:19-34 | The README text "\n" regenerates to itself |

## Left out

- Input and output are left out: reading and writing files, directory listings, subprocess calls, `shutil.which`, the Docker SDK and printing. Each operation takes what these would have produced as a value or a function parameter, and returns what it would have written.
- Concurrency is left out: asyncio, `asyncio.sleep`, the mock server's thread and `_run_server`, and the aiohttp application object. For the mock registry, a launch failure is a parameter of the start operations.
- YAML parsing is left out. A profile file, a manifest and the portfolio manifest reach the model already parsed. A profile file is a non-empty or empty mapping, a null document, a value of another type (its type name and truthiness), malformed text or a missing file. A manifest is a mapping, a null document, malformed text or a missing file. A mapping's `templates` value is the entries the loop would visit, or a value it cannot iterate.
- Validation.ValidateManifest: a manifest document that loads as a list, a string or a number is left out. Python would test the required fields with `in` on that value, which the model does not represent.
- Jinja2 is left out. In projen's scaffold, rendering is an opaque function from template path to text, which may fail. `validate_templates` and `_get_dummy_template_vars` in projgen/src/projgen/validation.py:117-168 only drive Jinja2, so they are not modelled.
- `load_plugin_from_file` and `load_plugins_from_directory` (projgen/src/projgen/plugins.py:347-384) import Python code dynamically. A plugin from elsewhere is the `External` case, with its name, version and description and its configure, generate and post-generate behaviour as functions.
- The abstract base class `ProjectPlugin` is left out. The two built-in plugins and `External` are the cases of one datatype.
- `DockerService.list_containers`, `get_container_status` and `create_container_from_config`, and the lazy client set-up, are left out (devstack-manager/backend/app/services/docker_control.py:16-53, 111-135, 152-175). They wrap SDK calls. The orchestrator sees the Docker driver through its `World` parameter, and the helpers they use are modelled.
- Floating point is left out. CPU, memory and network figures are computed as real numbers before Python's `round`, and megabytes are exact quotients.
- `list_profiles` on a configuration directory that does not exist (devstack-manager/backend/app/services/profile_manager.py:21-22) is the empty listing. A profile whose `profile` section is not a mapping is not distinguished from a mapping.
- Report values are strings. The orchestrator's reports and the profile summaries are dictionaries of text, so `services_count` appears as its decimal text.
- A service whose name or type is missing or not a string is left out (Python passes `None` on to the drivers). Names and types are strings.
- Python's `bool` is an `int`, so `True` in a port list would count as port 1. A port entry is a number, a text or something else, and booleans are not distinguished.
- MockServices.FirstPort: `int()` on the host part reads ASCII digits only (Text.ParseInt). Python also reads the other Unicode decimal digits, so a first entry such as `"８０８０:80"` gives port 8080 in Python but no port in the model. The Unicode character database is not modelled.
- GradleMigrate.MatchDependency: the pattern's `\w` and `\d` are ASCII only (GradleMigrate.IsWordChar, GradleMigrate.IsVersionChar). Python's `re` on a `str` also accepts other Unicode letters and digits there, so a coordinate such as `org.café:lib:1.0` matches in Python but not in the model. The Unicode character database is not modelled.
- Upper-casing of route methods is ASCII only. Python's Unicode case mapping (for example `ß` to `SS`) is left out.
- `os.makedirs(..., parents=True)` making every ancestor directory is left out. A scaffolded tree records the directories the code asks for, not their parents.
- projen's `os.path.abspath(project_name)` is left out. The root is a parameter, and the error message names it.
- projen's final progress line (projen/generators/scaffold.py:80) is printing, so it is left out.
- The `FileExistsError` of projgen's scaffold is the `Failure` value, and an existing tree removed under `overwrite` is replaced by the fresh one. What `rmtree` would do to files outside the project is not modelled.
- `declare_maven_artifacts` and `main` in tools/gradle_to_bazel/tests/migrate.py:35-66 and 72 onward print or parse arguments only, so they are not modelled.
- The `--check` exit of scripts/gen_readme_table.py is the status value, and the stderr message is left out.
- Exceptions other than the ones the code names are left out: an I/O error while writing a fixed patch, and an exception inside a driver other than the ones the orchestrator catches. A VM tool that cannot be started is modelled only where the code catches it, in VmControl.ListVBox's catch-all branch. Elsewhere in the VM service that exception propagates, and it is left out.
- ProjgenScaffold.Readme, ProjgenScaffold.License and ProjgenScaffold.CiWorkflow state only the first line of each text. The full text is the function's value, and ProjgenScaffold.CommonFiles places it in the tree.
- Plugins.Dockerfile states the `FROM` line, the `EXPOSE` line and the start command, not the lines between them.
- Plugins.Compose states only the service name, not the rest of the compose file.
- Plugins.MkDocs states only the `site_name` line.
- Validation.Report states only the all-clear case; Validation.AllPassedIff states both directions on the report's lines.

## Findings

| source | as written | input that shows it | evidently intended | confidence | as-written member | corrected member |
|---|---|---|---|---|---|---|
| tools/gradle_to_bazel/tests/migrate.py:15-18 | `if m:` sits after the line loop and only prints, and nothing is ever appended to `deps` | a build script whose one line is `implementation("org.jetbrains.kotlin:kotlin-stdlib:1.5.0")` gives `deps = [],` | every matching line's coordinate is collected into `deps` and listed in the BUILD stub | not executed | GradleMigrate.AsWrittenDropsDependency | GradleMigrate.MigrateKeepsDeps |
| tools/gradle_to_bazel/tests/migrate.py:15-17 | `m` is assigned only inside the loop and read after it | an empty build script raises `UnboundLocalError` instead of producing a stub | an empty script gives the stub with `deps = [],` | not executed | GradleMigrate.AsWrittenFailsOnEmpty | GradleMigrate.Migrate |
| projgen/src/projgen/validation.py:60 | `re.match` with a pattern ending in `$`, which also matches before a final newline | the name `"demo\n"` passes the name check | the whole name must match, as `re.fullmatch` or `\Z` would require | not executed | Validation.TrailingNewlineAccepted | Validation.CheckName |

=== FILE: dicts.dfy ===
/**
  Python's `dict`: key/value pairs kept in insertion order. Assigning to an
  existing key keeps its position; assigning to a new key appends it; deleting
  a key removes its pair. Every dictionary the modelled code builds satisfies
  `Valid` (no key twice).
 */
module Dicts {
  import opened Wrappers

  type Dict<V> = seq<(string, V)>

  /** The keys in iteration order (Python's `list(d.keys())`). */
  function Keys<V>(d: Dict<V>): (ks: seq<string>)
    ensures |ks| == |d|
    ensures forall i :: 0 <= i < |d| ==> ks[i] == d[i].0
  {
    if |d| == 0 then [] else [d[0].0] + Keys(d[1..])
  }

  /** The values in iteration order (Python's `list(d.values())`). */
  function Values<V>(d: Dict<V>): (vs: seq<V>)
    ensures |vs| == |d|
    ensures forall i :: 0 <= i < |d| ==> vs[i] == d[i].1
  {
    if |d| == 0 then [] else [d[0].1] + Values(d[1..])
  }

  /** The dictionary with the given keys and values, position by position (Python's `dict(zip(keys, values))` for distinct keys). */
  function Zip<V>(keys: seq<string>, values: seq<V>): (d: Dict<V>)
    requires |keys| == |values|
    ensures Keys(d) == keys && Values(d) == values
  {
    seq(|keys|, i requires 0 <= i < |keys| => (keys[i], values[i]))
  }

  /** The keys of two dictionaries placed one after the other. */
  lemma KeysAppend<V>(a: Dict<V>, b: Dict<V>)
    ensures Keys(a + b) == Keys(a) + Keys(b)
  {
    assert forall i :: |a| <= i < |a + b| ==> (a + b)[i] == b[i - |a|];
  }

  /** No element occurs twice. */
  predicate Distinct<T(==)>(xs: seq<T>) {
    forall i, j :: 0 <= i < j < |xs| ==> xs[i] != xs[j]
  }

  lemma DistinctAppend<T>(a: seq<T>, b: seq<T>)
    requires Distinct(a) && Distinct(b)
    requires forall x :: x in a ==> x !in b
    ensures Distinct(a + b)
  {
    forall i, j | 0 <= i < j < |a + b| ensures (a + b)[i] != (a + b)[j] {
      if i < |a| && j >= |a| {
        assert (a + b)[i] in a && (a + b)[j] == b[j - |a|];
      } else if i >= |a| {
        assert (a + b)[i] == b[i - |a|] && (a + b)[j] == b[j - |a|];
      }
    }
  }

  /** Zipping distinct keys gives a dictionary. */
  lemma ZipValid<V>(keys: seq<string>, values: seq<V>)
    requires |keys| == |values| && Distinct(keys)
    ensures Valid(Zip(keys, values))
  {
  }

  /** No key occurs twice. */
  predicate Valid<V>(d: Dict<V>) {
    forall i, j :: 0 <= i < j < |d| ==> d[i].0 != d[j].0
  }

  /** Python's `d.get(k)`. */
  function Get<V>(d: Dict<V>, k: string): (r: Option<V>)
    ensures r.None? <==> k !in Keys(d)
    ensures r.Some? ==> (k, r.value) in d
  {
    if |d| == 0 then None
    else if d[0].0 == k then Some(d[0].1)
    else Get(d[1..], k)
  }

  /** In a valid dictionary, the value stored at position `i` is the one `Get` finds. */
  lemma {:induction false} GetAt<V>(d: Dict<V>, i: nat)
    requires Valid(d) && i < |d|
    ensures Get(d, d[i].0) == Some(d[i].1)
    decreases i
  {
    if i > 0 {
      assert d[0].0 != d[i].0;
      assert Valid(d[1..]) by {
        forall a, b | 0 <= a < b < |d| - 1 ensures d[1..][a].0 != d[1..][b].0 {
          assert d[a + 1].0 != d[b + 1].0;
        }
      }
      GetAt(d[1..], i - 1);
    }
  }

  /** Python's `d[k] = v`. */
  function Put<V>(d: Dict<V>, k: string, v: V): (r: Dict<V>)
    ensures forall k' {:trigger Get(r, k')} :: Get(r, k') == if k' == k then Some(v) else Get(d, k')
    ensures Keys(r) == if k in Keys(d) then Keys(d) else Keys(d) + [k]
  {
    if |d| == 0 then [(k, v)]
    else if d[0].0 == k then [(k, v)] + d[1..]
    else
      var rest := Put(d[1..], k, v);
      var r := [d[0]] + rest;
      assert r[1..] == rest;
      assert Keys(r) == [d[0].0] + Keys(rest);
      assert Keys(d) == [d[0].0] + Keys(d[1..]);
      r
  }

  /** Assignment keeps the keys distinct. */
  lemma PutValid<V>(d: Dict<V>, k: string, v: V)
    requires Valid(d)
    ensures Valid(Put(d, k, v))
  {
    var r := Put(d, k, v);
    var ks := Keys(r);
    if k in Keys(d) {
      assert ks == Keys(d);
    } else {
      assert ks == Keys(d) + [k];
    }
    assert forall i :: 0 <= i < |r| ==> r[i].0 == ks[i];
  }

  /** Python's `del d[k]` when `k` is present, and no change otherwise. */
  function Remove<V>(d: Dict<V>, k: string): (r: Dict<V>)
    requires Valid(d)
    ensures Valid(r)
    ensures Get(r, k) == None
    ensures forall k' :: k' != k ==> Get(r, k') == Get(d, k')
    ensures k !in Keys(d) ==> r == d
    ensures |r| == if k in Keys(d) then |d| - 1 else |d|
  {
    if |d| == 0 then []
    else
      assert Valid(d[1..]) by {
        forall a, b | 0 <= a < b < |d| - 1 ensures d[1..][a].0 != d[1..][b].0 {
          assert d[a + 1].0 != d[b + 1].0;
        }
      }
      assert d[0].0 !in Keys(d[1..]) by {
        forall j | 0 <= j < |d| - 1 ensures Keys(d[1..])[j] != d[0].0 {
          assert d[j + 1].0 != d[0].0;
        }
      }
      if d[0].0 == k then d[1..]
      else
        var rest := Remove(d[1..], k);
        var r := [d[0]] + rest;
        assert r[1..] == rest;
        assert Get(rest, d[0].0) == Get(d[1..], d[0].0) == None;
        assert forall j :: 1 <= j < |r| ==> r[j].0 == Keys(rest)[j - 1];
        r
  }

  /** Assigning each pair in turn, as a loop of `d[k] = v` does. */
  function PutAll<V>(d: Dict<V>, kvs: seq<(string, V)>): (r: Dict<V>)
    decreases |kvs|
  {
    if |kvs| == 0 then d else PutAll(Put(d, kvs[0].0, kvs[0].1), kvs[1..])
  }

  /** Assigning pairs with new, distinct keys appends them in order. */
  lemma {:induction false} PutAllFresh<V>(d: Dict<V>, kvs: seq<(string, V)>)
    requires Distinct(Keys(d) + Keys(kvs))
    ensures Keys(PutAll(d, kvs)) == Keys(d) + Keys(kvs)
    decreases |kvs|
  {
    if |kvs| > 0 {
      var k := kvs[0].0;
      var all := Keys(d) + Keys(kvs);
      assert all[|d|] == k;
      assert k !in Keys(d) by {
        forall i | 0 <= i < |d| ensures Keys(d)[i] != k {
          assert all[i] == Keys(d)[i];
        }
      }
      var d' := Put(d, k, kvs[0].1);
      assert Keys(kvs) == [k] + Keys(kvs[1..]);
      assert Keys(d') + Keys(kvs[1..]) == all;
      PutAllFresh(d', kvs[1..]);
    }
  }

  /** The value of the last pair with key `k`, if any: what a run of assignments leaves under `k`. */
  function LastValue<V>(kvs: seq<(string, V)>, k: string): (r: Option<V>)
    ensures r.None? <==> k !in Keys(kvs)
    ensures r.Some? ==> (k, r.value) in kvs
  {
    if |kvs| == 0 then None
    else if kvs[|kvs| - 1].0 == k then Some(kvs[|kvs| - 1].1)
    else
      var init := kvs[..|kvs| - 1];
      assert Keys(kvs) == Keys(init) + [kvs[|kvs| - 1].0];
      LastValue(init, k)
  }

  /** One more assignment after a run of them. */
  lemma {:induction false} PutAllSnoc<V>(d: Dict<V>, kvs: seq<(string, V)>, k: string, v: V)
    ensures PutAll(d, kvs + [(k, v)]) == Put(PutAll(d, kvs), k, v)
    decreases |kvs|
  {
    if |kvs| == 0 {
      assert kvs + [(k, v)] == [(k, v)];
      assert [(k, v)][1..] == [];
    } else {
      assert (kvs + [(k, v)])[0] == kvs[0];
      assert (kvs + [(k, v)])[1..] == kvs[1..] + [(k, v)];
      PutAllSnoc(Put(d, kvs[0].0, kvs[0].1), kvs[1..], k, v);
    }
  }

  /**
    After a run of assignments, a key holds the value of its last assignment,
    and a key never assigned keeps what it held before.
   */
  lemma {:induction false} GetPutAll<V>(d: Dict<V>, kvs: seq<(string, V)>, k: string)
    ensures Get(PutAll(d, kvs), k) == if LastValue(kvs, k).Some? then LastValue(kvs, k) else Get(d, k)
    decreases |kvs|
  {
    if |kvs| > 0 {
      var n := |kvs| - 1;
      var init := kvs[..n];
      assert kvs == init + [kvs[n]];
      PutAllSnoc(d, init, kvs[n].0, kvs[n].1);
      GetPutAll(d, init, k);
    }
  }

  /** A run of assignments keeps the keys distinct. */
  lemma {:induction false} PutAllValid<V>(d: Dict<V>, kvs: seq<(string, V)>)
    requires Valid(d)
    ensures Valid(PutAll(d, kvs))
    decreases |kvs|
  {
    if |kvs| > 0 {
      PutValid(d, kvs[0].0, kvs[0].1);
      PutAllValid(Put(d, kvs[0].0, kvs[0].1), kvs[1..]);
    }
  }

  /** Pairs whose keys differ from `k` do not change its last value. */
  lemma {:induction false} LastValueAppend<V>(a: seq<(string, V)>, b: seq<(string, V)>, k: string)
    requires k !in Keys(b)
    ensures LastValue(a + b, k) == LastValue(a, k)
    decreases |b|
  {
    if |b| == 0 {
      assert a + b == a;
    } else {
      var n := |b| - 1;
      assert (a + b)[..|a + b| - 1] == a + b[..n];
      assert Keys(b) == Keys(b[..n]) + [b[n].0];
      LastValueAppend(a, b[..n], k);
    }
  }
}

=== FILE: docker_control.dfy ===
/**
  The Docker side of the devstack manager: the helpers that turn a service's
  port and volume configuration into the shape the Docker SDK takes, format
  the SDK's port bindings for display, derive CPU, memory and network figures
  from a stats snapshot, and map container actions onto status reports.

  The Docker engine itself is a parameter: `Engine` says which containers
  exist and which actions on them raise, and `None` stands for a client that
  could not be created.
 */
module DockerControl {
  import opened Wrappers
  import opened Text
  import opened Dicts

  // ---------------------------------------------------------------------------
  // Port configuration
  // ---------------------------------------------------------------------------

  /** One entry of a service's `ports` list, as YAML gives it. */
  datatype PortSpec =
    | PortText(text: string)
    | PortNumber(number: int)
    | PortOther

  /** The host side of a port mapping: the text before the colon, or the number itself. */
  datatype HostPort = HostText(text: string) | HostNumber(number: int)

  /** `host_port, container_port = port.split(":")` raised: the text had more than one colon. */
  datatype PortError = TooManyValues(spec: string)

  /** What one port entry does to the mapping being built. */
  datatype PortStep =
    | Skip
    | Bind(key: string, host: HostPort)
    | Raise(error: PortError)

  const TcpSuffix: string := "/tcp"

  /** The key Docker uses for a container port. */
  function TcpKey(containerPort: string): (key: string)
    ensures EndsWith(key, TcpSuffix)
    ensures key[..|key| - |TcpSuffix|] == containerPort
  {
    containerPort + TcpSuffix
  }

  /** A text entry with more than one colon makes the unpacking raise. */
  predicate BadPort(spec: PortSpec) {
    spec.PortText? && ':' in spec.text && |Split(spec.text, ':')| != 2
  }

  /** The effect of one entry of the `ports` list. */
  function PortEntry(spec: PortSpec): (step: PortStep)
    ensures step.Raise? <==> BadPort(spec)
    ensures step.Skip? <==> spec.PortOther? || (spec.PortText? && ':' !in spec.text)
  {
    match spec
    case PortText(text) =>
      if ':' !in text then Skip
      else
        var parts := Split(text, ':');
        if |parts| != 2 then Raise(TooManyValues(text))
        else Bind(TcpKey(parts[1]), HostText(parts[0]))
    case PortNumber(n) => Bind(TcpKey(IntToString(n)), HostNumber(n))
    case PortOther => Skip
  }

  /** `"h:c"` binds container port `c` over TCP to host port `h`. */
  lemma {:induction false} PortEntryOfPair(host: string, container: string)
    requires ':' !in host && ':' !in container
    ensures PortEntry(PortText(host + ":" + container)) == Bind(container + TcpSuffix, HostText(host))
  {
    var text := host + ":" + container;
    assert text == host + [':'] + container;
    assert text[|host|] == ':';
    SplitPair(host, container);
  }

  lemma {:induction false} SplitPair(a: string, b: string)
    requires ':' !in a && ':' !in b
    ensures Split(a + [':'] + b, ':') == [a, b]
  {
    var s := a + [':'] + b;
    var parts := Split(s, ':');
    SplitJoinTwo(parts, a, b);
  }

  /** Splitting at the only separator of `a + [sep] + b` gives `a` and `b`. */
  lemma {:induction false} SplitJoinTwo(parts: seq<string>, a: string, b: string)
    requires ':' !in a && ':' !in b
    requires parts == Split(a + [':'] + b, ':')
    ensures parts == [a, b]
  {
    var s := a + [':'] + b;
    assert s[|a|] == ':';
    var k := IndexOf(s, ':');
    assert forall j :: 0 <= j < |a| ==> s[j] == a[j];
    assert k == |a|;
    assert s[..k] == a;
    assert s[k + 1..] == b;
    assert ':' !in s[k + 1..];
    assert Split(s[k + 1..], ':') == [b];
  }

  /** The pairs the `ports` list binds, in order, as long as no entry raises. */
  function PortPairs(specs: seq<PortSpec>): (kvs: Dict<HostPort>)
    ensures |kvs| <= |specs|
  {
    if |specs| == 0 then []
    else
      var n := |specs| - 1;
      match PortEntry(specs[n])
      case Bind(k, h) => PortPairs(specs[..n]) + [(k, h)]
      case _ => PortPairs(specs[..n])
  }

  /** `_parse_ports`: each entry in turn, the last binding of a key winning. */
  function ParsePorts(specs: seq<PortSpec>): (r: Result<Dict<HostPort>, PortError>)
    ensures r.Success? ==> r.value == PutAll([], PortPairs(specs))
  {
    if |specs| == 0 then Success([])
    else
      var n := |specs| - 1;
      var prior := ParsePorts(specs[..n]);
      if prior.Failure? then prior
      else
        match PortEntry(specs[n])
        case Skip => prior
        case Bind(k, h) =>
          PutAllSnoc([], PortPairs(specs[..n]), k, h);
          Success(Put(prior.value, k, h))
        case Raise(e) => Failure(e)
  }

  /** The position of the first entry with more than one colon, if any. */
  function FirstBadPort(specs: seq<PortSpec>): (r: Option<nat>)
    ensures r.None? <==> forall i :: 0 <= i < |specs| ==> !BadPort(specs[i])
    ensures r.Some? ==> r.value < |specs| && BadPort(specs[r.value])
    ensures r.Some? ==> forall j :: 0 <= j < r.value ==> !BadPort(specs[j])
  {
    if |specs| == 0 then None
    else
      var n := |specs| - 1;
      var init := specs[..n];
      assert forall j :: 0 <= j < n ==> init[j] == specs[j];
      var prior := FirstBadPort(init);
      if prior.Some? then prior
      else if BadPort(specs[n]) then Some(n)
      else None
  }

  /**
    Parsing fails exactly when some entry has more than one colon, and then
    with the error of the first such entry.
   */
  lemma {:induction false} ParsePortsFails(specs: seq<PortSpec>)
    ensures ParsePorts(specs).Failure? <==> FirstBadPort(specs).Some?
    ensures ParsePorts(specs).Failure? ==>
      ParsePorts(specs).error == TooManyValues(specs[FirstBadPort(specs).value].text)
  {
    if |specs| > 0 {
      var n := |specs| - 1;
      var init := specs[..n];
      ParsePortsFails(init);
      if FirstBadPort(init).Some? {
        assert init[FirstBadPort(init).value] == specs[FirstBadPort(init).value];
      }
    }
  }

  /** A successful parse maps each key to the host of its last binding, and nothing else. */
  lemma ParsePortsGet(specs: seq<PortSpec>, key: string)
    requires ParsePorts(specs).Success?
    ensures Get(ParsePorts(specs).value, key) == LastValue(PortPairs(specs), key)
    ensures Valid(ParsePorts(specs).value)
  {
    GetPutAll([], PortPairs(specs), key);
    PutAllValid([], PortPairs(specs));
  }

  /** A text entry without a colon, or an entry of another type, changes nothing. */
  lemma ParsePortsSkips(specs: seq<PortSpec>, spec: PortSpec)
    requires spec.PortOther? || (spec.PortText? && ':' !in spec.text)
    ensures ParsePorts(specs + [spec]) == ParsePorts(specs)
  {
    assert (specs + [spec])[..|specs|] == specs;
  }

  /** `_parse_ports`, as the loop it is. */
  method ParsePortsLoop(specs: seq<PortSpec>) returns (r: Result<Dict<HostPort>, PortError>)
    ensures r == ParsePorts(specs)
  {
    var portDict: Dict<HostPort> := [];
    var i := 0;
    while i < |specs|
      invariant 0 <= i <= |specs|
      invariant ParsePorts(specs[..i]) == Success(portDict)
    {
      PortsStep(specs, i);
      match specs[i] {
        case PortText(text) =>
          if ':' in text {
            var parts := Split(text, ':');
            if |parts| != 2 {
              PortsFailureSticks(specs, i + 1);
              return Failure(TooManyValues(text));
            }
            portDict := Put(portDict, TcpKey(parts[1]), HostText(parts[0]));
          }
        case PortNumber(n) =>
          portDict := Put(portDict, TcpKey(IntToString(n)), HostNumber(n));
        case PortOther =>
      }
      i := i + 1;
    }
    assert specs[..|specs|] == specs;
    return Success(portDict);
  }

  /** Parsing one more entry after a successful prefix. */
  lemma PortsStep(specs: seq<PortSpec>, i: nat)
    requires i < |specs| && ParsePorts(specs[..i]).Success?
    ensures ParsePorts(specs[..i + 1]) == match PortEntry(specs[i])
      case Skip => ParsePorts(specs[..i])
      case Bind(k, h) => Success(Put(ParsePorts(specs[..i]).value, k, h))
      case Raise(e) => Failure(e)
  {
    assert specs[..i + 1][..i] == specs[..i];
  }

  /** Once parsing a prefix fails, parsing the whole list fails the same way. */
  lemma {:induction false} PortsFailureSticks(specs: seq<PortSpec>, i: nat)
    requires i <= |specs| && ParsePorts(specs[..i]).Failure?
    ensures ParsePorts(specs) == ParsePorts(specs[..i])
    decreases |specs| - i
  {
    if i < |specs| {
      assert specs[..i + 1][..i] == specs[..i];
      PortsFailureSticks(specs, i + 1);
    } else {
      assert specs[..i] == specs;
    }
  }

  // ---------------------------------------------------------------------------
  // Volume configuration
  // ---------------------------------------------------------------------------

  /** A bind mount as Docker takes it. */
  datatype Volume = Volume(bind: string, mode: string)

  const ReadWrite: string := "rw"

  /** The pairs the `volumes` list binds, in order: host path to container path. */
  function VolumePairs(volumes: seq<string>): (kvs: Dict<Volume>)
    ensures |kvs| <= |volumes|
    ensures forall i :: 0 <= i < |kvs| ==> kvs[i].1.mode == ReadWrite
  {
    if |volumes| == 0 then []
    else
      var n := |volumes| - 1;
      var v := volumes[n];
      if ':' in v then
        var parts := SplitOnce(v, ':');
        VolumePairs(volumes[..n]) + [(parts[0], Volume(parts[1], ReadWrite))]
      else VolumePairs(volumes[..n])
  }

  /** `_parse_volumes`: entries with a colon, split at the first one, later ones overwriting. */
  function ParseVolumes(volumes: seq<string>): (r: Dict<Volume>)
    ensures r == PutAll([], VolumePairs(volumes))
  {
    if |volumes| == 0 then []
    else
      var n := |volumes| - 1;
      var v := volumes[n];
      var prior := ParseVolumes(volumes[..n]);
      if ':' in v then
        var parts := SplitOnce(v, ':');
        PutAllSnoc([], VolumePairs(volumes[..n]), parts[0], Volume(parts[1], ReadWrite));
        Put(prior, parts[0], Volume(parts[1], ReadWrite))
      else prior
  }

  /**
    The mount table holds, for each host path, the container path of the last
    entry naming it, always read-write; entries without a colon add nothing.
   */
  lemma ParseVolumesGet(volumes: seq<string>, host: string)
    ensures Get(ParseVolumes(volumes), host) == LastValue(VolumePairs(volumes), host)
    ensures Get(ParseVolumes(volumes), host).Some? ==> Get(ParseVolumes(volumes), host).value.mode == ReadWrite
    ensures Valid(ParseVolumes(volumes))
  {
    GetPutAll([], VolumePairs(volumes), host);
    PutAllValid([], VolumePairs(volumes));
    var kvs := VolumePairs(volumes);
    if LastValue(kvs, host).Some? {
      var i :| 0 <= i < |kvs| && kvs[i] == (host, LastValue(kvs, host).value);
    }
  }

  /** Only the first colon separates: the container side keeps any later ones. */
  lemma VolumeEntryOf(volumes: seq<string>, host: string, container: string)
    requires ':' !in host
    ensures VolumePairs(volumes + [host + ":" + container])
      == VolumePairs(volumes) + [(host, Volume(container, ReadWrite))]
  {
    var v := host + ":" + container;
    assert (volumes + [v])[..|volumes|] == volumes;
    assert v == host + [':'] + container;
    SplitOnceOf(host, ':', container);
  }

  // ---------------------------------------------------------------------------
  // Port bindings for display
  // ---------------------------------------------------------------------------

  /** One host binding as the SDK reports it; a missing key is `None`. */
  datatype Binding = Binding(hostIp: Option<string>, hostPort: Option<string>)

  /** One row of the formatted port list. */
  datatype PortRecord = PortRecord(containerPort: string, hostPort: Option<string>, hostIp: string)

  const AnyAddress: string := "0.0.0.0"

  function FormatBinding(containerPort: string, b: Binding): (r: PortRecord)
    ensures r.containerPort == containerPort && r.hostPort == b.hostPort
    ensures r.hostIp == if b.hostIp.Some? then b.hostIp.value else AnyAddress
  {
    PortRecord(containerPort, b.hostPort, b.hostIp.GetOr(AnyAddress))
  }

  function FormatBindings(containerPort: string, bs: seq<Binding>): (rs: seq<PortRecord>)
    ensures |rs| == |bs|
    ensures forall i :: 0 <= i < |bs| ==> rs[i] == FormatBinding(containerPort, bs[i])
  {
    seq(|bs|, i requires 0 <= i < |bs| => FormatBinding(containerPort, bs[i]))
  }

  /** The bindings of one port; `None` (the SDK's `null`) and `[]` both give none. */
  function BindingsOf(bindings: Option<seq<Binding>>): seq<Binding> {
    if bindings.Some? then bindings.value else []
  }

  /** The number of bindings over all ports. */
  function BindingCount(ports: Dict<Option<seq<Binding>>>): nat {
    if |ports| == 0 then 0 else |BindingsOf(ports[0].1)| + BindingCount(ports[1..])
  }

  /** `_format_ports`: one record per binding, port by port, binding by binding. */
  function FormatPorts(ports: Dict<Option<seq<Binding>>>): (rs: seq<PortRecord>)
    ensures |rs| == BindingCount(ports)
  {
    if |ports| == 0 then []
    else FormatBindings(ports[0].0, BindingsOf(ports[0].1)) + FormatPorts(ports[1..])
  }

  /** Formatting distributes over the port table: the records of each part, in order. */
  lemma {:induction false} FormatPortsAppend(a: Dict<Option<seq<Binding>>>, b: Dict<Option<seq<Binding>>>)
    ensures FormatPorts(a + b) == FormatPorts(a) + FormatPorts(b)
    decreases |a|
  {
    if |a| == 0 {
      assert a + b == b;
    } else {
      assert (a + b)[0] == a[0];
      assert (a + b)[1..] == a[1..] + b;
      FormatPortsAppend(a[1..], b);
    }
  }

  /** A port without bindings contributes nothing. */
  lemma NoBindingsNoRecords(ports: Dict<Option<seq<Binding>>>, port: string, bindings: Option<seq<Binding>>)
    requires bindings.None? || bindings == Some([])
    ensures FormatPorts(ports + [(port, bindings)]) == FormatPorts(ports)
  {
    FormatPortsAppend(ports, [(port, bindings)]);
    assert [(port, bindings)][1..] == [];
  }

  /** A single port gives exactly its bindings, in order, under its name. */
  lemma FormatOnePort(port: string, bindings: seq<Binding>)
    ensures FormatPorts([(port, Some(bindings))]) == FormatBindings(port, bindings)
  {
    assert [(port, Some(bindings))][1..] == [];
  }

  // ---------------------------------------------------------------------------
  // Stats
  // ---------------------------------------------------------------------------

  /** The CPU part of a stats snapshot; a missing key is `None`. */
  datatype CpuStats = CpuStats(totalUsage: Option<int>, systemCpuUsage: Option<int>, percpuCount: Option<nat>)

  datatype MemoryStats = MemoryStats(usage: Option<int>, limit: Option<int>)

  datatype NetStats = NetStats(rxBytes: Option<int>, txBytes: Option<int>)

  datatype Stats = Stats(
    cpu: Option<CpuStats>,
    precpu: Option<CpuStats>,
    memory: Option<MemoryStats>,
    networks: Option<Dict<NetStats>>)

  const NoCpuStats: CpuStats := CpuStats(None, None, None)

  function CpuDelta(stats: Stats): int {
    stats.cpu.GetOr(NoCpuStats).totalUsage.GetOr(0) - stats.precpu.GetOr(NoCpuStats).totalUsage.GetOr(0)
  }

  function SystemDelta(stats: Stats): int {
    stats.cpu.GetOr(NoCpuStats).systemCpuUsage.GetOr(0) - stats.precpu.GetOr(NoCpuStats).systemCpuUsage.GetOr(0)
  }

  function CpuCount(stats: Stats): nat {
    stats.cpu.GetOr(NoCpuStats).percpuCount.GetOr(0)
  }

  /**
    `_calculate_cpu_usage` before rounding: the share of system time the
    container used, times the number of CPUs, as a percentage; 0 when the
    system time did not advance.
   */
  function CpuUsage(stats: Stats): (pct: real)
    ensures SystemDelta(stats) <= 0 ==> pct == 0.0
    ensures CpuCount(stats) == 0 ==> pct == 0.0
    ensures CpuDelta(stats) >= 0 ==> pct >= 0.0
    ensures 0 <= CpuDelta(stats) <= SystemDelta(stats) ==> pct <= 100.0 * CpuCount(stats) as real
    ensures SystemDelta(stats) > 0 ==>
      pct == CpuDelta(stats) as real / SystemDelta(stats) as real * CpuCount(stats) as real * 100.0
  {
    var cpuDelta, systemDelta := CpuDelta(stats), SystemDelta(stats);
    if systemDelta > 0 then
      var share := cpuDelta as real / systemDelta as real;
      var cpus := CpuCount(stats) as real;
      assert cpuDelta >= 0 ==> share * cpus * 100.0 >= 0.0 by {
        if cpuDelta >= 0 { ShareBounds(cpuDelta, systemDelta); ScaleBounds(share, cpus); }
      }
      assert 0 <= cpuDelta <= systemDelta ==> share * cpus * 100.0 <= 100.0 * cpus by {
        if 0 <= cpuDelta <= systemDelta { ShareBounds(cpuDelta, systemDelta); ScaleBounds(share, cpus); }
      }
      share * cpus * 100.0
    else 0.0
  }

  /** A part of a positive whole is a share between 0 and 1. */
  lemma ShareBounds(part: int, whole: int)
    requires 0 <= part && 0 < whole
    ensures 0.0 <= part as real / whole as real
    ensures part <= whole ==> part as real / whole as real <= 1.0
  {
  }

  /** A share of at most 1 of `n` CPUs is at most `n` whole CPUs. */
  lemma ScaleBounds(share: real, n: real)
    requires 0.0 <= share && 0.0 <= n
    ensures 0.0 <= share * n * 100.0
    ensures share <= 1.0 ==> share * n * 100.0 <= 100.0 * n
  {
  }

  datatype MemoryReport = MemoryReport(usageBytes: int, limitBytes: int, usageMb: real, limitMb: real, percentage: real)

  const Mebibyte: int := 1024 * 1024

  /** `_calculate_memory_usage` before rounding. */
  function MemoryUsage(stats: Stats): (r: MemoryReport)
    ensures r.usageMb * Mebibyte as real == r.usageBytes as real
    ensures r.limitMb * Mebibyte as real == r.limitBytes as real
    ensures r.limitBytes <= 0 ==> r.percentage == 0.0
    ensures r.limitBytes > 0 ==> r.percentage * r.limitBytes as real == 100.0 * r.usageBytes as real
    ensures 0 <= r.usageBytes <= r.limitBytes ==> 0.0 <= r.percentage <= 100.0
  {
    var m := stats.memory.GetOr(MemoryStats(None, None));
    var usage, limit := m.usage.GetOr(0), m.limit.GetOr(0);
    DivMul(usage as real, Mebibyte as real);
    DivMul(limit as real, Mebibyte as real);
    var pct := if limit > 0 then Percentage(usage, limit) else 0.0;
    MemoryReport(usage, limit, usage as real / Mebibyte as real, limit as real / Mebibyte as real, pct)
  }

  /** `part / whole * 100` for a positive whole. */
  function Percentage(part: int, whole: int): (p: real)
    requires whole > 0
    ensures p * whole as real == 100.0 * part as real
    ensures 0 <= part <= whole ==> 0.0 <= p <= 100.0
  {
    var share := part as real / whole as real;
    DivMul(part as real, whole as real);
    assert 0 <= part ==> 0.0 <= share && (part <= whole ==> share <= 1.0) by {
      if 0 <= part {
        ShareBounds(part, whole);
      }
    }
    assert share * 100.0 * whole as real == 100.0 * (share * whole as real);
    share * 100.0
  }

  /** Dividing by a non-zero amount and multiplying back gives the amount. */
  lemma DivMul(x: real, d: real)
    requires d != 0.0
    ensures (x / d) * d == x
  {
  }

  /** The received bytes over all networks, a missing count being 0. */
  function TotalRx(networks: Dict<NetStats>): int {
    if |networks| == 0 then 0 else networks[0].1.rxBytes.GetOr(0) + TotalRx(networks[1..])
  }

  /** The transmitted bytes over all networks, a missing count being 0. */
  function TotalTx(networks: Dict<NetStats>): int {
    if |networks| == 0 then 0 else networks[0].1.txBytes.GetOr(0) + TotalTx(networks[1..])
  }

  datatype NetworkReport = NetworkReport(rxBytes: int, txBytes: int, rxMb: real, txMb: real)

  /** `_get_network_stats` before rounding. */
  function NetworkUsage(stats: Stats): (r: NetworkReport)
    ensures r.rxBytes == TotalRx(stats.networks.GetOr([])) && r.txBytes == TotalTx(stats.networks.GetOr([]))
    ensures stats.networks.None? ==> r.rxBytes == 0 && r.txBytes == 0
    ensures r.rxMb * Mebibyte as real == r.rxBytes as real
    ensures r.txMb * Mebibyte as real == r.txBytes as real
  {
    var nets := stats.networks.GetOr([]);
    var rx, tx := TotalRx(nets), TotalTx(nets);
    DivMul(rx as real, Mebibyte as real);
    DivMul(tx as real, Mebibyte as real);
    NetworkReport(rx, tx, rx as real / Mebibyte as real, tx as real / Mebibyte as real)
  }

  /** The totals over two groups of networks are the sums of their totals. */
  lemma {:induction false} TotalsAppend(a: Dict<NetStats>, b: Dict<NetStats>)
    ensures TotalRx(a + b) == TotalRx(a) + TotalRx(b)
    ensures TotalTx(a + b) == TotalTx(a) + TotalTx(b)
    decreases |a|
  {
    if |a| == 0 {
      assert a + b == b;
    } else {
      assert (a + b)[0] == a[0];
      assert (a + b)[1..] == a[1..] + b;
      TotalsAppend(a[1..], b);
    }
  }

  /** A network reporting neither count adds nothing to the totals. */
  lemma MissingCountsAddNothing(networks: Dict<NetStats>, name: string)
    ensures TotalRx(networks + [(name, NetStats(None, None))]) == TotalRx(networks)
    ensures TotalTx(networks + [(name, NetStats(None, None))]) == TotalTx(networks)
  {
    TotalsAppend(networks, [(name, NetStats(None, None))]);
    assert [(name, NetStats(None, None))][1..] == [];
  }

  /** With non-negative counts, the total is at least each network's count. */
  lemma {:induction false} TotalsBound(networks: Dict<NetStats>, i: nat)
    requires i < |networks|
    requires forall j :: 0 <= j < |networks| ==> networks[j].1.rxBytes.GetOr(0) >= 0
    ensures TotalRx(networks) >= networks[i].1.rxBytes.GetOr(0)
    ensures TotalRx(networks) >= 0
    decreases |networks|
  {
    if i > 0 {
      TotalsBound(networks[1..], i - 1);
    } else if |networks| > 1 {
      TotalsBound(networks[1..], 0);
    }
  }

  // ---------------------------------------------------------------------------
  // Container actions
  // ---------------------------------------------------------------------------

  datatype Action = Start | Stop | Restart

  /** The status word of a completed action. */
  function Done(a: Action): string {
    match a
    case Start => "started"
    case Stop => "stopped"
    case Restart => "restarted"
  }

  /**
    The Docker engine as the service sees it: the containers that exist, and
    the message of the exception an action on a container raises, if it does.
   */
  datatype Engine = Engine(containers: set<string>, failures: map<(Action, string), string>)

  datatype ActionReport = ActionReport(status: string, name: Option<string>, message: string)

  const NoClient: string := "Docker client not available"

  function NotFound(name: string): string {
    "Container " + name + " not found"
  }

  function Succeeded(name: string, a: Action): string {
    "Container " + name + " " + Done(a) + " successfully"
  }

  /** `start_container`, `stop_container` and `restart_container`. */
  function ContainerAction(client: Option<Engine>, a: Action, name: string): (r: ActionReport)
    ensures r.status != "error" <==>
      client.Some? && name in client.value.containers && (a, name) !in client.value.failures
    ensures r.status != "error" ==> r.status == Done(a) && r.name == Some(name)
    ensures client.None? ==> r.message == NoClient
    ensures client.Some? && name !in client.value.containers ==> r.message == NotFound(name)
    ensures r.status != "error" ==> r.message == Succeeded(name, a)
    ensures client.Some? && name in client.value.containers && (a, name) in client.value.failures ==>
      r.message == client.value.failures[(a, name)]
  {
    if client.None? then ActionReport("error", None, NoClient)
    else if name !in client.value.containers then ActionReport("error", None, NotFound(name))
    else if (a, name) in client.value.failures then ActionReport("error", None, client.value.failures[(a, name)])
    else
      assert Done(a)[0] != 'e';
      ActionReport(Done(a), Some(name), Succeeded(name, a))
  }

  /** The success message names the container: it can be read back from the message. */
  lemma SucceededNamesContainer(name: string, a: Action)
    ensures var msg := Succeeded(name, a);
      var tail := " " + Done(a) + " successfully";
      && StartsWith(msg, "Container ") && EndsWith(msg, tail)
      && msg[10..|msg| - |tail|] == name
  {
    var msg := Succeeded(name, a);
    var tail := " " + Done(a) + " successfully";
    assert msg == "Container " + name + tail;
    assert msg[..10] == "Container ";
    assert msg[|msg| - |tail|..] == tail;
  }

  /** Distinct containers get distinct success messages for the same action. */
  lemma SucceededInjective(n1: string, n2: string, a: Action)
    ensures Succeeded(n1, a) == Succeeded(n2, a) <==> n1 == n2
  {
    SucceededNamesContainer(n1, a);
    SucceededNamesContainer(n2, a);
  }

  // ---------------------------------------------------------------------------
  // Logs
  // ---------------------------------------------------------------------------

  /**
    What reading a container's log yields: the decoded text, or the message of
    the exception that fetching or UTF-8 decoding raised.
   */
  datatype LogRead = LogText(text: string) | LogFault(message: string)

  /** The line reported when reading the log raises. */
  function LogError(message: string): (line: string)
    ensures StartsWith(line, "Error getting logs: ")
    ensures line[|"Error getting logs: "|..] == message
  {
    "Error getting logs: " + message
  }

  /**
    `get_container_logs`: the log split into lines, or a single line naming
    what went wrong (no client, a missing container, a failed read).
   */
  function ContainerLogs(client: Option<Engine>, name: string, logs: LogRead): (lines: seq<string>)
    ensures client.None? ==> lines == [NoClient]
    ensures client.Some? && name !in client.value.containers ==> lines == ["Container '" + name + "' not found"]
    ensures client.Some? && name in client.value.containers && logs.LogFault? ==>
      |lines| == 1 && StartsWith(lines[0], "Error getting logs: ") && lines[0][|"Error getting logs: "|..] == logs.message
    ensures client.Some? && name in client.value.containers && logs.LogText? ==>
      && (logs.text == "" <==> lines == [])
      && (logs.text != "" ==> Join(lines, "\n") == logs.text)
      && (forall i :: 0 <= i < |lines| ==> '\n' !in lines[i])
  {
    if client.None? then [NoClient]
    else if name !in client.value.containers then ["Container '" + name + "' not found"]
    else match logs
      case LogFault(message) => [LogError(message)]
      case LogText(text) => if text == "" then [] else Split(text, '\n')
  }
}

=== FILE: fix_patches.dfy ===
/**
  The patch-file repair script: it takes the text between the
  `*** Begin Patch:` and `*** End Patch:` markers, drops the marker line,
  inserts a blank line between two consecutive `diff --git` lines, trims
  trailing blank lines and writes the result beside the input as
  `<stem>.fixed.patch`.
 */
module FixPatches {
  import opened Wrappers
  import opened Text
  import opened Dicts

  const StartMarker: string := "*** Begin Patch:"
  const EndMarker: string := "*** End Patch:"
  const DiffHeader: string := "diff --git"

  predicate IsDiff(line: string) {
    StartsWith(line, DiffHeader)
  }

  // ---------------------------------------------------------------------------
  // Separating consecutive diffs
  // ---------------------------------------------------------------------------

  /**
    What the loop emits for input line `i`: the line itself, preceded by a
    blank line exactly when both it and the line before it start a diff.
   */
  function Group(lines: seq<string>, i: nat): (g: seq<string>)
    requires i < |lines|
    ensures 1 <= |g| <= 2 && g[|g| - 1] == lines[i]
    ensures |g| == 2 <==> i > 0 && IsDiff(lines[i - 1]) && IsDiff(lines[i])
    ensures |g| == 2 ==> g[0] == ""
  {
    if i > 0 && IsDiff(lines[i - 1]) && IsDiff(lines[i]) then ["", lines[i]] else [lines[i]]
  }

  function Groups(lines: seq<string>): (gs: seq<seq<string>>)
    ensures |gs| == |lines|
    ensures forall i :: 0 <= i < |lines| ==> gs[i] == Group(lines, i)
  {
    seq(|lines|, i requires 0 <= i < |lines| => Group(lines, i))
  }

  /** The concatenation of a list of groups. */
  function Concat(gs: seq<seq<string>>): seq<string>
  {
    if |gs| == 0 then [] else Concat(gs[..|gs| - 1]) + gs[|gs| - 1]
  }

  /** The separated lines: every input line's group, in input order. */
  function Separate(lines: seq<string>): seq<string>
  {
    Concat(Groups(lines))
  }

  /**
    The loop of `fix_patch_file`: it keeps a flag saying whether the previous
    line started a diff and emits a blank line before a diff line when it did.
   */
  method SeparateLoop(lines: seq<string>) returns (fixed: seq<string>)
    ensures fixed == Separate(lines)
  {
    fixed := [];
    var prevWasDiff := false;
    var i := 0;
    while i < |lines|
      invariant 0 <= i <= |lines|
      invariant prevWasDiff <==> i > 0 && IsDiff(lines[i - 1])
      invariant fixed == Concat(Groups(lines)[..i])
    {
      var line := lines[i];
      if IsDiff(line) && prevWasDiff {
        fixed := fixed + [""];
      }
      fixed := fixed + [line];
      prevWasDiff := IsDiff(line);
      assert Groups(lines)[..i + 1][..i] == Groups(lines)[..i];
      i := i + 1;
    }
    assert Groups(lines)[..|lines|] == Groups(lines);
  }

  /** No two adjacent lines both start a diff. */
  predicate Separated(lines: seq<string>) {
    forall j :: 0 < j < |lines| ==> !(IsDiff(lines[j - 1]) && IsDiff(lines[j]))
  }

  /** The empty line does not start a diff. */
  lemma BlankIsNotDiff()
    ensures !IsDiff("")
  {
  }

  /** A prefix of the groups ends with the last line it covers. */
  lemma {:induction false} ConcatPrefixLast(lines: seq<string>, k: nat)
    requires 0 < k <= |lines|
    ensures |Concat(Groups(lines)[..k])| > 0
    ensures Concat(Groups(lines)[..k])[|Concat(Groups(lines)[..k])| - 1] == lines[k - 1]
  {
    assert Groups(lines)[..k][..k - 1] == Groups(lines)[..k - 1];
  }

  /** After separation no two adjacent lines start a diff. */
  lemma {:induction false} SeparatePrefixSeparated(lines: seq<string>, k: nat)
    requires k <= |lines|
    ensures Separated(Concat(Groups(lines)[..k]))
    decreases k
  {
    if k > 0 {
      var gs := Groups(lines)[..k];
      assert gs[..k - 1] == Groups(lines)[..k - 1];
      var front := Concat(gs[..k - 1]);
      var g := gs[k - 1];
      SeparatePrefixSeparated(lines, k - 1);
      BlankIsNotDiff();
      var all := front + g;
      assert Concat(gs) == all;
      if k > 1 {
        ConcatPrefixLast(lines, k - 1);
        assert front[|front| - 1] == lines[k - 2];
      }
      forall j | 0 < j < |all| ensures !(IsDiff(all[j - 1]) && IsDiff(all[j])) {
        if j < |front| {
          assert all[j - 1] == front[j - 1] && all[j] == front[j];
        } else if j == |front| {
          assert all[j] == g[0];
        } else {
          assert all[j - 1] == g[0] && |g| == 2;
        }
      }
    }
  }

  lemma SeparateSeparated(lines: seq<string>)
    ensures Separated(Separate(lines))
  {
    SeparatePrefixSeparated(lines, |lines|);
    assert Groups(lines)[..|lines|] == Groups(lines);
  }

  /** Lines that are already separated come back unchanged. */
  lemma {:induction false} SeparateKeepsSeparated(lines: seq<string>, k: nat)
    requires Separated(lines) && k <= |lines|
    ensures Concat(Groups(lines)[..k]) == lines[..k]
    decreases k
  {
    if k > 0 {
      var gs := Groups(lines)[..k];
      assert gs[..k - 1] == Groups(lines)[..k - 1];
      SeparateKeepsSeparated(lines, k - 1);
      assert gs[k - 1] == [lines[k - 1]];
      assert lines[..k] == lines[..k - 1] + [lines[k - 1]];
    }
  }

  /** Separating twice is separating once. */
  lemma SeparateIdempotent(lines: seq<string>)
    ensures Separate(Separate(lines)) == Separate(lines)
  {
    var once := Separate(lines);
    SeparateSeparated(lines);
    SeparateKeepsSeparated(once, |once|);
    assert Groups(once)[..|once|] == Groups(once);
    assert once[..|once|] == once;
  }

  /** Two consecutive diff headers are split by a blank line. */
  lemma SeparateTwoDiffs(a: string, b: string)
    requires IsDiff(a) && IsDiff(b)
    ensures Separate([a, b]) == [a, "", b]
  {
    var gs := Groups([a, b]);
    assert gs[..1] == [[a]];
    assert Concat(gs[..1]) == [a] by {
      assert gs[..1][..0] == [];
    }
  }

  // ---------------------------------------------------------------------------
  // Trimming and the whole file
  // ---------------------------------------------------------------------------

  /** The lines without their trailing empty lines. */
  function TrimTrailing(lines: seq<string>): (r: seq<string>)
    ensures |r| <= |lines| && r == lines[..|r|]
    ensures |r| > 0 ==> r[|r| - 1] != ""
    ensures forall j :: |r| <= j < |lines| ==> lines[j] == ""
  {
    if |lines| > 0 && lines[|lines| - 1] == "" then TrimTrailing(lines[..|lines| - 1]) else lines
  }

  /** The lines of the marked block after its first line, as `split('\n')[1:]` gives them. */
  function BlockLines(content: string, s: nat, e: nat): (r: seq<string>)
    requires s <= |content| && e <= |content|
    ensures e < s ==> r == []
    ensures s <= e ==> Join(Split(content[s..e], '\n')[..1] + r, "\n") == content[s..e]
    ensures forall j :: 0 <= j < |r| ==> '\n' !in r[j]
  {
    var block := if s <= e then content[s..e] else "";
    var parts := Split(block, '\n');
    assert parts == parts[..1] + parts[1..];
    parts[1..]
  }

  /**
    `fix_patch_file` on the text of one patch file: `None` when a marker is
    missing (the function returns False and writes nothing), otherwise the
    text it writes.
   */
  function FixPatch(content: string): (r: Option<string>)
    ensures r.None? <==> !Contains(content, StartMarker) || !Contains(content, EndMarker)
    ensures r.Some? ==> r.value == "" || r.value[|r.value| - 1] != '\n'
  {
    var s := Find(content, StartMarker);
    var e := Find(content, EndMarker);
    if s == -1 || e == -1 then None
    else
      var lines := TrimTrailing(Separate(BlockLines(content, s, e)));
      if |lines| == 0 then Some("")
      else
        SeparateNoNewlines(BlockLines(content, s, e));
        JoinEnd(lines, "\n");
        Some(Join(lines, "\n"))
  }

  /** A file is left alone exactly when one of the two markers does not occur in it. */
  lemma FixPatchMarkers(content: string)
    ensures FixPatch(content).None? <==> !Contains(content, StartMarker) || !Contains(content, EndMarker)
  {
  }

  /** The lines a successful fix produces: the separated block lines without trailing blanks. */
  function FixedLines(content: string): (r: seq<string>)
    requires FixPatch(content).Some?
    ensures FixPatch(content).value == Join(r, "\n")
    ensures |r| > 0 ==> r[|r| - 1] != ""
  {
    var s := Find(content, StartMarker);
    var e := Find(content, EndMarker);
    TrimTrailing(Separate(BlockLines(content, s, e)))
  }

  /**
    The written text reads back, line by line, as the separated block with its
    trailing blank lines removed: no line is lost, and the text does not end
    with an empty line.
   */
  lemma {:induction false} FixPatchLines(content: string)
    requires FixPatch(content).Some?
    requires |FixedLines(content)| > 0
    ensures Split(FixPatch(content).value, '\n') == FixedLines(content)
  {
    var s := Find(content, StartMarker);
    var e := Find(content, EndMarker);
    var lines := BlockLines(content, s, e);
    var r := FixedLines(content);
    SeparateNoNewlines(lines);
    var sep := Separate(lines);
    assert forall j :: 0 <= j < |r| ==> r[j] == sep[j];
    SplitJoin(r, '\n');
  }

  /** Separation introduces no line containing a newline. */
  lemma SeparateNoNewlines(lines: seq<string>)
    requires forall j :: 0 <= j < |lines| ==> '\n' !in lines[j]
    ensures forall j :: 0 <= j < |Separate(lines)| ==> '\n' !in Separate(lines)[j]
  {
    SeparatePrefixNoNewlines(lines, |lines|);
    assert Groups(lines)[..|lines|] == Groups(lines);
  }

  lemma {:induction false} SeparatePrefixNoNewlines(lines: seq<string>, k: nat)
    requires forall j :: 0 <= j < |lines| ==> '\n' !in lines[j]
    requires k <= |lines|
    ensures forall j :: 0 <= j < |Concat(Groups(lines)[..k])| ==> '\n' !in Concat(Groups(lines)[..k])[j]
    decreases k
  {
    if k > 0 {
      var gs := Groups(lines)[..k];
      assert gs[..k - 1] == Groups(lines)[..k - 1];
      SeparatePrefixNoNewlines(lines, k - 1);
    }
  }

  // ---------------------------------------------------------------------------
  // The driver
  // ---------------------------------------------------------------------------

  /** `Path.with_suffix('.fixed.patch')` on a `pr*.patch` file name. */
  function FixedPath(name: string): (r: string)
    requires EndsWith(name, ".patch")
    ensures EndsWith(r, ".fixed.patch")
    ensures r[..|r| - |".fixed.patch"|] == name[..|name| - |".patch"|]
  {
    name[..|name| - |".patch"|] + ".fixed.patch"
  }

  /** Distinct patch files are written to distinct places. */
  lemma FixedPathInjective(a: string, b: string)
    requires EndsWith(a, ".patch") && EndsWith(b, ".patch")
    ensures FixedPath(a) == FixedPath(b) <==> a == b
  {
    assert a == a[..|a| - 6] + ".patch";
    assert b == b[..|b| - 6] + ".patch";
  }

  datatype PatchFile = PatchFile(name: string, content: string)

  predicate IsPatchName(f: PatchFile) {
    EndsWith(f.name, ".patch")
  }

  /** What `fix_patch_file` gives for each file, in order. */
  function Fixes(files: seq<PatchFile>): (rs: seq<Option<string>>)
    ensures |rs| == |files|
    ensures forall i :: 0 <= i < |files| ==> rs[i] == FixPatch(files[i].content)
  {
    seq(|files|, i requires 0 <= i < |files| => FixPatch(files[i].content))
  }

  /** Whether each result is a success. */
  function Outcomes(rs: seq<Option<string>>): (ok: seq<bool>)
    ensures |ok| == |rs|
    ensures forall i :: 0 <= i < |rs| ==> ok[i] == rs[i].Some?
  {
    seq(|rs|, i requires 0 <= i < |rs| => rs[i].Some?)
  }

  /** The number of `true` entries. */
  function CountTrue(bs: seq<bool>): (n: nat)
    ensures n <= |bs|
    ensures n == |bs| <==> forall i :: 0 <= i < |bs| ==> bs[i]
  {
    if |bs| == 0 then 0
    else
      var init := bs[..|bs| - 1];
      assert forall i :: 0 <= i < |init| ==> init[i] == bs[i];
      CountTrue(init) + (if bs[|bs| - 1] then 1 else 0)
  }

  lemma CountTrueStep(bs: seq<bool>, i: nat)
    requires i < |bs|
    ensures CountTrue(bs[..i + 1]) == CountTrue(bs[..i]) + (if bs[i] then 1 else 0)
  {
    assert bs[..i + 1][..i] == bs[..i];
  }

  /** File names as a directory listing gives them: each a `.patch` name, none twice. */
  predicate Listing(files: seq<PatchFile>) {
    && (forall i :: 0 <= i < |files| ==> IsPatchName(files[i]))
    && (forall i, j :: 0 <= i < j < |files| ==> files[i].name != files[j].name)
  }

  /** Where each file's fix is written, in order. */
  function FixedPaths(files: seq<PatchFile>): (ps: seq<string>)
    requires forall i :: 0 <= i < |files| ==> EndsWith(files[i].name, ".patch")
    ensures |ps| == |files|
    ensures forall i :: 0 <= i < |files| ==> ps[i] == FixedPath(files[i].name)
  {
    seq(|files|, i requires 0 <= i < |files| && EndsWith(files[i].name, ".patch") => FixedPath(files[i].name))
  }

  predicate Distinct(ps: seq<string>) {
    forall i, j :: 0 <= i < j < |ps| ==> ps[i] != ps[j]
  }

  /** Distinct file names give distinct fixed paths. */
  lemma FixedPathsDistinct(files: seq<PatchFile>)
    requires Listing(files)
    ensures Distinct(FixedPaths(files))
  {
    forall i, j | 0 <= i < j < |files| ensures FixedPath(files[i].name) != FixedPath(files[j].name) {
      FixedPathInjective(files[i].name, files[j].name);
    }
  }

  /**
    `main`: fix every file in turn, record what was written where, and exit
    with 0 exactly when there were files and each of them was fixed.
   */
  method FixAll(files: seq<PatchFile>) returns (code: int, written: map<string, string>)
    requires Listing(files)
    ensures code == 0 || code == 1
    ensures code == 0 <==> |files| > 0 && forall i :: 0 <= i < |files| ==> Fixes(files)[i].Some?
    ensures forall i :: 0 <= i < |files| && Fixes(files)[i].Some? ==>
      FixedPath(files[i].name) in written && written[FixedPath(files[i].name)] == Fixes(files)[i].value
    ensures forall i :: 0 <= i < |files| && Fixes(files)[i].None? ==> FixedPath(files[i].name) !in written
    ensures |written| == CountTrue(Outcomes(Fixes(files)))
  {
    if |files| == 0 {
      return 1, map[];
    }
    FixedPathsDistinct(files);
    var successCount;
    written, successCount := WriteFixed(FixedPaths(files), Fixes(files));
    code := if successCount == |files| then 0 else 1;
  }

  /** What the loop of `main` has written after visiting `paths` with `results`. */
  function Written(paths: seq<string>, results: seq<Option<string>>): (w: map<string, string>)
    requires |results| == |paths|
    ensures forall p :: p in w ==> p in paths
  {
    if |paths| == 0 then map[]
    else
      var n := |paths| - 1;
      var prior := Written(paths[..n], results[..n]);
      if results[n].Some? then prior[paths[n] := results[n].value] else prior
  }

  lemma DistinctPrefix(paths: seq<string>, n: nat)
    requires Distinct(paths) && n < |paths|
    ensures Distinct(paths[..n]) && paths[n] !in paths[..n]
  {
  }

  /** No path repeats an earlier one, stated from the last path back. */
  predicate NewLast(paths: seq<string>)
    decreases |paths|
  {
    |paths| == 0 || (paths[|paths| - 1] !in paths[..|paths| - 1] && NewLast(paths[..|paths| - 1]))
  }

  lemma {:induction false} DistinctNewLast(paths: seq<string>)
    requires Distinct(paths)
    ensures NewLast(paths)
    decreases |paths|
  {
    if |paths| > 0 {
      DistinctPrefix(paths, |paths| - 1);
      DistinctNewLast(paths[..|paths| - 1]);
    }
  }

  /** With distinct paths, one entry is written per successful result. */
  lemma {:induction false} WrittenCount(paths: seq<string>, results: seq<Option<string>>)
    requires NewLast(paths) && |results| == |paths|
    ensures |Written(paths, results)| == CountTrue(Outcomes(results))
  {
    if |paths| > 0 {
      var n := |paths| - 1;
      WrittenCount(paths[..n], results[..n]);
      WrittenStep(paths, results);
      OutcomesStep(results);
    }
  }

  /** A path not written before gains one entry exactly when its result is a success. */
  lemma WrittenStep(paths: seq<string>, results: seq<Option<string>>)
    requires |paths| > 0 && |results| == |paths|
    requires paths[|paths| - 1] !in paths[..|paths| - 1]
    ensures var n := |paths| - 1;
      |Written(paths, results)| == |Written(paths[..n], results[..n])| + (if results[n].Some? then 1 else 0)
  {
    var n := |paths| - 1;
    var prior := Written(paths[..n], results[..n]);
    assert paths[n] !in prior;
  }

  /** The successes among the results: those before the last, and the last. */
  lemma OutcomesStep(results: seq<Option<string>>)
    requires |results| > 0
    ensures var n := |results| - 1;
      CountTrue(Outcomes(results)) == CountTrue(Outcomes(results[..n])) + (if results[n].Some? then 1 else 0)
  {
    var n := |results| - 1;
    var ok := Outcomes(results);
    assert Outcomes(results[..n]) == ok[..n];
  }

  /** With distinct paths, each successful result is written to its own path. */
  lemma {:induction false} WrittenSuccesses(paths: seq<string>, results: seq<Option<string>>)
    requires Distinct(paths) && |results| == |paths|
    ensures forall i :: 0 <= i < |paths| && results[i].Some? ==>
      paths[i] in Written(paths, results) && Written(paths, results)[paths[i]] == results[i].value
  {
    if |paths| > 0 {
      var n := |paths| - 1;
      DistinctPrefix(paths, n);
      WrittenSuccesses(paths[..n], results[..n]);
      forall i | 0 <= i < n ensures paths[i] == paths[..n][i] && results[i] == results[..n][i] && paths[i] != paths[n] {
      }
    }
  }

  /** A failed result is never written. */
  lemma {:induction false} WrittenFailures(paths: seq<string>, results: seq<Option<string>>)
    requires Distinct(paths) && |results| == |paths|
    ensures forall i :: 0 <= i < |paths| && results[i].None? ==> paths[i] !in Written(paths, results)
  {
    if |paths| > 0 {
      var n := |paths| - 1;
      DistinctPrefix(paths, n);
      WrittenFailures(paths[..n], results[..n]);
      forall i | 0 <= i < n ensures paths[i] == paths[..n][i] && results[i] == results[..n][i] && paths[i] != paths[n] {
      }
    }
  }

  /** One more turn of the loop of `main` writes the next success over what was there. */
  lemma WrittenNext(paths: seq<string>, results: seq<Option<string>>, i: nat)
    requires |results| == |paths| && i < |paths|
    ensures Written(paths[..i + 1], results[..i + 1]) ==
      var prior := Written(paths[..i], results[..i]);
      if results[i].Some? then prior[paths[i] := results[i].value] else prior
  {
    assert paths[..i + 1][..i] == paths[..i];
    assert results[..i + 1][..i] == results[..i];
  }

  /** With distinct paths, the finished loop holds one entry per success, at its own path. */
  lemma WrittenAll(paths: seq<string>, results: seq<Option<string>>)
    requires Distinct(paths) && |results| == |paths|
    ensures |Written(paths, results)| == CountTrue(Outcomes(results))
    ensures forall i :: 0 <= i < |paths| && results[i].Some? ==>
      paths[i] in Written(paths, results) && Written(paths, results)[paths[i]] == results[i].value
    ensures forall i :: 0 <= i < |paths| && results[i].None? ==> paths[i] !in Written(paths, results)
  {
    DistinctNewLast(paths);
    WrittenCount(paths, results);
    WrittenSuccesses(paths, results);
    WrittenFailures(paths, results);
  }

  /** The loop of `main`: each successful result is written to its path, and counted. */
  method WriteFixed(paths: seq<string>, results: seq<Option<string>>)
    returns (written: map<string, string>, successCount: nat)
    requires Distinct(paths) && |results| == |paths|
    ensures successCount == CountTrue(Outcomes(results)) == |written|
    ensures forall i :: 0 <= i < |paths| && results[i].Some? ==>
      paths[i] in written && written[paths[i]] == results[i].value
    ensures forall i :: 0 <= i < |paths| && results[i].None? ==> paths[i] !in written
  {
    written := map[];
    successCount := 0;
    var ok := Outcomes(results);
    var i := 0;
    while i < |paths|
      invariant 0 <= i <= |paths|
      invariant successCount == CountTrue(ok[..i])
      invariant written == Written(paths[..i], results[..i])
    {
      CountTrueStep(ok, i);
      WrittenNext(paths, results, i);
      if results[i].Some? {
        written := written[paths[i] := results[i].value];
        successCount := successCount + 1;
      }
      i := i + 1;
    }
    WrittenDone(paths, results);
  }

  /** The finished loop, stated over the whole-length prefixes the loop invariant names. */
  lemma WrittenDone(paths: seq<string>, results: seq<Option<string>>)
    requires Distinct(paths) && |results| == |paths|
    ensures var n := |paths|;
      var written := Written(paths[..n], results[..n]);
      && |written| == CountTrue(Outcomes(results)[..n]) == CountTrue(Outcomes(results))
      && (forall i :: 0 <= i < n && results[i].Some? ==> paths[i] in written && written[paths[i]] == results[i].value)
      && (forall i :: 0 <= i < n && results[i].None? ==> paths[i] !in written)
  {
    assert Outcomes(results)[..|paths|] == Outcomes(results);
    assert paths[..|paths|] == paths;
    assert results[..|paths|] == results;
    WrittenAll(paths, results);
  }
}

=== FILE: gradle_migrate.dfy ===
/**
  The Gradle-to-Bazel migration helper: turning a Maven coordinate into a Bazel
  label fragment, recognising `implementation("g:a:v")` lines of a Kotlin
  build script, and emitting the `kt_jvm_library` BUILD stub.

  Two versions of the migration are given. `MigrateAsWritten` follows the
  source, whose match test sits after the line loop and never records a
  dependency. `Migrate` records the coordinate of every matching line, which
  is what the surrounding test expects.
 */
module GradleMigrate {
  import opened Wrappers
  import opened Text

  // ---------------------------------------------------------------------------
  // Dependency coordinates to label fragments
  // ---------------------------------------------------------------------------

  /**
    `convert_gradle_dep_to_bazel` as written: drop the last `:`-segment, then
    turn every `:` and `.` into `_`.
   */
  function ConvertDep(dep: string): (r: string)
    ensures |r| == |BeforeLast(dep, ':')|
    ensures forall i :: 0 <= i < |r| ==>
      r[i] == (if BeforeLast(dep, ':')[i] in {':', '.'} then '_' else BeforeLast(dep, ':')[i])
    ensures ':' !in r && '.' !in r
  {
    ReplaceChar(ReplaceChar(BeforeLast(dep, ':'), ':', '_'), '.', '_')
  }

  /** Without a colon nothing is dropped and only dots change. */
  lemma ConvertDepNoColon(dep: string)
    requires ':' !in dep
    ensures ConvertDep(dep) == ReplaceChar(dep, '.', '_')
    ensures dep == "" ==> ConvertDep(dep) == ""
  {
  }

  /**
    On a full `group:artifact:version` coordinate the version is dropped and
    the two remaining parts are joined by `_`, with their dots turned into `_`
    (the source's example `com.google.guava:guava:30.1-jre` gives
    `com_google_guava_guava`).
   */
  lemma {:induction false} ConvertDepOfCoordinate(g: string, a: string, v: string)
    requires ':' !in g && ':' !in a && ':' !in v
    ensures ConvertDep(g + ":" + a + ":" + v) == ReplaceChar(g, '.', '_') + "_" + ReplaceChar(a, '.', '_')
  {
    var dep := g + ":" + a + ":" + v;
    assert dep == (g + ":" + a) + [':'] + v;
    BeforeLastOf(g + ":" + a, ':', v);
    ColonsOfPair(g, a);
    DotsOfPair(g, a);
  }

  lemma {:induction false} ColonsOfPair(g: string, a: string)
    requires ':' !in g && ':' !in a
    ensures ReplaceChar(g + ":" + a, ':', '_') == g + "_" + a
  {
    ReplaceCharAppend(g + ":", a, ':', '_');
    ReplaceCharAppend(g, ":", ':', '_');
    ReplaceCharAbsent(g, ':', '_');
    ReplaceCharAbsent(a, ':', '_');
    var colon := ReplaceChar(":", ':', '_');
    assert colon[0] == '_';
    assert colon == "_";
  }

  lemma {:induction false} DotsOfPair(g: string, a: string)
    ensures ReplaceChar(g + "_" + a, '.', '_') == ReplaceChar(g, '.', '_') + "_" + ReplaceChar(a, '.', '_')
  {
    ReplaceCharAppend(g, "_" + a, '.', '_');
    assert ("_" + a)[1..] == a;
  }

  /** A hyphen in the artifact survives `ConvertDep`, unlike in the label format the tests expect. */
  lemma ConvertDepKeepsHyphen()
    ensures ConvertDep("g:a-b:1") == "g_a-b"
    ensures ConvertDepLabel("g:a-b:1") == "g_a_b"
  {
    HyphenKept();
    assert ReplaceChar("g_a-b", '-', '_') == "g_a_b";
  }

  lemma HyphenKept()
    ensures ConvertDep("g:a-b:1") == "g_a-b"
  {
    var dep := "g:a-b:1";
    assert dep == "g:a-b" + [':'] + "1";
    BeforeLastOf("g:a-b", ':', "1");
  }

  /** The label fragment with `-` also turned into `_`, as the format tests state. */
  function ConvertDepLabel(dep: string): (r: string)
    ensures |r| == |ConvertDep(dep)|
    ensures forall i :: 0 <= i < |r| ==> r[i] == (if ConvertDep(dep)[i] == '-' then '_' else ConvertDep(dep)[i])
    ensures ':' !in r && '.' !in r && '-' !in r
  {
    ReplaceChar(ConvertDep(dep), '-', '_')
  }

  /** The empty coordinate maps to the empty fragment under both conversions. */
  lemma ConvertDepEmpty()
    ensures ConvertDep("") == "" && ConvertDepLabel("") == ""
  {
  }

  // ---------------------------------------------------------------------------
  // Recognising dependency lines
  // ---------------------------------------------------------------------------

  const CallPrefix: string := "implementation(\""
  const CallSuffix: string := "\")"

  /** Python's `\w` on ASCII text. */
  predicate IsWordChar(c: char) {
    IsAsciiLetter(c) || IsDigit(c) || c == '_'
  }

  /** `[\w.-]` */
  predicate IsNameChar(c: char) {
    IsWordChar(c) || c == '.' || c == '-'
  }

  /** `[\d.]` */
  predicate IsVersionChar(c: char) {
    IsDigit(c) || c == '.'
  }

  predicate AllVersionChars(s: string) {
    forall i :: 0 <= i < |s| ==> IsVersionChar(s[i])
  }

  predicate AllNameChars(s: string) {
    forall i :: 0 <= i < |s| ==> IsNameChar(s[i])
  }

  /**
    A text the group `([\w.-]+:[\w.-]+:[\d.]+)` matches in full: a group id,
    an artifact id and a version, non-empty and separated by single colons.
   */
  predicate IsCoordinate(c: string) {
    && (forall i :: 0 <= i < |c| ==> IsNameChar(c[i]) || c[i] == ':')
    && ':' in c
    && var i := IndexOf(c, ':');
       var j := LastIndexOf(c, ':');
       && 0 < i && i + 1 < j && j + 1 < |c|
       && ':' !in c[i + 1..j]
       && AllVersionChars(c[j + 1..])
  }

  /** Every `group:artifact:version` triple of the right characters is a coordinate. */
  lemma {:induction false} CoordinateOf(g: string, a: string, v: string)
    requires |g| > 0 && |a| > 0 && |v| > 0
    requires AllNameChars(g) && AllNameChars(a) && AllVersionChars(v)
    ensures IsCoordinate(g + ":" + a + ":" + v)
  {
    var c := g + ":" + a + ":" + v;
    assert c[|g|] == ':';
    assert c[|g| + 1 + |a|] == ':';
    forall k | 0 <= k < |c| ensures IsNameChar(c[k]) || c[k] == ':' {
      if k < |g| {
        assert c[k] == g[k];
      } else if |g| < k < |g| + 1 + |a| {
        assert c[k] == a[k - |g| - 1];
      } else if k > |g| + 1 + |a| {
        assert c[k] == v[k - |g| - 2 - |a|];
      }
    }
    var i := IndexOf(c, ':');
    var j := LastIndexOf(c, ':');
    assert forall k :: 0 <= k < |g| ==> c[k] == g[k];
    assert forall k :: |g| + 1 + |a| < k < |c| ==> c[k] == v[k - |g| - 2 - |a|];
    assert i == |g|;
    assert j == |g| + 1 + |a|;
    assert c[i + 1..j] == a;
    assert c[j + 1..] == v;
  }

  /**
    The part of the match after the leading white space: the call prefix, the
    coordinate group, then `")`. The group cannot contain `"`, so it ends at
    the first quote after the prefix.
   */
  function MatchCall(t: string): (r: Option<string>)
    ensures r.Some? ==> IsCoordinate(r.value)
    ensures r.Some? ==> StartsWith(t, CallPrefix) && StartsWith(t[|CallPrefix|..], r.value + CallSuffix)
  {
    if !StartsWith(t, CallPrefix) then None
    else
      var rest := t[|CallPrefix|..];
      if '"' !in rest then None
      else
        var q := IndexOf(rest, '"');
        var c := rest[..q];
        if IsCoordinate(c) && StartsWith(rest[q..], CallSuffix) then
          PrefixThenStartsWith(rest, q, CallSuffix);
          Some(c)
        else None
  }

  /**
    `re.match(r'\s*implementation\("([\w\.-]+:[\w\.-]+:[\d\.]+)"\)', line)`,
    giving group 1 when the line matches.
   */
  function MatchDependency(line: string): (r: Option<string>)
    ensures r.Some? ==> IsCoordinate(r.value)
    ensures r.Some? ==>
      var t := LStrip(line);
      StartsWith(t, CallPrefix) && StartsWith(t[|CallPrefix|..], r.value + CallSuffix)
  {
    MatchCall(LStrip(line))
  }

  /** A text whose tail from `k` starts with `p` starts with its first `k` characters followed by `p`. */
  lemma PrefixThenStartsWith(s: string, k: nat, p: string)
    requires k <= |s| && StartsWith(s[k..], p)
    ensures StartsWith(s, s[..k] + p)
  {
    assert s[..k + |p|] == s[..k] + p;
  }

  /** Leading white space is skipped by `lstrip`. */
  lemma {:induction false} LStripSpaces(ws: string, x: string)
    requires forall i :: 0 <= i < |ws| ==> IsSpace(ws[i])
    requires |x| > 0 && !IsSpace(x[0])
    ensures LStrip(ws + x) == x
    decreases |ws|
  {
    if |ws| > 0 {
      assert (ws + x)[1..] == ws[1..] + x;
      LStripSpaces(ws[1..], x);
    } else {
      assert ws + x == x;
    }
  }

  /** After its prefix, a call holding a coordinate yields that coordinate. */
  lemma {:induction false} MatchGroupOf(c: string, tail: string)
    requires IsCoordinate(c)
    ensures
      var rest := c + CallSuffix + tail;
      && '"' in rest
      && IndexOf(rest, '"') == |c|
      && rest[..|c|] == c
      && StartsWith(rest[|c|..], CallSuffix)
  {
    var rest := c + CallSuffix + tail;
    assert rest[|c|] == '"';
    var q := IndexOf(rest, '"');
    assert forall k :: 0 <= k < |c| ==> rest[k] == c[k] && rest[k] != '"';
    assert q == |c|;
    assert rest[..|c|] == c;
    assert rest[|c|..] == CallSuffix + tail;
  }

  lemma {:induction false} MatchCallOf(c: string, tail: string)
    requires IsCoordinate(c)
    ensures MatchCall(CallPrefix + c + CallSuffix + tail) == Some(c)
  {
    var t := CallPrefix + (c + CallSuffix + tail);
    assert CallPrefix + c + CallSuffix + tail == t;
    assert StartsWith(t, CallPrefix);
    assert t[|CallPrefix|..] == c + CallSuffix + tail;
    MatchGroupOf(c, tail);
  }

  /** Every indented `implementation("…")` call with a well-formed coordinate matches, whatever follows it. */
  lemma {:induction false} MatchDependencyOf(ws: string, c: string, tail: string)
    requires forall i :: 0 <= i < |ws| ==> IsSpace(ws[i])
    requires IsCoordinate(c)
    ensures MatchDependency(ws + CallPrefix + c + CallSuffix + tail) == Some(c)
  {
    var x := CallPrefix + c + CallSuffix + tail;
    assert ws + CallPrefix + c + CallSuffix + tail == ws + x;
    assert x[0] == 'i';
    LStripSpaces(ws, x);
    MatchCallOf(c, tail);
  }

  /** A commented-out call does not match. */
  lemma CommentedOutIgnored(tail: string)
    ensures MatchDependency("// " + tail) == None
  {
    var x := "// " + tail;
    assert x[0] == '/';
    assert LStrip(x) == x;
    assert !StartsWith(x, CallPrefix) by {
      assert CallPrefix[0] == 'i';
    }
  }

  // ---------------------------------------------------------------------------
  // The BUILD stub
  // ---------------------------------------------------------------------------

  const LoadLine: string := "load(\"@rules_kotlin//" + "kotlin:jvm.bzl\", \"kt_jvm_binary\")"
  const LibraryLine: string := "kt_jvm_library("
  const NameLine: string := "    name = \"kotlin_lib\","
  const SrcsLine: string := "    srcs = glob([" + "\"src/main/kotlin/**/*.kt\"]),"
  const EmptyDepsLine: string := "    deps = [],"
  const OpenDepsLine: string := "    deps = ["
  const CloseDepsLine: string := "    ],"
  const CloseCallLine: string := ")"

  /** The lines written before the `deps` attribute. */
  const PreambleLines: seq<string> := [LoadLine, "", LibraryLine, NameLine, SrcsLine]

  /** The line naming one dependency: `        "dep",`. */
  function QuoteDep(dep: string): (line: string)
    ensures |line| == |dep| + 11
    ensures line[9..|line| - 2] == dep
  {
    "        \"" + dep + "\","
  }

  function QuoteAll(deps: seq<string>): (lines: seq<string>)
    ensures |lines| == |deps|
    ensures forall i :: 0 <= i < |deps| ==> lines[i] == QuoteDep(deps[i])
  {
    if |deps| == 0 then [] else [QuoteDep(deps[0])] + QuoteAll(deps[1..])
  }

  /** The lines of the BUILD stub: the preamble, the `deps` attribute, the closing parenthesis. */
  function BuildLines(deps: seq<string>): (lines: seq<string>)
    ensures |lines| == |deps| + (if |deps| == 0 then 7 else 8)
    ensures lines[..5] == PreambleLines && lines[|lines| - 1] == CloseCallLine
    ensures |deps| == 0 ==> lines[5] == EmptyDepsLine
    ensures |deps| > 0 ==> lines[5] == OpenDepsLine && lines[|lines| - 2] == CloseDepsLine
    ensures forall i :: 0 <= i < |deps| ==> lines[i + 6] == QuoteDep(deps[i])
  {
    PreambleLines
    + (if |deps| == 0 then [EmptyDepsLine] else [OpenDepsLine] + QuoteAll(deps) + [CloseDepsLine])
    + [CloseCallLine]
  }

  /** The text `migrate_gradle_to_bazel` writes: every `write` call is one line and its newline. */
  function BuildText(deps: seq<string>): (text: string)
    ensures StartsWith(text, LoadLine + "\n")
    ensures EndsWith(text, CloseCallLine + "\n")
  {
    var lines := BuildLines(deps);
    TerminatedAppend(lines[..|lines| - 1], [lines[|lines| - 1]]);
    assert lines == lines[..|lines| - 1] + [lines[|lines| - 1]];
    assert lines == [lines[0]] + lines[1..];
    Terminated(lines)
  }

  /** Reading the dependency list back from the lines of a stub. */
  function ReadDeps(lines: seq<string>): seq<string>
    requires |lines| >= 7
    requires forall i :: 6 <= i < |lines| - 2 ==> |lines[i]| >= 11
  {
    if lines[5] == EmptyDepsLine || |lines| < 8 then []
    else seq(|lines| - 8, i requires 0 <= i < |lines| - 8 => lines[i + 6][9..|lines[i + 6]| - 2])
  }

  lemma LoadLineOneLine()
    ensures NoLineBreaks(LoadLine)
  {
    LoadLineStart();
    LoadLineEnd();
    NoLineBreaksAppend("load(\"@rules_kotlin//", "kotlin:jvm.bzl\", \"kt_jvm_binary\")");
  }

  lemma LoadLineStart() ensures NoLineBreaks("load(\"@rules_kotlin//") {}
  lemma LoadLineEnd() ensures NoLineBreaks("kotlin:jvm.bzl\", \"kt_jvm_binary\")") {}

  lemma SrcsLineOneLine()
    ensures NoLineBreaks(SrcsLine)
  {
    SrcsLineStart();
    SrcsLineEnd();
    NoLineBreaksAppend("    srcs = glob([", "\"src/main/kotlin/**/*.kt\"]),");
  }

  lemma SrcsLineStart() ensures NoLineBreaks("    srcs = glob([") {}
  lemma SrcsLineEnd() ensures NoLineBreaks("\"src/main/kotlin/**/*.kt\"]),") {}

  lemma FixedLinesOneLine()
    ensures NoLineBreaks(LibraryLine) && NoLineBreaks(NameLine)
    ensures NoLineBreaks(EmptyDepsLine) && NoLineBreaks(OpenDepsLine)
    ensures NoLineBreaks(CloseDepsLine) && NoLineBreaks(CloseCallLine)
  {
    HeadLinesOneLine();
    DepsLinesOneLine();
  }

  lemma HeadLinesOneLine() ensures NoLineBreaks(LibraryLine) && NoLineBreaks(NameLine) {}
  lemma DepsLinesOneLine()
    ensures NoLineBreaks(EmptyDepsLine) && NoLineBreaks(OpenDepsLine)
    ensures NoLineBreaks(CloseDepsLine) && NoLineBreaks(CloseCallLine)
  {
  }

  /** Every line of the stub is free of line breaks when the dependencies are. */
  lemma {:induction false} BuildLinesOneLine(deps: seq<string>)
    requires forall i :: 0 <= i < |deps| ==> NoLineBreaks(deps[i])
    ensures forall i :: 0 <= i < |BuildLines(deps)| ==> NoLineBreaks(BuildLines(deps)[i])
  {
    PreambleOneLine();
    FixedLinesOneLine();
    var middle := if |deps| == 0 then [EmptyDepsLine] else [OpenDepsLine] + QuoteAll(deps) + [CloseDepsLine];
    if |deps| > 0 {
      QuoteAllOneLine(deps);
      SingleLinesAppend([OpenDepsLine], QuoteAll(deps));
      SingleLinesAppend([OpenDepsLine] + QuoteAll(deps), [CloseDepsLine]);
    }
    assert SingleLines(middle);
    SingleLinesAppend(PreambleLines, middle);
    SingleLinesAppend(PreambleLines + middle, [CloseCallLine]);
  }

  lemma PreambleOneLine()
    ensures SingleLines(PreambleLines)
  {
    LoadLineOneLine();
    SrcsLineOneLine();
    FixedLinesOneLine();
  }

  lemma QuoteAllOneLine(deps: seq<string>)
    requires forall i :: 0 <= i < |deps| ==> NoLineBreaks(deps[i])
    ensures SingleLines(QuoteAll(deps))
  {
    forall i | 0 <= i < |deps| ensures NoLineBreaks(QuoteAll(deps)[i]) {
      QuoteDepOneLine(deps[i]);
    }
  }

  lemma QuoteDepOneLine(dep: string)
    requires NoLineBreaks(dep)
    ensures NoLineBreaks(QuoteDep(dep))
  {
    NoLineBreaksAppend("        \"", dep);
    NoLineBreaksAppend("        \"" + dep, "\",");
  }

  /** `ReadDeps` recovers the dependency list from the stub's lines. */
  lemma {:induction false} ReadBuildLines(deps: seq<string>)
    ensures
      var lines := BuildLines(deps);
      && |lines| == |deps| + (if |deps| == 0 then 7 else 8)
      && (forall i :: 6 <= i < |lines| - 2 ==> |lines[i]| >= 11)
      && ReadDeps(lines) == deps
  {
    var lines := BuildLines(deps);
    if |deps| > 0 {
      assert lines[5] == OpenDepsLine;
      assert lines[5] != EmptyDepsLine by { assert |OpenDepsLine| != |EmptyDepsLine|; }
      assert forall i :: 0 <= i < |deps| ==> lines[i + 6] == QuoteDep(deps[i]);
      assert ReadDeps(lines) == deps;
    } else {
      assert lines[5] == EmptyDepsLine;
    }
  }

  /**
    The dependency list survives the round trip through the BUILD text: the
    lines `splitlines` reads back from the stub name exactly the given
    dependencies, in order.
   */
  lemma {:induction false} BuildTextRoundTrip(deps: seq<string>)
    requires forall i :: 0 <= i < |deps| ==> NoLineBreaks(deps[i])
    ensures SplitLines(BuildText(deps)) == BuildLines(deps)
    ensures
      var lines := SplitLines(BuildText(deps));
      && |lines| == |deps| + (if |deps| == 0 then 7 else 8)
      && (forall i :: 6 <= i < |lines| - 2 ==> |lines[i]| >= 11)
      && ReadDeps(lines) == deps
  {
    BuildLinesOneLine(deps);
    SplitLinesTerminated(BuildLines(deps));
    ReadBuildLines(deps);
  }

  // ---------------------------------------------------------------------------
  // The migration
  // ---------------------------------------------------------------------------

  /** Every dependency in the list is a coordinate. */
  predicate AllCoordinates(deps: seq<string>) {
    forall i :: 0 <= i < |deps| ==> IsCoordinate(deps[i])
  }

  /** The coordinates of the matching lines, in order. */
  function CollectDeps(lines: seq<string>): (deps: seq<string>)
    ensures |deps| <= |lines|
    ensures AllCoordinates(deps)
  {
    if |lines| == 0 then []
    else
      var rest := CollectDeps(lines[1..]);
      match MatchDependency(lines[0])
      case Some(c) => CoordinatesCons(c, rest); [c] + rest
      case None => rest
  }

  lemma CoordinatesCons(c: string, rest: seq<string>)
    requires IsCoordinate(c) && AllCoordinates(rest)
    ensures AllCoordinates([c] + rest)
  {
    forall i | 0 <= i < |[c] + rest| ensures IsCoordinate(([c] + rest)[i]) {
      if i > 0 {
        assert ([c] + rest)[i] == rest[i - 1];
      }
    }
  }

  /** Collecting distributes over the lines of a file read in two pieces. */
  lemma {:induction false} CollectDepsAppend(a: seq<string>, b: seq<string>)
    ensures CollectDeps(a + b) == CollectDeps(a) + CollectDeps(b)
    decreases |a|
  {
    if |a| == 0 {
      assert a + b == b;
    } else {
      assert (a + b)[1..] == a[1..] + b;
      CollectDepsAppend(a[1..], b);
    }
  }

  /** A line that matches contributes its coordinate; one that does not contributes nothing. */
  lemma CollectDepsOne(line: string)
    ensures CollectDeps([line]) == match MatchDependency(line) case Some(c) => [c] case None => []
  {
    assert [line][1..] == [];
  }

  /** A coordinate contains no line break. */
  lemma CoordinateOneLine(c: string)
    requires IsCoordinate(c)
    ensures NoLineBreaks(c)
  {
    forall j | 0 <= j < |c| ensures !IsLineBreak(c[j]) {
      assert IsNameChar(c[j]) || c[j] == ':';
    }
  }

  /**
    `migrate_gradle_to_bazel` as written. The match object of the last line
    is tested once after the loop and nothing is appended, so the stub always
    has an empty `deps`; an empty input leaves the match variable unbound and
    the call raises before the output is opened.
   */
  function MigrateAsWritten(lines: seq<string>): (r: Result<string, string>)
    ensures |lines| == 0 <==> r.Failure?
    ensures r.Success? ==> r.value == BuildText([])
  {
    if |lines| == 0 then Failure("UnboundLocalError: local variable 'm' referenced before assignment")
    else Success(BuildText([]))
  }

  /** The migration with each matching coordinate recorded, in file order. */
  function Migrate(lines: seq<string>): (r: Result<string, string>)
    ensures r.Success?
  {
    Success(BuildText(CollectDeps(lines)))
  }

  /** Every coordinate found in the build script can be read back from the generated stub. */
  lemma {:induction false} MigrateKeepsDeps(lines: seq<string>)
    ensures
      var deps := CollectDeps(lines);
      var out := SplitLines(Migrate(lines).value);
      && |out| == |deps| + (if |deps| == 0 then 7 else 8)
      && (forall i :: 6 <= i < |out| - 2 ==> |out[i]| >= 11)
      && ReadDeps(out) == deps
  {
    var deps := CollectDeps(lines);
    forall i | 0 <= i < |deps| ensures NoLineBreaks(deps[i]) {
      CoordinateOneLine(deps[i]);
    }
    BuildTextRoundTrip(deps);
  }

  /** The coordinate declared in the migration test's build script. */
  const KotlinStdlib: string := "org.jetbrains.kotlin" + ":" + "kotlin-stdlib" + ":" + "1.5.0"

  /** The dependency line of the migration test's build script. */
  const KotlinStdlibLine: string := "            " + CallPrefix + KotlinStdlib + CallSuffix + "\n"

  lemma KotlinStdlibCoordinate()
    ensures IsCoordinate(KotlinStdlib)
  {
    KotlinStdlibParts();
    CoordinateOf("org.jetbrains.kotlin", "kotlin-stdlib", "1.5.0");
  }

  lemma KotlinStdlibParts()
    ensures AllNameChars("org.jetbrains.kotlin") && AllNameChars("kotlin-stdlib") && AllVersionChars("1.5.0")
  {
  }

  /**
    On a build script declaring `kotlin-stdlib`, the source's stub has no
    dependency while the corrected migration lists it.
   */
  lemma AsWrittenDropsDependency()
    ensures MigrateAsWritten([KotlinStdlibLine]) == Success(BuildText([]))
    ensures CollectDeps([KotlinStdlibLine]) == [KotlinStdlib]
    ensures MigrateAsWritten([KotlinStdlibLine]) != Migrate([KotlinStdlibLine])
  {
    var c := KotlinStdlib;
    KotlinStdlibCoordinate();
    MatchDependencyOf("            ", c, "\n");
    CollectDepsOne(KotlinStdlibLine);
    assert |BuildLines([])| != |BuildLines([c])|;
    assert BuildText([]) != BuildText([c]) by {
      MigrateKeepsDeps([KotlinStdlibLine]);
      BuildTextRoundTrip([]);
    }
  }

  /** An empty build script makes the source raise, while the corrected migration writes an empty `deps`. */
  lemma AsWrittenFailsOnEmpty()
    ensures MigrateAsWritten([]).Failure?
    ensures Migrate([]) == Success(BuildText([]))
  {
  }
}

=== FILE: mock_service.dfy ===
/**
  The devstack manager's mock HTTP services: a registry of service
  configurations and of the services started from them, and the route table a
  configuration turns into. Server threads, sleeping and the HTTP server itself
  are outside the model; a failure while launching is a parameter.
 */
module MockServices {
  import opened Wrappers
  import opened Text
  import opened Dicts

  /** One configured route: method and response status, when given. */
  datatype Route = Route(verb: Option<string>, status: Option<int>)

  /** A stored service configuration; `routes` is `{}` when the configuration has none. */
  datatype Config = Config(name: Option<string>, port: Option<int>, routes: Dict<Route>)

  /** What is recorded for a started service. */
  datatype RunInfo = RunInfo(running: bool, port: int)

  /** `running_services` and `service_configs`. */
  datatype Registry = Registry(running: Dict<RunInfo>, configs: Dict<Config>)

  const Empty := Registry([], [])

  /** Each dictionary holds every key once, as a Python dict does. */
  predicate Valid(reg: Registry) {
    Dicts.Valid(reg.running) && Dicts.Valid(reg.configs)
  }

  /**
    A JSON reply; a field is `None` when the reply has no such key. `kind`
    is the `type` key of a status reply.
   */
  datatype Reply = Reply(status: string, name: Option<string>, port: Option<int>,
                         message: Option<string>, kind: Option<string>)

  const DefaultPort := 9000

  function Said(status: string, message: string): Reply {
    Reply(status, None, None, Some(message), None)
  }

  function Named(status: string, name: string, message: string): Reply {
    Reply(status, Some(name), None, Some(message), None)
  }

  function NotFoundMessage(name: string): string {
    "Mock service " + name + " not found"
  }

  predicate IsRunning(reg: Registry, name: string) {
    Get(reg.running, name).Some? && Get(reg.running, name).value.running
  }

  // ---------------------------------------------------------------------------
  // Starting
  // ---------------------------------------------------------------------------

  /**
    `start_service`. A running service is reported as such before the
    configuration is looked up; a service without configuration is an error;
    otherwise the service is recorded as running on the configured port
    (9000 by default). `failure` is an exception raised while building or
    launching the server, which leaves the registry as it was.
   */
  function StartService(reg: Registry, name: string, failure: Option<string>): (out: (Reply, Registry))
    ensures IsRunning(reg, name) ==>
      out == (Said("already_running", "Mock service " + name + " is already running"), reg)
    ensures !IsRunning(reg, name) && Get(reg.configs, name).None? ==>
      out == (Said("error", "No configuration found for service " + name), reg)
    ensures out.0.status == "started" <==> !IsRunning(reg, name) && Get(reg.configs, name).Some? && failure.None?
    ensures out.0.status == "started" ==>
      var port := Get(reg.configs, name).value.port.GetOr(DefaultPort);
      && out.0.port == Some(port) && out.0.name == Some(name)
      && out.1 == Registry(Put(reg.running, name, RunInfo(true, port)), reg.configs)
      && out.0.message == Some("Mock service " + name + " started on port " + IntToString(port))
    ensures !IsRunning(reg, name) && Get(reg.configs, name).Some? && failure.Some? ==>
      out == (Said("error", "Failed to start mock service " + name + ": " + failure.value), reg)
    ensures out.0.status != "started" ==> out.1 == reg
    ensures Valid(reg) ==> Valid(out.1)
  {
    if IsRunning(reg, name) then
      (Said("already_running", "Mock service " + name + " is already running"), reg)
    else match Get(reg.configs, name)
      case None => (Said("error", "No configuration found for service " + name), reg)
      case Some(config) =>
        match failure
        case Some(e) => (Said("error", "Failed to start mock service " + name + ": " + e), reg)
        case None =>
          var port := config.port.GetOr(DefaultPort);
          assert Dicts.Valid(reg.running) ==> Dicts.Valid(Put(reg.running, name, RunInfo(true, port))) by {
            if Dicts.Valid(reg.running) { PutValid(reg.running, name, RunInfo(true, port)); }
          }
          (Reply("started", Some(name), Some(port), Some("Mock service " + name + " started on port " + IntToString(port)), None),
           Registry(Put(reg.running, name, RunInfo(true, port)), reg.configs))
  }

  /** An entry of a service definition's `ports` list. */
  datatype PortValue = PortString(text: string) | PortInt(number: int) | PortOther

  /**
    The port `start_service_from_config` takes from the first `ports` entry:
    the host part of `"host:container"`, an integer as it is, 9000 otherwise.
    `None` where `int()` raises on the host part.
   */
  function FirstPort(ports: seq<PortValue>): (r: Option<int>)
    ensures |ports| == 0 ==> r == Some(DefaultPort)
    ensures |ports| > 0 && ports[0].PortInt? ==> r == Some(ports[0].number)
    ensures |ports| > 0 && ports[0].PortString? && ':' in ports[0].text ==>
      r == ParseInt(SplitOnce(ports[0].text, ':')[0])
    ensures |ports| > 0 && ports[0].PortString? && ':' !in ports[0].text ==> r == Some(DefaultPort)
    ensures |ports| > 0 && ports[0].PortOther? ==> r == Some(DefaultPort)
  {
    if |ports| == 0 then Some(DefaultPort)
    else match ports[0]
      case PortString(text) =>
        if ':' in text then
          assert Split(text, ':')[0] == SplitOnce(text, ':')[0];
          ParseInt(Split(text, ':')[0])
        else Some(DefaultPort)
      case PortInt(number) => Some(number)
      case PortOther => Some(DefaultPort)
  }

  /** `"8080:80"` gives port 8080: the host part is what the service listens on. */
  lemma FirstPortOfMapping(host: int, container: string)
    ensures FirstPort([PortString(IntToString(host) + ":" + container)]) == Some(host)
  {
    var text := IntToString(host) + ":" + container;
    IntToStringHasNoColon(host);
    assert text == IntToString(host) + [':'] + container;
    SplitOnceOf(IntToString(host), ':', container);
    IntToStringParses(host);
  }

  lemma IntToStringHasNoColon(n: int)
    ensures ':' !in IntToString(n)
  {
    var digits := NatToString(if n < 0 then -n else n);
    assert forall i :: 0 <= i < |digits| ==> IsDigit(digits[i]);
    if n < 0 {
      assert IntToString(n) == "-" + digits;
      assert forall i :: 0 <= i < |IntToString(n)| ==> IntToString(n)[i] != ':' by {
        forall i | 0 <= i < |IntToString(n)| ensures IntToString(n)[i] != ':' {
          if i > 0 {
            assert IntToString(n)[i] == digits[i - 1];
          }
        }
      }
    } else {
      assert IntToString(n) == digits;
    }
  }

  /** A service definition as the profile manager passes it. */
  datatype ServiceDef = ServiceDef(name: string, ports: seq<PortValue>, routes: Dict<Route>)

  /**
    `start_service_from_config`: the configuration is overwritten with the
    chosen port and the definition's routes, then the service is started.
    `None` where `int()` raises, before anything is stored.
   */
  function StartFromConfig(reg: Registry, def: ServiceDef, failure: Option<string>): (out: Option<(Reply, Registry)>)
    ensures out.None? <==> FirstPort(def.ports).None?
    ensures out.Some? ==>
      var config := Config(None, FirstPort(def.ports), def.routes);
      out.value == StartService(Registry(reg.running, Put(reg.configs, def.name, config)), def.name, failure)
    ensures out.Some? && out.value.0.status == "started" ==> out.value.0.port == FirstPort(def.ports)
    ensures out.Some? && Valid(reg) ==> Valid(out.value.1)
  {
    match FirstPort(def.ports)
    case None => None
    case Some(port) =>
      var config := Config(None, Some(port), def.routes);
      var stored := Registry(reg.running, Put(reg.configs, def.name, config));
      assert Dicts.Valid(reg.configs) ==> Dicts.Valid(Put(reg.configs, def.name, config)) by {
            if Dicts.Valid(reg.configs) { PutValid(reg.configs, def.name, config); }
          }
      Some(StartService(stored, def.name, failure))
  }

  // ---------------------------------------------------------------------------
  // Stopping, creating, deleting
  // ---------------------------------------------------------------------------

  /** `stop_service`: only the `running` flag changes; the entry and its port stay. */
  function StopService(reg: Registry, name: string): (out: (Reply, Registry))
    ensures Get(reg.running, name).None? <==> out.0.status == "not_found"
    ensures Get(reg.running, name).None? ==> out == (Said("not_found", NotFoundMessage(name)), reg)
    ensures Get(reg.running, name).Some? ==>
      && out.0 == Named("stopped", name, "Mock service " + name + " stopped")
      && out.1 == Registry(Put(reg.running, name, RunInfo(false, Get(reg.running, name).value.port)), reg.configs)
    ensures Valid(reg) ==> Valid(out.1)
    ensures Keys(out.1.running) == Keys(reg.running)
  {
    match Get(reg.running, name)
    case None => (Said("not_found", NotFoundMessage(name)), reg)
    case Some(info) =>
      assert Dicts.Valid(reg.running) ==> Dicts.Valid(Put(reg.running, name, RunInfo(false, info.port))) by {
            if Dicts.Valid(reg.running) { PutValid(reg.running, name, RunInfo(false, info.port)); }
          }
      (Named("stopped", name, "Mock service " + name + " stopped"),
       Registry(Put(reg.running, name, RunInfo(false, info.port)), reg.configs))
  }

  /** `create_service`: a configuration without a (non-empty) name is refused. */
  function CreateService(reg: Registry, config: Config): (out: (Reply, Registry))
    ensures out.0.status == "error" <==> config.name.None? || config.name.value == ""
    ensures out.0.status == "error" ==> out == (Said("error", "Service name is required"), reg)
    ensures out.0.status != "error" ==>
      && out.0 == Named("created", config.name.value, "Mock service " + config.name.value + " configuration created")
      && out.1 == Registry(reg.running, Put(reg.configs, config.name.value, config))
    ensures Valid(reg) ==> Valid(out.1)
  {
    if config.name.None? || config.name.value == "" then (Said("error", "Service name is required"), reg)
    else
      var name := config.name.value;
      assert Dicts.Valid(reg.configs) ==> Dicts.Valid(Put(reg.configs, name, config)) by {
            if Dicts.Valid(reg.configs) { PutValid(reg.configs, name, config); }
          }
      (Named("created", name, "Mock service " + name + " configuration created"),
       Registry(reg.running, Put(reg.configs, name, config)))
  }

  /** `delete_service`: both entries go, whatever existed; the reply is always `deleted`. */
  function DeleteService(reg: Registry, name: string): (out: (Reply, Registry))
    requires Valid(reg)
    ensures out.0 == Named("deleted", name, "Mock service " + name + " deleted")
    ensures Valid(out.1)
    ensures Get(out.1.running, name).None? && Get(out.1.configs, name).None?
    ensures forall other :: other != name ==>
      Get(out.1.running, other) == Get(reg.running, other) && Get(out.1.configs, other) == Get(reg.configs, other)
  {
    (Named("deleted", name, "Mock service " + name + " deleted"),
     Registry(Remove(reg.running, name), Remove(reg.configs, name)))
  }

  // ---------------------------------------------------------------------------
  // Querying
  // ---------------------------------------------------------------------------

  /** `get_service_status`. */
  function ServiceStatus(reg: Registry, name: string): (r: Reply)
    ensures r.status == "not_found" <==> Get(reg.running, name).None?
    ensures Get(reg.running, name).Some? ==>
      && r.name == Some(name) && r.port == Some(Get(reg.running, name).value.port) && r.kind == Some("mock")
      && (r.status == "running" <==> IsRunning(reg, name))
      && (r.status == "stopped" <==> !IsRunning(reg, name))
  {
    match Get(reg.running, name)
    case None => Said("not_found", NotFoundMessage(name))
    case Some(info) => Reply(if info.running then "running" else "stopped", Some(name), Some(info.port), None, Some("mock"))
  }

  /** One entry of `list_services`. */
  datatype Listing = Listing(name: string, status: string, port: int, routes: seq<string>)

  /** The route paths of a service's configuration, or none without one. */
  function RoutePaths(reg: Registry, name: string): seq<string> {
    match Get(reg.configs, name)
    case None => []
    case Some(config) => Keys(config.routes)
  }

  /** `list_services`: one entry per started service, in the order they were first started. */
  function ListServices(reg: Registry): (entries: seq<Listing>)
    ensures |entries| == |reg.running|
    ensures forall i :: 0 <= i < |entries| ==>
      && entries[i].name == reg.running[i].0
      && entries[i].port == reg.running[i].1.port
      && (entries[i].status == "running" <==> reg.running[i].1.running)
      && (entries[i].status == "stopped" <==> !reg.running[i].1.running)
      && entries[i].routes == RoutePaths(reg, reg.running[i].0)
  {
    seq(|reg.running|, i requires 0 <= i < |reg.running| =>
      var (name, info) := reg.running[i];
      Listing(name, if info.running then "running" else "stopped", info.port, RoutePaths(reg, name)))
  }

  // ---------------------------------------------------------------------------
  // How the operations combine
  // ---------------------------------------------------------------------------

  /** After a successful start, status reports the service running on the port it was started on. */
  lemma StartThenStatus(reg: Registry, name: string)
    requires Get(reg.configs, name).Some? && !IsRunning(reg, name)
    ensures var (reply, after) := StartService(reg, name, None);
      && reply.status == "started"
      && ServiceStatus(after, name).status == "running"
      && ServiceStatus(after, name).port == reply.port
  {
  }

  /** Stopping keeps the service listed: status then reports it stopped on the same port. */
  lemma StopThenStatus(reg: Registry, name: string)
    requires Get(reg.running, name).Some?
    ensures var after := StopService(reg, name).1;
      && ServiceStatus(after, name).status == "stopped"
      && ServiceStatus(after, name).port == ServiceStatus(reg, name).port
  {
  }

  /** A stopped service with its configuration still present starts again. */
  lemma StopThenStart(reg: Registry, name: string)
    requires Get(reg.running, name).Some? && Get(reg.configs, name).Some?
    ensures StartService(StopService(reg, name).1, name, None).0.status == "started"
  {
  }

  /** Starting twice: the second start reports `already_running` and changes nothing. */
  lemma StartTwice(reg: Registry, name: string)
    requires StartService(reg, name, None).0.status == "started"
    ensures var after := StartService(reg, name, None).1;
      StartService(after, name, None) == (Said("already_running", "Mock service " + name + " is already running"), after)
  {
  }

  /** After deletion the service is unknown to status and absent from the listing. */
  lemma DeleteThenStatus(reg: Registry, name: string)
    requires Valid(reg)
    ensures var after := DeleteService(reg, name).1;
      && ServiceStatus(after, name).status == "not_found"
      && forall i :: 0 <= i < |ListServices(after)| ==> ListServices(after)[i].name != name
  {
    var after := DeleteService(reg, name).1;
    assert name !in Keys(after.running);
  }

  /** A created configuration can be started, on its port or 9000. */
  lemma CreateThenStart(reg: Registry, config: Config)
    requires config.name.Some? && config.name.value != ""
    requires !IsRunning(reg, config.name.value)
    ensures var after := CreateService(reg, config).1;
      var (reply, _) := StartService(after, config.name.value, None);
      reply.status == "started" && reply.port == Some(config.port.GetOr(DefaultPort))
  {
  }

  // ---------------------------------------------------------------------------
  // The route table of a mock server
  // ---------------------------------------------------------------------------

  /** The methods a route can be registered under. */
  const Methods: seq<string> := ["GET", "POST", "PUT", "DELETE", "PATCH"]

  datatype Registration = Registration(verb: string, path: string, status: int)

  const Health := Registration("GET", "/health", 200)

  /** A route's upper-cased method, GET when none is given. */
  function MethodOf(route: Route): string {
    Upper(route.verb.GetOr("GET"))
  }

  /** The registrations for the configured routes, in configuration order. */
  function RouteRegistrations(routes: Dict<Route>): (regs: seq<Registration>)
    ensures |regs| <= |routes|
    ensures forall i :: 0 <= i < |regs| ==> regs[i].verb in Methods
    decreases |routes|
  {
    if |routes| == 0 then []
    else
      var (path, route) := routes[0];
      (if MethodOf(route) in Methods then [Registration(MethodOf(route), path, route.status.GetOr(200))] else [])
      + RouteRegistrations(routes[1..])
  }

  /** The routes of a mock server: the configured ones it accepts, then `/health`. */
  function RouteTable(config: Config): (table: seq<Registration>)
    ensures |table| >= 1 && table[|table| - 1] == Health
    ensures forall i :: 0 <= i < |table| ==> table[i].verb in Methods
  {
    RouteRegistrations(config.routes) + [Health]
  }

  /** The configured route at `r`'s path has `r`'s method, one of the five, and `r`'s status. */
  predicate Accepts(routes: Dict<Route>, r: Registration) {
    && Get(routes, r.path).Some?
    && r.verb == MethodOf(Get(routes, r.path).value) && r.verb in Methods
    && r.status == Get(routes, r.path).value.status.GetOr(200)
  }

  /**
    A registration is made exactly for each configured route whose upper-cased
    method is one of the five, with its status or 200; others are dropped.
   */
  lemma {:induction false} RouteRegistered(routes: Dict<Route>, r: Registration)
    requires Dicts.Valid(routes)
    ensures r in RouteRegistrations(routes) <==> Accepts(routes, r)
    decreases |routes|
  {
    if |routes| > 0 {
      var rest := routes[1..];
      assert Dicts.Valid(rest) by {
        forall a, b | 0 <= a < b < |rest| ensures rest[a].0 != rest[b].0 {
          assert routes[a + 1].0 != routes[b + 1].0;
        }
      }
      RouteRegistered(rest, r);
      assert routes[0].0 !in Keys(rest) by {
        forall j | 0 <= j < |rest| ensures Keys(rest)[j] != routes[0].0 {
          assert routes[j + 1].0 != routes[0].0;
        }
      }
    }
  }
}

=== FILE: plugins.dfy ===
/**
  projgen's plugins: the two built-in plugins (Docker and documentation
  support), plugins loaded from elsewhere as opaque behaviour, and the
  `PluginManager` registry that applies them in registration order.
  A generated project tree is a `Files` map from relative path to contents.
 */
module Plugins {
  import opened Wrappers
  import opened Text
  import opened Dicts

  type Files = Dict<string>

  datatype Features = Features(docker: bool, docs: bool)

  /** The `docker` section of a configuration. */
  datatype DockerSettings = DockerSettings(baseImage: Option<string>, port: Option<int>)

  /** The parts of a project configuration the plugins read and write. */
  datatype ProjectConfig = ProjectConfig(
    projectName: Option<string>,
    language: Option<string>,
    features: Features,
    docker: Option<DockerSettings>)

  const DefaultImage := "ubuntu:22.04"
  const DefaultPort := 8080

  // ---------------------------------------------------------------------------
  // Docker plugin
  // ---------------------------------------------------------------------------

  /** `_get_base_image`: the image for each language with one, as a table. */
  const BaseImages: Dict<string> := [
    ("python", "python:3.12-slim"),
    ("java", "openjdk:17-jre-slim"),
    ("kotlin", "openjdk:17-jre-slim"),
    ("node", "node:18-alpine"),
    ("typescript", "node:18-alpine"),
    ("rust", "rust:1.70-slim"),
    ("cpp", "gcc:latest"),
    ("c", "gcc:latest")]

  /** `_get_default_port`. */
  const DefaultPorts: Dict<int> := [
    ("python", 8000),
    ("java", 8080),
    ("kotlin", 8080),
    ("node", 3000),
    ("typescript", 3000),
    ("rust", 8000),
    ("cpp", 8080),
    ("c", 8080)]

  function BaseImage(language: Option<string>): (image: string)
    ensures language.Some? && language.value in Keys(BaseImages) ==> Some(image) == Get(BaseImages, language.value)
    ensures (language.None? || language.value !in Keys(BaseImages)) <==> image == DefaultImage
  {
    if language.Some? then Get(BaseImages, language.value).GetOr(DefaultImage) else DefaultImage
  }

  function PortFor(language: Option<string>): (port: int)
    ensures language.Some? && language.value in Keys(DefaultPorts) ==> Some(port) == Get(DefaultPorts, language.value)
    ensures language.None? || language.value !in Keys(DefaultPorts) ==> port == DefaultPort
  {
    if language.Some? then Get(DefaultPorts, language.value).GetOr(DefaultPort) else DefaultPort
  }

  /** `DockerPlugin.configure`: fills in the docker section only when the feature is on. */
  function DockerConfigure(c: ProjectConfig): (r: ProjectConfig)
    ensures r.(docker := c.docker) == c
    ensures !c.features.docker ==> r.docker == c.docker
    ensures c.features.docker ==> r.docker.Some? && r.docker.value.baseImage == Some(BaseImage(c.language)) && r.docker.value.port == Some(PortFor(c.language))
  {
    if c.features.docker then c.(docker := Some(DockerSettings(Some(BaseImage(c.language)), Some(PortFor(c.language)))))
    else c
  }

  /** What a Dockerfile does between `WORKDIR` and `EXPOSE`, by language. */
  function CopySteps(language: string): string {
    if language == "python" then
      "COPY requirements.txt .\nRUN pip install --no-cache-dir -r requirements.txt\n\nCOPY . .\n\n"
    else if language == "java" || language == "kotlin" then
      "COPY build/libs/*.jar app.jar\n\n"
    else if language == "node" || language == "typescript" then
      "COPY package*.json ./\nRUN npm ci --only=production\n\nCOPY . .\n\n"
    else
      "COPY . .\n\n"
  }

  function RunCommand(language: string): string {
    if language == "python" then "CMD [\"python\", \"src/main.py\"]\n"
    else if language == "java" || language == "kotlin" then "CMD [\"java\", \"-jar\", \"app.jar\"]\n"
    else if language == "node" || language == "typescript" then "CMD [\"npm\", \"start\"]\n"
    else "CMD [\"./run.sh\"]\n"
  }

  function SettingsImage(settings: Option<DockerSettings>): string {
    if settings.Some? then settings.value.baseImage.GetOr(DefaultImage) else DefaultImage
  }

  function SettingsPort(settings: Option<DockerSettings>): int {
    if settings.Some? then settings.value.port.GetOr(DefaultPort) else DefaultPort
  }

  /**
    `_generate_dockerfile`: from the configured image, exposing the configured
    port, with defaults for whatever the docker section leaves out.
   */
  function Dockerfile(language: string, settings: Option<DockerSettings>): (text: string)
    ensures StartsWith(text, "FROM " + SettingsImage(settings) + "\n")
    ensures Contains(text, "EXPOSE " + IntToString(SettingsPort(settings)) + "\n")
    ensures EndsWith(text, RunCommand(language))
  {
    var from := "FROM " + SettingsImage(settings) + "\n";
    var expose := "EXPOSE " + IntToString(SettingsPort(settings)) + "\n";
    var head := from + "\nWORKDIR /app\n\n" + CopySteps(language);
    var tail := "\n" + RunCommand(language);
    ContainsMiddle(head, expose, tail);
    assert (head + expose + tail)[..|from|] == from;
    head + expose + tail
  }

  const ComposeTail := "    environment:\n      - NODE_ENV=production\n    volumes:\n      - .:/app\n      - /app/node_modules\n"

  /** `_generate_docker_compose`: one service named after the project, publishing its port. */
  function Compose(c: ProjectConfig): (text: string)
    ensures Contains(text, "  " + c.projectName.GetOr("app") + ":\n")
  {
    var port := IntToString(SettingsPort(c.docker));
    var head := "version: '3.8'\n\nservices:\n";
    var service := "  " + c.projectName.GetOr("app") + ":\n";
    var tail := "    build: .\n    ports:\n      - \"" + port + ":" + port + "\"\n" + ComposeTail;
    ContainsMiddle(head, service, tail);
    head + service + tail
  }

  const CommonIgnores: seq<string> :=
    [".git", ".gitignore", "README.md", "Dockerfile", "docker-compose.yml", ".dockerignore"]

  function LanguageIgnores(language: string): seq<string> {
    if language == "python" then ["__pycache__", "*.pyc", ".pytest_cache", ".venv"]
    else if language == "node" then ["node_modules", "npm-debug.log"]
    else if language == "typescript" then ["node_modules", "npm-debug.log", "dist"]
    else if language == "java" then ["target", "*.class"]
    else if language == "kotlin" then ["build", "*.class"]
    else []
  }

  /** `_generate_dockerignore`: the common patterns then the language's, one per line. */
  function Dockerignore(language: string): (text: string)
    ensures text == Terminated(CommonIgnores + LanguageIgnores(language))
    ensures SplitLines(text) == CommonIgnores + LanguageIgnores(language)
  {
    JoinNewlineTerminated(CommonIgnores + LanguageIgnores(language));
    IgnoresSingleLines(language);
    SplitLinesTerminated(CommonIgnores + LanguageIgnores(language));
    Join(CommonIgnores + LanguageIgnores(language), "\n") + "\n"
  }

  lemma IgnoresSingleLines(language: string)
    ensures SingleLines(CommonIgnores + LanguageIgnores(language))
  {
    CommonSingleLines();
    LanguageSingleLines(language);
    SingleLinesAppend(CommonIgnores, LanguageIgnores(language));
  }

  lemma CommonSingleLines()
    ensures SingleLines(CommonIgnores)
  {
    assert NoLineBreaks(".git") && NoLineBreaks(".gitignore") && NoLineBreaks("README.md");
    assert NoLineBreaks("Dockerfile") && NoLineBreaks("docker-compose.yml") && NoLineBreaks(".dockerignore");
  }

  lemma LanguageSingleLines(language: string)
    ensures SingleLines(LanguageIgnores(language))
  {
    if language == "python" {
      PythonSingleLines();
    } else if language == "node" || language == "typescript" {
      NodeSingleLines();
    } else if language == "java" || language == "kotlin" {
      JvmSingleLines();
    }
  }

  lemma PythonSingleLines()
    ensures SingleLines(LanguageIgnores("python"))
  {
    assert NoLineBreaks("__pycache__") && NoLineBreaks("*.pyc") && NoLineBreaks(".pytest_cache") && NoLineBreaks(".venv");
  }

  lemma NodeSingleLines()
    ensures SingleLines(LanguageIgnores("node")) && SingleLines(LanguageIgnores("typescript"))
  {
    assert NoLineBreaks("node_modules") && NoLineBreaks("npm-debug.log") && NoLineBreaks("dist");
  }

  lemma JvmSingleLines()
    ensures SingleLines(LanguageIgnores("java")) && SingleLines(LanguageIgnores("kotlin"))
  {
    assert NoLineBreaks("target") && NoLineBreaks("build") && NoLineBreaks("*.class");
  }

  /** Reading the `.dockerignore` back line by line gives the patterns. */
  lemma DockerignoreLines(language: string)
    ensures SplitLines(Dockerignore(language)) == CommonIgnores + LanguageIgnores(language)
  {
    IgnoresSingleLines(language);
    SplitLinesTerminated(CommonIgnores + LanguageIgnores(language));
  }

  const DockerPaths: seq<string> := ["Dockerfile", "docker-compose.yml", ".dockerignore"]

  /** `DockerPlugin.generate_files`. */
  function DockerFiles(c: ProjectConfig): (files: Files)
    ensures !c.features.docker <==> files == []
    ensures c.features.docker ==> Keys(files) == DockerPaths
  {
    if !c.features.docker then []
    else
      var language := c.language.GetOr("python");
      Zip(DockerPaths, [Dockerfile(language, c.docker), Compose(c), Dockerignore(language)])
  }

  /** A Python project with the feature on gets the Python image and port, and the three Docker files. */
  lemma PythonDockerExample(c: ProjectConfig)
    requires c.language == Some("python") && c.features.docker
    ensures DockerConfigure(c).docker == Some(DockerSettings(Some("python:3.12-slim"), Some(8000)))
    ensures Keys(DockerFiles(DockerConfigure(c))) == DockerPaths
  {
    assert Get(BaseImages, "python") == Some("python:3.12-slim");
    assert Get(DefaultPorts, "python") == Some(8000);
  }

  /**
    Configuring twice is configuring once: the filled-in section depends only
    on the language and the feature flag, which configuring leaves alone.
   */
  lemma {:induction false} DockerConfigureIdempotent(c: ProjectConfig)
    ensures DockerConfigure(DockerConfigure(c)) == DockerConfigure(c)
  {
  }

  // ---------------------------------------------------------------------------
  // Docs plugin
  // ---------------------------------------------------------------------------

  const MkDocsBody := "nav:\n  - Home: index.md\n  - API: api.md\n  - Contributing: contributing.md\n\ntheme:\n  name: material\n  features:\n    - navigation.instant\n\nmarkdown_extensions:\n  - admonition\n  - codehilite\n"

  function MkDocs(name: string): (text: string)
    ensures StartsWith(text, "site_name: " + name + "\n")
  {
    "site_name: " + name + "\n" + MkDocsBody
  }

  const IndexBody := " documentation.\n\n## Getting Started\n\nAdd your getting started guide here.\n\n## Features\n\n- Feature 1\n- Feature 2\n- Feature 3\n"

  function DocsIndex(name: string): string {
    "# " + name + "\n\nWelcome to the " + name + IndexBody
  }

  const ApiDoc := "# API Reference\n\nDocument your API here.\n"

  const ContributingDoc := "# Contributing\n\nGuidelines for contributing to this project.\n\n## Development Setup\n\n1. Clone the repository\n2. Install dependencies\n3. Run tests\n\n## Pull Request Process\n\n1. Fork the repository\n2. Create a feature branch\n3. Make your changes\n4. Submit a pull request\n"

  /** The contents of the docs plugin's files, in `DocsPaths` order. */
  function DocsContents(name: string): (contents: seq<string>)
    ensures |contents| == 4 && contents[0] == MkDocs(name)
  {
    [MkDocs(name), DocsIndex(name), ApiDoc, ContributingDoc]
  }

  /** The docs plugin writes the MkDocs configuration and three pages under `docs/`. */
  const DocsPaths: seq<string> := ["mkdocs.yml", "docs/index.md", "docs/api.md", "docs/contributing.md"]

  /** `DocsPlugin.generate_files`. */
  function DocsFiles(c: ProjectConfig): (files: Files)
    ensures !c.features.docs <==> files == []
    ensures c.features.docs ==> Keys(files) == DocsPaths
    ensures c.features.docs ==> Values(files) == DocsContents(c.projectName.GetOr("Project"))
  {
    if !c.features.docs then []
    else
      var name := c.projectName.GetOr("Project");
      Zip(DocsPaths, DocsContents(name))
  }

  // ---------------------------------------------------------------------------
  // Plugins and the registry
  // ---------------------------------------------------------------------------

  /** A step of a plugin that may raise. */
  datatype Step<T> = Ok(value: T) | Fail(error: string)

  /**
    A plugin: one of the two built in, or one loaded from a file, whose
    behaviour is given. Generating may write some files and then raise.
   */
  datatype Plugin =
    | DockerPlugin
    | DocsPlugin
    | External(
        name: string, version: string, description: string,
        configure: ProjectConfig -> Step<ProjectConfig>,
        generate: ProjectConfig -> (Files, Option<string>),
        postGenerate: ProjectConfig -> Option<string>)

  function Name(p: Plugin): string {
    match p
    case DockerPlugin => "docker"
    case DocsPlugin => "docs"
    case External(name, _, _, _, _, _) => name
  }

  function Version(p: Plugin): string {
    match p
    case External(_, version, _, _, _, _) => version
    case _ => "1.0.0"
  }

  function Description(p: Plugin): string {
    match p
    case DockerPlugin => "Adds Docker support with Dockerfile and docker-compose.yml"
    case DocsPlugin => "Adds MkDocs documentation setup"
    case External(_, _, description, _, _, _) => description
  }

  /** The registry: plugins by name, in first-registration order. */
  type Registry = Dict<Plugin>

  /** `register_plugin`: stores the plugin under its name, replacing any earlier one in place. */
  function Register(reg: Registry, p: Plugin): (r: Registry)
    ensures Get(r, Name(p)) == Some(p)
    ensures forall n :: n != Name(p) ==> Get(r, n) == Get(reg, n)
    ensures |Values(r)| == if Name(p) in Keys(reg) then |Values(reg)| else |Values(reg)| + 1
    ensures Valid(reg) ==> Valid(r)
  {
    var r := Put(reg, Name(p), p);
    assert Valid(reg) ==> Valid(r) by {
      if Valid(reg) { PutValid(reg, Name(p), p); }
    }
    r
  }

  /** A new manager holds the Docker plugin, then the docs plugin. */
  function Builtins(): (reg: Registry)
    ensures Valid(reg)
  {
    Register(Register([], DockerPlugin), DocsPlugin)
  }

  /** `get_plugin`. */
  function GetPlugin(reg: Registry, name: string): (p: Option<Plugin>)
    ensures p.Some? <==> name in Keys(reg)
    ensures p.Some? ==> (name, p.value) in reg
  {
    Get(reg, name)
  }

  /** `list_plugins`. */
  function ListPlugins(reg: Registry): (ps: seq<Plugin>)
    ensures |ps| == |reg|
    ensures forall i :: 0 <= i < |reg| ==> ps[i] == reg[i].1
  {
    Values(reg)
  }

  /** The built-in registry lists two plugins and finds each by name. */
  lemma BuiltinsListed()
    ensures |ListPlugins(Builtins())| == 2
    ensures GetPlugin(Builtins(), "docker") == Some(DockerPlugin)
    ensures GetPlugin(Builtins(), "docs") == Some(DocsPlugin)
  {
    var empty: Registry := [];
    assert Keys(empty) == [];
  }

  /** The effect of applying plugins so far: the configuration, the files written, the errors logged. */
  datatype Applied = Applied(config: ProjectConfig, files: Files, errors: seq<string>)

  function Configure(p: Plugin, c: ProjectConfig): Step<ProjectConfig> {
    match p
    case DockerPlugin => Ok(DockerConfigure(c))
    case DocsPlugin => Ok(c)
    case External(_, _, _, configure, _, _) => configure(c)
  }

  function Generate(p: Plugin, c: ProjectConfig): (Files, Option<string>) {
    match p
    case DockerPlugin => (DockerFiles(c), None)
    case DocsPlugin => (DocsFiles(c), None)
    case External(_, _, _, _, generate, _) => generate(c)
  }

  function PostGenerate(p: Plugin, c: ProjectConfig): Option<string> {
    match p
    case External(_, _, _, _, _, post) => post(c)
    case _ => None
  }

  function Logged(p: Plugin, error: string): string {
    "Error applying plugin " + Name(p) + ": " + error
  }

  /**
    One iteration of `apply_plugins`: configure, generate, post-generate. An
    exception is logged and ends this plugin's turn; the configuration it
    already returned and the files it already wrote are kept.
   */
  function ApplyOne(p: Plugin, st: Applied): (r: Applied)
    ensures Configure(p, st.config).Fail? ==>
      r == st.(errors := st.errors + [Logged(p, Configure(p, st.config).error)])
    ensures Configure(p, st.config).Ok? ==> r.config == Configure(p, st.config).value
    ensures Configure(p, st.config).Ok? ==>
      r.files == PutAll(st.files, Generate(p, Configure(p, st.config).value).0)
    ensures r.errors == st.errors || (|r.errors| == |st.errors| + 1 && r.errors[..|st.errors|] == st.errors)
  {
    match Configure(p, st.config)
    case Fail(e) => st.(errors := st.errors + [Logged(p, e)])
    case Ok(c) =>
      var (written, raised) := Generate(p, c);
      var files := PutAll(st.files, written);
      var error := if raised.Some? then raised else PostGenerate(p, c);
      Applied(c, files, Log(st.errors, p, error))
  }

  function Log(errors: seq<string>, p: Plugin, error: Option<string>): (r: seq<string>)
    ensures error.None? ==> r == errors
    ensures error.Some? ==> |r| == |errors| + 1 && r[..|errors|] == errors && r[|errors|] == Logged(p, error.value)
  {
    if error.Some? then errors + [Logged(p, error.value)] else errors
  }

  /** `apply_plugins`: every plugin gets its turn, in registry order, whatever the earlier ones did. */
  function ApplyAll(plugins: seq<Plugin>, st: Applied): (r: Applied)
    ensures |st.errors| <= |r.errors| <= |st.errors| + |plugins|
    ensures r.errors[..|st.errors|] == st.errors
    decreases |plugins|
  {
    if |plugins| == 0 then st
    else ApplyAll(plugins[1..], ApplyOne(plugins[0], st))
  }

  function ApplyPlugins(reg: Registry, c: ProjectConfig): (r: Applied)
    ensures |r.errors| <= |reg|
  {
    ApplyAll(ListPlugins(reg), Applied(c, [], []))
  }

  /** Applying a list of plugins is applying its halves one after the other. */
  lemma {:induction false} ApplyAllAppend(a: seq<Plugin>, b: seq<Plugin>, st: Applied)
    ensures ApplyAll(a + b, st) == ApplyAll(b, ApplyAll(a, st))
    decreases |a|
  {
    if |a| == 0 {
      assert a + b == b;
    } else {
      assert (a + b)[1..] == a[1..] + b;
      ApplyAllAppend(a[1..], b, ApplyOne(a[0], st));
    }
  }

  /** The built-in plugins never fail: they configure Docker and write both plugins' files. */
  lemma BuiltinsApply(c: ProjectConfig)
    ensures var r := ApplyPlugins(Builtins(), c);
      && r.errors == []
      && r.config == DockerConfigure(c)
      && r.files == PutAll(PutAll([], DockerFiles(DockerConfigure(c))), DocsFiles(DockerConfigure(c)))
  {
    assert ListPlugins(Builtins()) == [DockerPlugin, DocsPlugin];
    var st := Applied(c, [], []);
    var st1 := ApplyOne(DockerPlugin, st);
    DockerStep(st);
    DocsStep(st1);
    assert ApplyAll([DockerPlugin, DocsPlugin], st) == ApplyAll([DocsPlugin], st1);
  }

  /** The Docker plugin's turn: it configures, writes its files and logs nothing. */
  lemma DockerStep(st: Applied)
    ensures var c := DockerConfigure(st.config);
      ApplyOne(DockerPlugin, st) == Applied(c, PutAll(st.files, DockerFiles(c)), st.errors)
  {
  }

  /** The docs plugin's turn: the configuration is unchanged and nothing is logged. */
  lemma DocsStep(st: Applied)
    ensures ApplyOne(DocsPlugin, st) == Applied(st.config, PutAll(st.files, DocsFiles(st.config)), st.errors)
  {
  }

  // ---------------------------------------------------------------------------
  // Info
  // ---------------------------------------------------------------------------

  function InfoLine(p: Plugin): string {
    "  • " + Name(p) + " v" + Version(p) + ": " + Description(p)
  }

  function InfoLines(ps: seq<Plugin>): (lines: seq<string>)
    ensures |lines| == |ps|
    ensures forall i :: 0 <= i < |ps| ==> lines[i] == InfoLine(ps[i])
  {
    seq(|ps|, i requires 0 <= i < |ps| => InfoLine(ps[i]))
  }

  /** `get_plugin_info`. */
  function PluginInfo(reg: Registry): (text: string)
    ensures reg == [] <==> text == "No plugins available."
    ensures reg != [] ==> StartsWith(text, "Available Plugins:")
  {
    if reg == [] then "No plugins available."
    else
      var lines := ["Available Plugins:"] + InfoLines(ListPlugins(reg));
      var text := Join(lines, "\n");
      assert text[..|"Available Plugins:"|] == "Available Plugins:" by {
        JoinStartsWithFirst(lines, "\n");
      }
      assert text[0] != "No plugins available."[0];
      text
  }

  lemma {:induction false} JoinStartsWithFirst(parts: seq<string>, sep: string)
    requires |parts| >= 1
    ensures StartsWith(Join(parts, sep), parts[0])
  {
  }

  /** With one-line names and descriptions, the info reads back as a header and one line per plugin. */
  lemma PluginInfoLines(reg: Registry)
    requires reg != []
    requires forall i :: 0 <= i < |reg| ==> '\n' !in InfoLine(reg[i].1)
    ensures Split(PluginInfo(reg), '\n') == ["Available Plugins:"] + InfoLines(ListPlugins(reg))
  {
    var lines := ["Available Plugins:"] + InfoLines(ListPlugins(reg));
    assert forall i :: 1 <= i < |lines| ==> lines[i] == InfoLine(reg[i - 1].1);
    SplitJoin(lines, '\n');
  }
}

=== FILE: profile_manager.dfy ===
/**
  The devstack manager's profiles: a profile names services of three kinds
  (docker, vm, mock) and shell hooks to run around starting and stopping them.
  The drivers and the hook shell are the `World`: each answers a request given
  the events that happened before it, so the model fixes the order in which
  the manager asks, not what the drivers do.
 */
module ProfileManager {
  import opened Wrappers
  import opened Text
  import opened Dicts

  type Report = Dict<string>

  datatype Service = Service(name: string, kind: string)

  datatype Hooks = Hooks(preStart: seq<string>, postStart: seq<string>, preStop: seq<string>, postStop: seq<string>)

  /** A loaded profile: its `profile` section, its services in declared order, its hooks. */
  datatype Profile = Profile(info: Dict<string>, services: seq<Service>, hooks: Hooks)

  /**
    What loading a profile file gives: a non-empty mapping, an empty mapping,
    a null document, a value of another type (a list or a scalar, with its
    Python type name and whether it is truthy), or a read or parse error.
   */
  datatype Document =
    | Parsed(profile: Profile)
    | EmptyMapping
    | Null
    | NotMapping(typeName: string, truthy: bool)
    | Unreadable

  datatype Power = Start | Stop

  datatype DriverCall =
    | ListContainers
    | CreateContainer(name: string)
    | Drive(kind: string, power: Power, name: string)
    | Query(kind: string, name: string)

  datatype HookOutcome = Exited(code: int) | HookRaised(error: string)

  datatype Event = HookRun(command: string, outcome: HookOutcome) | Called(call: DriverCall)

  datatype Outcome = Returned(report: Report) | Raised(error: string)

  /** The drivers and the shell, each answering given the events so far. */
  datatype World = World(
    hook: (seq<Event>, string) -> HookOutcome,
    containers: seq<Event> -> seq<string>,
    drive: (seq<Event>, DriverCall) -> Outcome,
    query: (seq<Event>, DriverCall) -> Report)

  // ---------------------------------------------------------------------------
  // Loading
  // ---------------------------------------------------------------------------

  /**
    `get_profile`: `<name>.yaml`, else `<name>.yml`; an empty or unreadable
    document is no profile. A `.yaml` file that fails to load hides a `.yml` one.
   */
  function GetProfile(files: map<string, Document>, name: string): (p: Option<Profile>)
    ensures name + ".yaml" in files ==>
      (p.Some? <==> files[name + ".yaml"].Parsed?) && (p.Some? ==> p.value == files[name + ".yaml"].profile)
    ensures name + ".yaml" !in files && name + ".yml" in files ==>
      (p.Some? <==> files[name + ".yml"].Parsed?) && (p.Some? ==> p.value == files[name + ".yml"].profile)
    ensures name + ".yaml" !in files && name + ".yml" !in files ==> p.None?
  {
    var file: Option<Document> :=
      if name + ".yaml" in files then Some(files[name + ".yaml"])
      else if name + ".yml" in files then Some(files[name + ".yml"])
      else None;
    if file.Some? && file.value.Parsed? then Some(file.value.profile) else None
  }

  /** The document `get_profile` returns, when it returns one: the `.yaml` file's, else the `.yml` file's. */
  function Chosen(files: map<string, Document>, name: string): (d: Option<Document>)
    ensures name + ".yaml" in files ==>
      (d.Some? <==> !files[name + ".yaml"].Unreadable?) && (d.Some? ==> d.value == files[name + ".yaml"])
    ensures name + ".yaml" !in files && name + ".yml" in files ==>
      (d.Some? <==> !files[name + ".yml"].Unreadable?) && (d.Some? ==> d.value == files[name + ".yml"])
    ensures name + ".yaml" !in files && name + ".yml" !in files ==> d.None?
  {
    var file := if name + ".yaml" in files then files[name + ".yaml"] else if name + ".yml" in files then files[name + ".yml"] else Unreadable;
    if file.Unreadable? then None else Some(file)
  }

  /**
    The profile file loads as a truthy value that is not a mapping: it passes
    `if not profile`, and the first `profile.get` raises `AttributeError`.
   */
  predicate LoadsAsNonMapping(files: map<string, Document>, name: string) {
    var d := Chosen(files, name);
    d.Some? && d.value.NotMapping? && d.value.truthy
  }

  /** The message of the `AttributeError` that `.get` on a value of that type raises. */
  function NoGet(typeName: string): (message: string)
    ensures StartsWith(message, "'" + typeName + "'")
    ensures EndsWith(message, " object has no attribute 'get'")
  {
    "'" + typeName + "'" + " object has no attribute 'get'"
  }

  /** A profile file name `list_profiles` reads. */
  predicate IsProfileFile(filename: string) {
    EndsWith(filename, ".yaml") || EndsWith(filename, ".yml")
  }

  /**
    `list_profiles`: for each `.yaml`/`.yml` file that loads as a mapping, in
    directory order, its `profile` section with `filename` and `services_count`
    set. Files that fail to load, or load as a null document or as anything
    else but a mapping, are skipped; an empty mapping is listed with no services.
   */
  function ListProfiles(listing: seq<(string, Document)>): (out: seq<Report>)
    ensures |out| <= |listing|
    decreases |listing|
  {
    if |listing| == 0 then []
    else
      var (filename, doc) := listing[0];
      (if IsProfileFile(filename) && IsMapping(doc) then [Summary(filename, MappingOf(doc))] else [])
      + ListProfiles(listing[1..])
  }

  function Summary(filename: string, p: Profile): (r: Report)
    ensures Get(r, "filename") == Some(filename)
    ensures Get(r, "services_count") == Some(NatToString(|p.services|))
    ensures forall k :: k != "filename" && k != "services_count" ==> Get(r, k) == Get(p.info, k)
  {
    Put(Put(p.info, "filename", filename), "services_count", NatToString(|p.services|))
  }

  /** Exactly the loadable profile files are listed, in directory order. */
  lemma ListProfilesOf(listing: seq<(string, Document)>)
    ensures |ListProfiles(listing)| == |Loadable(listing)|
    ensures forall i :: 0 <= i < |Loadable(listing)| ==>
      ListProfiles(listing)[i] == Summary(Loadable(listing)[i].0, MappingOf(Loadable(listing)[i].1))
  {
    ListedSummaries(listing);
  }

  /** The summary `list_profiles` gives of a loadable file. */
  function Summarise(file: (string, Document)): Report {
    Summary(file.0, MappingOf(file.1))
  }

  /** `[f(x) for x in xs]`. */
  function MapSeq<A, B>(f: A -> B, xs: seq<A>): (ys: seq<B>)
    ensures |ys| == |xs| && forall i :: 0 <= i < |xs| ==> ys[i] == f(xs[i])
  {
    seq(|xs|, i requires 0 <= i < |xs| => f(xs[i]))
  }

  lemma MapSeqCons<A, B>(f: A -> B, x: A, xs: seq<A>)
    ensures MapSeq(f, [x] + xs) == [f(x)] + MapSeq(f, xs)
  {
    assert forall i :: 0 < i <= |xs| ==> ([x] + xs)[i] == xs[i - 1];
  }

  /** Listing the profiles summarises the loadable files. */
  lemma {:induction false} ListedSummaries(listing: seq<(string, Document)>)
    ensures ListProfiles(listing) == MapSeq(Summarise, Loadable(listing))
    decreases |listing|
  {
    if |listing| > 0 {
      var rest := listing[1..];
      ListedSummaries(rest);
      if IsProfileFile(listing[0].0) && IsMapping(listing[0].1) {
        MapSeqCons(Summarise, listing[0], Loadable(rest));
      } else {
        assert [] + ListProfiles(rest) == ListProfiles(rest);
        assert [] + Loadable(rest) == Loadable(rest);
      }
    }
  }

  /** The loadable profile files of a listing. */
  function Loadable(listing: seq<(string, Document)>): (files: seq<(string, Document)>)
    ensures forall i :: 0 <= i < |files| ==> files[i] in listing && IsProfileFile(files[i].0) && IsMapping(files[i].1)
    decreases |listing|
  {
    if |listing| == 0 then []
    else (if IsProfileFile(listing[0].0) && IsMapping(listing[0].1) then [listing[0]] else []) + Loadable(listing[1..])
  }

  predicate IsMapping(doc: Document) {
    doc.Parsed? || doc.EmptyMapping?
  }

  /** The profile a mapping document describes; an empty mapping has no sections. */
  function MappingOf(doc: Document): Profile {
    if doc.Parsed? then doc.profile else Profile([], [], Hooks([], [], [], []))
  }

  // ---------------------------------------------------------------------------
  // Hooks
  // ---------------------------------------------------------------------------

  /**
    `_run_hooks`: every hook runs, one after another, in list order; a failed
    or raising hook is only logged and the next one still runs.
   */
  function RunHooks(w: World, trace: seq<Event>, hooks: seq<string>): (evs: seq<Event>)
    ensures |evs| == |hooks| && OnlyHooks(evs)
    ensures forall i {:trigger hooks[i]} :: 0 <= i < |hooks| ==>
      evs[i] == HookRun(hooks[i], w.hook(trace + evs[..i], hooks[i]))
    decreases |hooks|
  {
    if |hooks| == 0 then []
    else
      var n := |hooks| - 1;
      var init := RunHooks(w, trace, hooks[..n]);
      var evs := init + [HookRun(hooks[n], w.hook(trace + init, hooks[n]))];
      assert evs[..n] == init;
      assert forall i :: 0 <= i < n ==> evs[..i] == init[..i];
      evs
  }

  /** Every event is a hook run: no driver call is among them. */
  predicate OnlyHooks(evs: seq<Event>) {
    forall i :: 0 <= i < |evs| ==> evs[i].HookRun?
  }

  /** The commands of the hook events, in order. */
  function Commands(evs: seq<Event>): (cmds: seq<string>)
    decreases |evs|
  {
    if |evs| == 0 then []
    else (if evs[0].HookRun? then [evs[0].command] else []) + Commands(evs[1..])
  }

  /** Whatever the hooks' outcomes, the commands run are the hook list. */
  lemma HooksAllRun(w: World, trace: seq<Event>, hooks: seq<string>)
    ensures Commands(RunHooks(w, trace, hooks)) == hooks
  {
    HookCommands(RunHooks(w, trace, hooks), hooks);
  }

  /** Hook runs of the given commands, position by position, have those commands. */
  lemma {:induction false} HookCommands(evs: seq<Event>, hooks: seq<string>)
    requires |evs| == |hooks|
    requires forall i :: 0 <= i < |evs| ==> evs[i].HookRun? && evs[i].command == hooks[i]
    ensures Commands(evs) == hooks
    decreases |evs|
  {
    if |evs| > 0 {
      HookCommands(evs[1..], hooks[1..]);
    }
  }

  lemma {:induction false} CommandsAppend(a: seq<Event>, b: seq<Event>)
    ensures Commands(a + b) == Commands(a) + Commands(b)
    decreases |a|
  {
    if |a| == 0 {
      assert a + b == b;
    } else {
      assert (a + b)[0] == a[0];
      assert (a + b)[1..] == a[1..] + b;
      CommandsAppend(a[1..], b);
    }
  }

  // ---------------------------------------------------------------------------
  // Visiting one service
  // ---------------------------------------------------------------------------

  predicate Known(kind: string) {
    kind == "docker" || kind == "vm" || kind == "mock"
  }

  function UnknownType(kind: string): Report {
    [("status", "error"), ("message", "Unknown service type: " + kind)]
  }

  /** The report an exception from one service becomes. */
  function ErrorEntry(name: string, error: string): Report {
    [("service", name), ("status", "error"), ("message", error)]
  }

  /** One driver call and its answer. */
  function Ask(w: World, trace: seq<Event>, call: DriverCall): (Outcome, seq<Event>) {
    (w.drive(trace, call), [Called(call)])
  }

  /**
    Starting a docker service: the container is created first when no listed
    container has the service's name; an error reply from creating it is
    returned as it is and the container is not started.
   */
  function DockerStart(w: World, trace: seq<Event>, name: string): (out: (Outcome, seq<Event>))
    ensures |out.1| >= 2 && out.1[0] == Called(ListContainers)
    ensures Called(CreateContainer(name)) in out.1 <==> name !in w.containers(trace)
    ensures name !in w.containers(trace) ==> out.1[1] == Called(CreateContainer(name))
    ensures var create := w.drive(trace + [Called(ListContainers)], CreateContainer(name));
      Called(Drive("docker", Start, name)) in out.1 <==>
        name in w.containers(trace) || (create.Returned? && Get(create.report, "status") != Some("error"))
    ensures var create := w.drive(trace + [Called(ListContainers)], CreateContainer(name));
      name !in w.containers(trace) && create.Returned? && Get(create.report, "status") == Some("error") ==>
        out.0 == create
    ensures name in w.containers(trace) ==>
      out.0 == w.drive(trace + [Called(ListContainers)], Drive("docker", Start, name))
    ensures var create := w.drive(trace + [Called(ListContainers)], CreateContainer(name));
      name !in w.containers(trace) && create.Returned? && Get(create.report, "status") != Some("error") ==>
        out.0 == w.drive(trace + [Called(ListContainers), Called(CreateContainer(name))], Drive("docker", Start, name))
  {
    var listed := [Called(ListContainers)];
    var start := Drive("docker", Start, name);
    if name in w.containers(trace) then
      var (o, e) := Ask(w, trace + listed, start);
      (o, listed + e)
    else
      var create := CreateContainer(name);
      var made := listed + [Called(create)];
      assert made == [Called(ListContainers), Called(create)];
      match w.drive(trace + listed, create)
      case Raised(e) => (Raised(e), made)
      case Returned(r) =>
        if Get(r, "status") == Some("error") then (Returned(r), made)
        else
          var (o, e) := Ask(w, trace + made, start);
          (o, made + e)
  }

  /** The driver call an event makes about a service, if it names one. */
  predicate About(e: Event, name: string) {
    e.Called? && match e.call
      case ListContainers => true
      case CreateContainer(n) => n == name
      case Drive(_, _, n) => n == name
      case Query(_, n) => n == name
  }

  /** `_start_service` / `_stop_service`: dispatch on the service's type. */
  function Dispatch(w: World, trace: seq<Event>, s: Service, power: Power): (out: (Outcome, seq<Event>))
    ensures !Known(s.kind) <==> |out.1| == 0
    ensures !Known(s.kind) ==> out.0 == Returned(UnknownType(s.kind))
    ensures forall i :: 0 <= i < |out.1| ==> About(out.1[i], s.name)
    ensures Known(s.kind) && !(s.kind == "docker" && power == Start) ==>
      out == (w.drive(trace, Drive(s.kind, power, s.name)), [Called(Drive(s.kind, power, s.name))])
    ensures s.kind == "docker" && power == Start ==>
      && out.1[0] == Called(ListContainers)
      && (Called(Drive("docker", Start, s.name)) in out.1 ==> out.1[|out.1| - 1] == Called(Drive("docker", Start, s.name)))
  {
    if s.kind == "docker" && power == Start then DockerStart(w, trace, s.name)
    else if Known(s.kind) then Ask(w, trace, Drive(s.kind, power, s.name))
    else (Returned(UnknownType(s.kind)), [])
  }

  datatype Visit = Visit(result: Report, events: seq<Event>)

  /** One iteration of the service loop: an exception becomes an error entry naming the service. */
  function VisitService(w: World, trace: seq<Event>, s: Service, power: Power): (v: Visit)
    ensures !Known(s.kind) ==> v == Visit(UnknownType(s.kind), [])
    ensures forall i :: 0 <= i < |v.events| ==> About(v.events[i], s.name)
    ensures Dispatch(w, trace, s, power).0.Raised? ==>
      v.result == ErrorEntry(s.name, Dispatch(w, trace, s, power).0.error)
    ensures Dispatch(w, trace, s, power).0.Returned? ==> v.result == Dispatch(w, trace, s, power).0.report
    ensures v.events == Dispatch(w, trace, s, power).1
  {
    var (outcome, evs) := Dispatch(w, trace, s, power);
    match outcome
    case Returned(r) => Visit(r, evs)
    case Raised(e) => Visit(ErrorEntry(s.name, e), evs)
  }

  function Events(vs: seq<Visit>): (evs: seq<Event>)
    decreases |vs|
  {
    if |vs| == 0 then [] else Events(vs[..|vs| - 1]) + vs[|vs| - 1].events
  }

  /**
    The service loop: every service is visited, in the given order, each with
    the events of the visits before it; a failing service does not end the loop.
   */
  function Visits(w: World, trace: seq<Event>, services: seq<Service>, power: Power): (vs: seq<Visit>)
    ensures |vs| == |services|
    ensures forall i {:trigger services[i]} :: 0 <= i < |services| ==>
      vs[i] == VisitService(w, trace + Events(vs[..i]), services[i], power)
    decreases |services|
  {
    if |services| == 0 then []
    else
      var n := |services| - 1;
      var init := Visits(w, trace, services[..n], power);
      VisitsStep(w, trace, services, power, init);
      init + [VisitService(w, trace + Events(init), services[n], power)]
  }

  /** The loop's invariant survives visiting one more service. */
  lemma {:induction false} VisitsStep(w: World, trace: seq<Event>, services: seq<Service>, power: Power, init: seq<Visit>)
    requires |services| > 0 && |init| == |services| - 1
    requires forall i {:trigger services[..|init|][i]} :: 0 <= i < |init| ==>
      init[i] == VisitService(w, trace + Events(init[..i]), services[..|init|][i], power)
    ensures var vs := init + [VisitService(w, trace + Events(init), services[|init|], power)];
      forall i {:trigger services[i]} :: 0 <= i < |services| ==>
        vs[i] == VisitService(w, trace + Events(vs[..i]), services[i], power)
  {
    var n := |init|;
    var vs := init + [VisitService(w, trace + Events(init), services[n], power)];
    forall i | 0 <= i < |services|
      ensures vs[i] == VisitService(w, trace + Events(vs[..i]), services[i], power)
    {
      if i < n {
        assert vs[..i] == init[..i];
        assert services[..n][i] == services[i];
      } else {
        assert vs[..i] == init;
      }
    }
  }

  /** The visits make driver calls only; the hooks run outside them. */
  lemma {:induction false} NoHooksInVisits(vs: seq<Visit>, services: seq<Service>)
    requires |vs| == |services|
    requires forall i :: 0 <= i < |vs| ==> forall j :: 0 <= j < |vs[i].events| ==> About(vs[i].events[j], services[i].name)
    ensures Commands(Events(vs)) == []
    decreases |vs|
  {
    if |vs| > 0 {
      var n := |vs| - 1;
      NoHooksInVisits(vs[..n], services[..n]);
      CommandsAppend(Events(vs[..n]), vs[n].events);
      NoHookEvents(vs[n].events, services[n].name);
    }
  }

  lemma {:induction false} NoHookEvents(evs: seq<Event>, name: string)
    requires forall j :: 0 <= j < |evs| ==> About(evs[j], name)
    ensures Commands(evs) == []
    decreases |evs|
  {
    if |evs| > 0 {
      assert About(evs[0], name);
      NoHookEvents(evs[1..], name);
    }
  }

  function Results(vs: seq<Visit>): (rs: seq<Report>)
    ensures |rs| == |vs|
    ensures forall i :: 0 <= i < |vs| ==> rs[i] == vs[i].result
  {
    seq(|vs|, i requires 0 <= i < |vs| => vs[i].result)
  }

  // ---------------------------------------------------------------------------
  // Starting and stopping a profile
  // ---------------------------------------------------------------------------

  datatype Reply =
    | ProfileError(message: string)
    | ProfileRaised(error: string)
    | Completed(profile: string, results: seq<Report>)

  /** What a start or stop request did: the hook events around the service visits. */
  datatype Run = Run(pre: seq<Event>, visits: seq<Visit>, post: seq<Event>)

  function Trace(r: Run): seq<Event> {
    r.pre + Events(r.visits) + r.post
  }

  function Reverse<T>(xs: seq<T>): (r: seq<T>)
    ensures |r| == |xs|
    ensures forall i :: 0 <= i < |xs| ==> r[i] == xs[|xs| - 1 - i]
  {
    seq(|xs|, i requires 0 <= i < |xs| => xs[|xs| - 1 - i])
  }

  /** The order services are visited in: as declared to start, reversed to stop. */
  function Order(p: Profile, power: Power): seq<Service> {
    if power == Start then p.services else Reverse(p.services)
  }

  function Before(p: Profile, power: Power): seq<string> {
    if power == Start then p.hooks.preStart else p.hooks.preStop
  }

  function After(p: Profile, power: Power): seq<string> {
    if power == Start then p.hooks.postStart else p.hooks.postStop
  }

  /**
    `start_profile` and `stop_profile`. A missing profile is an error before
    any hook or driver call, and a file holding a truthy value that is not a
    mapping raises before any of them. Otherwise the `pre_` hooks run, then
    each service is visited, then the `post_` hooks, and the reply lists one
    result per service in visit order.
   */
  function RunProfile(w: World, files: map<string, Document>, name: string, power: Power): (out: (Reply, Run))
    ensures GetProfile(files, name).None? && !LoadsAsNonMapping(files, name) ==>
      out.0 == ProfileError("Profile " + name + " not found") && Trace(out.1) == []
    ensures LoadsAsNonMapping(files, name) ==>
      out.0 == ProfileRaised(NoGet(Chosen(files, name).value.typeName)) && Trace(out.1) == []
    ensures GetProfile(files, name).Some? ==>
      var p := GetProfile(files, name).value;
      var order := Order(p, power);
      && out.0.Completed? && out.0.profile == name
      && OnlyHooks(out.1.pre) && OnlyHooks(out.1.post)
      && Commands(out.1.pre) == Before(p, power)
      && |out.1.visits| == |order|
      && (forall i {:trigger order[i]} :: 0 <= i < |order| ==>
            out.1.visits[i] == VisitService(w, out.1.pre + Events(out.1.visits[..i]), order[i], power))
      && Commands(out.1.post) == After(p, power)
      && out.0.results == Results(out.1.visits)
  {
    if LoadsAsNonMapping(files, name) then
      (ProfileRaised(NoGet(Chosen(files, name).value.typeName)), Run([], [], []))
    else match GetProfile(files, name)
    case None => (ProfileError("Profile " + name + " not found"), Run([], [], []))
    case Some(p) =>
      var pre := RunHooks(w, [], Before(p, power));
      var vs := Visits(w, pre, Order(p, power), power);
      var post := RunHooks(w, pre + Events(vs), After(p, power));
      HooksAllRun(w, [], Before(p, power));
      HooksAllRun(w, pre + Events(vs), After(p, power));
      (Completed(name, Results(vs)), Run(pre, vs, post))
  }

  /** The hook commands of a request are its `pre_` hooks then its `post_` hooks: none runs between visits. */
  lemma HookOrder(w: World, files: map<string, Document>, name: string, power: Power)
    requires GetProfile(files, name).Some?
    ensures var p := GetProfile(files, name).value;
      Commands(Trace(RunProfile(w, files, name, power).1)) == Before(p, power) + After(p, power)
  {
    var run := RunProfile(w, files, name, power).1;
    var order := Order(GetProfile(files, name).value, power);
    VisitsInOrder(w, files, name, power);
    NoHooksInVisits(run.visits, order);
    TraceCommands(run);
  }

  /** The `i`-th visit of a request makes calls about the `i`-th service in visiting order only. */
  lemma VisitsInOrder(w: World, files: map<string, Document>, name: string, power: Power)
    requires GetProfile(files, name).Some?
    ensures var order := Order(GetProfile(files, name).value, power);
      var run := RunProfile(w, files, name, power).1;
      && |run.visits| == |order|
      && forall i :: 0 <= i < |order| ==>
        forall j :: 0 <= j < |run.visits[i].events| ==> About(run.visits[i].events[j], order[i].name)
  {
    var order := Order(GetProfile(files, name).value, power);
    var run := RunProfile(w, files, name, power).1;
    forall i | 0 <= i < |order|
      ensures forall j :: 0 <= j < |run.visits[i].events| ==> About(run.visits[i].events[j], order[i].name)
    {
      assert run.visits[i] == VisitService(w, run.pre + Events(run.visits[..i]), order[i], power);
    }
  }

  lemma TraceCommands(run: Run)
    requires Commands(Events(run.visits)) == []
    ensures Commands(Trace(run)) == Commands(run.pre) + Commands(run.post)
  {
    CommandsAppend(run.pre + Events(run.visits), run.post);
    CommandsAppend(run.pre, Events(run.visits));
  }

  /** Stopping visits the services last-declared first. */
  lemma StopReverses(w: World, files: map<string, Document>, name: string)
    requires GetProfile(files, name).Some?
    ensures var p := GetProfile(files, name).value;
      var run := RunProfile(w, files, name, Stop).1;
      forall i :: 0 <= i < |p.services| ==>
        forall j :: 0 <= j < |run.visits[i].events| ==>
          About(run.visits[i].events[j], p.services[|p.services| - 1 - i].name)
  {
    var p := GetProfile(files, name).value;
    var run := RunProfile(w, files, name, Stop).1;
    var order := Order(p, Stop);
    assert |run.visits| == |order| && forall i :: 0 <= i < |order| ==>
      forall j :: 0 <= j < |run.visits[i].events| ==> About(run.visits[i].events[j], order[i].name)
    by {
      VisitsInOrder(w, files, name, Stop);
    }
    ReversedVisits(run.visits, order, p.services);
  }

  /** Visits in reversed order are about the services counted from the end. */
  lemma ReversedVisits(visits: seq<Visit>, order: seq<Service>, services: seq<Service>)
    requires order == Reverse(services) && |visits| == |order|
    requires forall i :: 0 <= i < |order| ==>
      forall j :: 0 <= j < |visits[i].events| ==> About(visits[i].events[j], order[i].name)
    ensures forall i :: 0 <= i < |services| ==>
      forall j :: 0 <= j < |visits[i].events| ==> About(visits[i].events[j], services[|services| - 1 - i].name)
  {
    forall i | 0 <= i < |services|
      ensures forall j :: 0 <= j < |visits[i].events| ==> About(visits[i].events[j], services[|services| - 1 - i].name)
    {
      assert order[i] == services[|services| - 1 - i];
    }
  }

  // ---------------------------------------------------------------------------
  // Status
  // ---------------------------------------------------------------------------

  datatype StatusReply =
    | StatusError(message: string)
    | StatusRaised(error: string)
    | Statuses(profile: string, services: seq<Report>)

  /** The status reported for a service of a type no driver handles. */
  function UnknownStatus(kind: string): (r: Report)
    ensures Get(r, "status") == Some("unknown")
  {
    [("status", "unknown"), ("type", kind)]
  }

  /** A driver's status with the service's `name` and `type` written over it. */
  function Stamp(status: Report, s: Service): (r: Report)
    ensures Get(r, "name") == Some(s.name) && Get(r, "type") == Some(s.kind)
    ensures Get(r, "status") == Get(status, "status")
  {
    assert |"status"| != |"name"| == |"type"|;
    Put(Put(status, "name", s.name), "type", s.kind)
  }

  /** One service's status entry, stamped with its name and type; no call for an unknown type. */
  function StatusEntry(w: World, s: Service): (out: (Report, seq<Event>))
    ensures Get(out.0, "name") == Some(s.name) && Get(out.0, "type") == Some(s.kind)
    ensures !Known(s.kind) ==> Get(out.0, "status") == Some("unknown") && out.1 == []
    ensures Known(s.kind) ==> out.1 == [Called(Query(s.kind, s.name))]
  {
    if Known(s.kind) then
      (Stamp(w.query([], Query(s.kind, s.name)), s), [Called(Query(s.kind, s.name))])
    else
      (Stamp(UnknownStatus(s.kind), s), [])
  }

  /**
    `get_profile_status`: one entry per service in declared order; it runs no
    hooks and changes nothing, so every query sees no earlier events. A file
    holding a truthy value that is not a mapping raises before any query.
   */
  function ProfileStatus(w: World, files: map<string, Document>, name: string): (out: (StatusReply, seq<Event>))
    ensures GetProfile(files, name).None? && !LoadsAsNonMapping(files, name) ==>
      out == (StatusError("Profile " + name + " not found"), [])
    ensures LoadsAsNonMapping(files, name) ==> out == (StatusRaised(NoGet(Chosen(files, name).value.typeName)), [])
    ensures GetProfile(files, name).Some? ==>
      var services := GetProfile(files, name).value.services;
      && out.0.Statuses? && out.0.profile == name
      && |out.0.services| == |services|
      && (forall i :: 0 <= i < |services| ==> out.0.services[i] == StatusEntry(w, services[i]).0)
    ensures Commands(out.1) == []
  {
    if LoadsAsNonMapping(files, name) then (StatusRaised(NoGet(Chosen(files, name).value.typeName)), [])
    else match GetProfile(files, name)
    case None => (StatusError("Profile " + name + " not found"), [])
    case Some(p) =>
      var entries := seq(|p.services|, i requires 0 <= i < |p.services| => StatusEntry(w, p.services[i]).0);
      var calls := StatusCalls(w, p.services);
      (Statuses(name, entries), calls)
  }

  function StatusCalls(w: World, services: seq<Service>): (evs: seq<Event>)
    ensures Commands(evs) == []
    decreases |services|
  {
    if |services| == 0 then []
    else
      var evs := StatusEntry(w, services[0]).1 + StatusCalls(w, services[1..]);
      CommandsAppend(StatusEntry(w, services[0]).1, StatusCalls(w, services[1..]));
      evs
  }
}

=== FILE: projen_scaffold.dfy ===
/**
  projen's `scaffold_project`. The layout is a plan of steps (render a
  template to a path, write a fixed text, make a directory), decided by the
  options alone; running the plan against a template renderer gives the
  tree. A template the renderer does not know raises, leaving whatever the
  earlier steps wrote.
 */
module ProjenScaffold {
  import opened Wrappers
  import opened Text
  import opened Dicts

  datatype Options = Options(
    projectName: string,
    buildSystem: string,
    language: string,
    license: string,
    ciProvider: string,
    overwrite: bool)

  datatype Step =
    | MakeDir(path: string)
    | Write(path: string, text: string)
    | Render(path: string, template: string)
      /** Look the template up, make `dir`, then write the rendered text. */
    | RenderInto(dir: string, path: string, template: string)

  /**
    Template name to rendered text, for the one context a scaffold call
    renders with; `None` for a template that does not exist.
   */
  type Renderer = string -> Option<string>

  /** Files (path relative to the project root, contents) in first-write order, and directories. */
  datatype Tree = Tree(files: Dict<string>, dirs: set<string>)

  /** The tree a run of steps leaves, and the template it stopped at, if any. */
  datatype Built = Built(tree: Tree, missing: Option<string>)

  predicate UsesGradle(buildSystem: string) {
    buildSystem == "gradle" || buildSystem == "both"
  }

  predicate UsesBazel(buildSystem: string) {
    buildSystem == "bazel" || buildSystem == "both"
  }

  // ---------------------------------------------------------------------------
  // The plan
  // ---------------------------------------------------------------------------

  /** The output file of a template: `.j2` dropped, and `gitignore` written as `.gitignore`. */
  function OutputName(template: string): string {
    var name := ReplaceAll(template, ".j2", "");
    if name == "gitignore" then ".gitignore" else name
  }

  /** A template name's `.j2` suffix is its only one. */
  lemma OutputNameOf(stem: string)
    requires forall i :: 0 <= i < |stem| ==> stem[i] != 'j'
    ensures ReplaceAll(stem + ".j2", ".j2", "") == stem
  {
    var s := stem + ".j2";
    forall i | 0 <= i && i != |stem| ensures !OccursAt(s, ".j2", i) {
      if i + 3 <= |s| {
        if i + 1 < |stem| {
          assert s[i + 1] == stem[i + 1];
        } else {
          assert s[i + 1] == '.';
        }
        assert s[i..i + 3][1] == s[i + 1];
      }
    }
    ReplaceSuffix(stem, ".j2", "");
    assert stem + "" == stem;
  }

  /** Every template but `gitignore.j2` is written under its name without `.j2`. */
  lemma OutputNameStem(stem: string)
    requires 'j' !in stem
    ensures OutputName(stem + ".j2") == if stem == "gitignore" then ".gitignore" else stem
  {
    assert forall i :: 0 <= i < |stem| ==> stem[i] != 'j';
    OutputNameOf(stem);
  }

  /**
    One render step per template of a template directory, in list order;
    templates are named by their stem, the file name without `.j2`.
   */
  function RenderAll(dir: string, stems: seq<string>): (steps: seq<Step>)
    ensures |steps| == |stems|
    ensures forall i :: 0 <= i < |stems| ==> steps[i] == Render(OutputName(stems[i] + ".j2"), dir + "/" + stems[i] + ".j2")
  {
    seq(|stems|, i requires 0 <= i < |stems| => Render(OutputName(stems[i] + ".j2"), dir + "/" + stems[i] + ".j2"))
  }

  /** The files a template directory's templates are written to. */
  function Outputs(stems: seq<string>): (names: seq<string>)
    ensures |names| == |stems|
  {
    seq(|stems|, i requires 0 <= i < |stems| => OutputName(stems[i] + ".j2"))
  }

  lemma {:induction false} WrittenRenderAll(dir: string, stems: seq<string>)
    ensures Written(RenderAll(dir, stems)) == Outputs(stems)
    decreases |stems|
  {
    if |stems| > 0 {
      assert RenderAll(dir, stems)[1..] == RenderAll(dir, stems[1..]);
      WrittenRenderAll(dir, stems[1..]);
      assert Outputs(stems) == [OutputName(stems[0] + ".j2")] + Outputs(stems[1..]);
    }
  }

  const CommonStems: seq<string> := ["README.md", "LICENSE", "gitignore"]
  const GradleStems: seq<string> := ["build.gradle", "settings.gradle"]
  const BazelStems: seq<string> := ["WORKSPACE", "BUILD.bazel"]

  /** The names the fixed templates are written under. */
  lemma CommonNames()
    ensures Outputs(CommonStems) == ["README.md", "LICENSE", ".gitignore"]
  {
    OutputNameStem("README.md");
    OutputNameStem("LICENSE");
    OutputNameStem("gitignore");
  }

  lemma GradleNames()
    ensures Outputs(GradleStems) == GradleStems
  {
    OutputNameStem("build.gradle");
    OutputNameStem("settings.gradle");
  }

  lemma BazelNames()
    ensures Outputs(BazelStems) == BazelStems
  {
    OutputNameStem("WORKSPACE");
    OutputNameStem("BUILD.bazel");
  }

  const BazelTodo := "# TODO: Add Bazel targets here\n"
  const WorkflowsDir := ".github/workflows"
  const CiPath := ".github/workflows/ci.yml"

  function GradleSteps(o: Options): seq<Step> {
    RenderAll("gradle", GradleStems) + [MakeDir("src/main/" + o.language), MakeDir("src/test/" + o.language)]
  }

  function BazelSteps(): seq<Step> {
    RenderAll("bazel", BazelStems) + [MakeDir("src"), Write("src/BUILD.bazel", BazelTodo)]
  }

  function CiStep(o: Options): Step {
    RenderInto(WorkflowsDir, CiPath, "ci/" + o.ciProvider + ".yml.j2")
  }

  /**
    The steps of `scaffold_project`: the common files, the Gradle files and
    source directories for gradle or both, the Bazel files for bazel or both,
    and the CI workflow from the provider's template whatever the provider.
   */
  function Plan(o: Options): (steps: seq<Step>)
    ensures |steps| >= 4 && steps[..3] == RenderAll("common", CommonStems)
    ensures steps[|steps| - 1] == CiStep(o)
  {
    RenderAll("common", CommonStems)
    + (if UsesGradle(o.buildSystem) then GradleSteps(o) else [])
    + (if UsesBazel(o.buildSystem) then BazelSteps() else [])
    + [CiStep(o)]
  }

  /** The paths a run of steps writes, in order. */
  function Written(steps: seq<Step>): (paths: seq<string>)
    decreases |steps|
  {
    if |steps| == 0 then []
    else (if steps[0].MakeDir? then [] else [steps[0].path]) + Written(steps[1..])
  }

  lemma {:induction false} WrittenAppend(a: seq<Step>, b: seq<Step>)
    ensures Written(a + b) == Written(a) + Written(b)
    decreases |a|
  {
    if |a| == 0 {
      assert a + b == b;
    } else {
      assert (a + b)[1..] == a[1..] + b;
      WrittenAppend(a[1..], b);
    }
  }

  const CommonFiles: seq<string> := ["README.md", "LICENSE", ".gitignore"]
  const BazelFiles: seq<string> := ["WORKSPACE", "BUILD.bazel", "src/BUILD.bazel"]

  lemma CommonWritten()
    ensures Written(RenderAll("common", CommonStems)) == CommonFiles
  {
    WrittenRenderAll("common", CommonStems);
    CommonNames();
  }

  lemma GradleWritten(o: Options)
    ensures Written(GradleSteps(o)) == GradleStems
  {
    var dirs := [MakeDir("src/main/" + o.language), MakeDir("src/test/" + o.language)];
    WrittenAppend(RenderAll("gradle", GradleStems), dirs);
    WrittenRenderAll("gradle", GradleStems);
    GradleNames();
    assert Written(dirs[1..]) == Written(dirs[1..][1..]) == [];
  }

  lemma BazelWritten()
    ensures Written(BazelSteps()) == BazelFiles
  {
    var tail := [MakeDir("src"), Write("src/BUILD.bazel", BazelTodo)];
    WrittenAppend(RenderAll("bazel", BazelStems), tail);
    WrittenRenderAll("bazel", BazelStems);
    BazelNames();
    assert Written(tail[1..][1..]) == [];
    assert Written(tail) == Written(tail[1..]) == ["src/BUILD.bazel"];
  }

  /** The paths the plan writes, block by block. */
  lemma PlanWritten(o: Options)
    ensures Written(Plan(o)) ==
      CommonFiles
      + (if UsesGradle(o.buildSystem) then GradleStems else [])
      + (if UsesBazel(o.buildSystem) then BazelFiles else [])
      + [CiPath]
  {
    var common := RenderAll("common", CommonStems);
    var gradle := if UsesGradle(o.buildSystem) then GradleSteps(o) else [];
    var bazel := if UsesBazel(o.buildSystem) then BazelSteps() else [];
    CommonWritten();
    GradleWritten(o);
    BazelWritten();
    WrittenAppend(common, gradle);
    WrittenAppend(common + gradle, bazel);
    WrittenAppend(common + gradle + bazel, [CiStep(o)]);
    assert Written([CiStep(o)]) == [CiPath];
  }

  /** Gradle files exactly for gradle or both; a bazel-only project has no build.gradle. */
  lemma GradleIff(o: Options)
    ensures "build.gradle" in Written(Plan(o)) <==> UsesGradle(o.buildSystem)
    ensures "settings.gradle" in Written(Plan(o)) <==> UsesGradle(o.buildSystem)
  {
    PlanWritten(o);
  }

  /** Bazel files, including `src/BUILD.bazel`, exactly for bazel or both. */
  lemma BazelIff(o: Options)
    ensures "WORKSPACE" in Written(Plan(o)) <==> UsesBazel(o.buildSystem)
    ensures "src/BUILD.bazel" in Written(Plan(o)) <==> UsesBazel(o.buildSystem)
  {
    PlanWritten(o);
  }

  /** The source directories are made exactly for gradle or both. */
  lemma SourceDirsIff(o: Options)
    ensures MakeDir("src/main/" + o.language) in Plan(o) <==> UsesGradle(o.buildSystem)
  {
    var d := MakeDir("src/main/" + o.language);
    assert d != MakeDir("src");
    assert d !in RenderAll("common", CommonStems);
    assert d !in RenderAll("bazel", BazelStems);
    if UsesGradle(o.buildSystem) {
      assert d in GradleSteps(o);
    }
  }

  // ---------------------------------------------------------------------------
  // Running the plan
  // ---------------------------------------------------------------------------

  /** Every template the steps name exists. */
  predicate Renders(steps: seq<Step>, render: Renderer)
    decreases |steps|
  {
    |steps| == 0
    || (((!steps[0].Render? && !steps[0].RenderInto?) || render(steps[0].template).Some?) && Renders(steps[1..], render))
  }

  /** The text a step writes, for a template that exists. */
  function StepText(step: Step, render: Renderer): string
    requires !step.MakeDir?
  {
    if step.Write? then step.text else render(step.template).GetOr("")
  }

  /** The writes of a run of steps, as (path, text) pairs in order. */
  function Writes(steps: seq<Step>, render: Renderer): (kvs: seq<(string, string)>)
    ensures Keys(kvs) == Written(steps)
    decreases |steps|
  {
    if |steps| == 0 then []
    else
      var first := if steps[0].MakeDir? then [] else [(steps[0].path, StepText(steps[0], render))];
      var kvs := first + Writes(steps[1..], render);
      KeysAppend(first, Writes(steps[1..], render));
      kvs
  }

  /** The directories a run of steps makes once every step runs. */
  function Made(steps: seq<Step>): set<string>
    decreases |steps|
  {
    if |steps| == 0 then {}
    else
      (match steps[0]
       case MakeDir(p) => {p}
       case RenderInto(d, _, _) => {d}
       case _ => {})
      + Made(steps[1..])
  }

  /** Running steps in order; a missing template raises, ending the run. */
  function Execute(steps: seq<Step>, render: Renderer, t: Tree): (b: Built)
    ensures b.missing.None? <==> Renders(steps, render)
    ensures b.missing.Some? ==> render(b.missing.value).None?
    decreases |steps|
  {
    if |steps| == 0 then Built(t, None)
    else
      var rest := steps[1..];
      match steps[0]
      case MakeDir(p) => Execute(rest, render, t.(dirs := t.dirs + {p}))
      case Write(p, text) => Execute(rest, render, t.(files := Put(t.files, p, text)))
      case Render(p, template) =>
        if render(template).None? then Built(t, Some(template))
        else Execute(rest, render, t.(files := Put(t.files, p, render(template).value)))
      case RenderInto(d, p, template) =>
        if render(template).None? then Built(t, Some(template))
        else Execute(rest, render, Tree(Put(t.files, p, render(template).value), t.dirs + {d}))
  }

  /** A run that finds every template writes every file and makes every directory, in order. */
  lemma {:induction false} ExecuteComplete(steps: seq<Step>, render: Renderer, t: Tree)
    requires Renders(steps, render)
    ensures Execute(steps, render, t).tree == Tree(PutAll(t.files, Writes(steps, render)), t.dirs + Made(steps))
    decreases |steps|
  {
    if |steps| > 0 {
      var rest := steps[1..];
      match steps[0]
      case MakeDir(p) =>
        ExecuteComplete(rest, render, t.(dirs := t.dirs + {p}));
        assert Writes(steps, render) == Writes(rest, render);
      case Write(p, text) =>
        ExecuteComplete(rest, render, t.(files := Put(t.files, p, text)));
      case Render(p, template) =>
        ExecuteComplete(rest, render, t.(files := Put(t.files, p, render(template).value)));
      case RenderInto(d, p, template) =>
        ExecuteComplete(rest, render, Tree(Put(t.files, p, render(template).value), t.dirs + {d}));
    }
  }

  /** Running two runs of steps one after the other; the second does not start if the first raised. */
  lemma {:induction false} ExecuteAppend(a: seq<Step>, b: seq<Step>, render: Renderer, t: Tree)
    ensures Execute(a + b, render, t) ==
      var first := Execute(a, render, t);
      if first.missing.Some? then first else Execute(b, render, first.tree)
    decreases |a|
  {
    if |a| == 0 {
      assert a + b == b;
    } else {
      assert (a + b)[1..] == a[1..] + b;
      assert (a + b)[0] == a[0];
      match a[0]
      case MakeDir(p) => ExecuteAppend(a[1..], b, render, t.(dirs := t.dirs + {p}));
      case Write(p, text) => ExecuteAppend(a[1..], b, render, t.(files := Put(t.files, p, text)));
      case Render(p, template) =>
        if render(template).Some? {
          ExecuteAppend(a[1..], b, render, t.(files := Put(t.files, p, render(template).value)));
        }
      case RenderInto(d, p, template) =>
        if render(template).Some? {
          ExecuteAppend(a[1..], b, render, Tree(Put(t.files, p, render(template).value), t.dirs + {d}));
        }
    }
  }

  /** A complete run of the plan writes its paths once each, in plan order. */
  lemma PlanKeys(o: Options, render: Renderer)
    requires Renders(Plan(o), render)
    ensures Keys(Execute(Plan(o), render, Tree([], {})).tree.files) == Written(Plan(o))
  {
    var none: Dict<string> := [];
    PlanDistinct(o);
    ExecuteComplete(Plan(o), render, Tree(none, {}));
    assert Keys(none) + Keys(Writes(Plan(o), render)) == Written(Plan(o));
    PutAllFresh(none, Writes(Plan(o), render));
  }

  /**
    `scaffold_project`: an existing root without `overwrite` is an error
    before anything is written; otherwise the root is recreated empty and
    the plan runs in it.
   */
  function Scaffold(o: Options, root: string, present: bool, render: Renderer): (r: Result<Built, string>)
    ensures r.Failure? <==> present && !o.overwrite
    ensures r.Failure? ==> r.error == "Project directory " + root + " already exists."
    ensures r.Success? && Renders(Plan(o), render) ==>
      r.value.missing.None? && Keys(r.value.tree.files) == Written(Plan(o))
    ensures r.Success? && r.value.missing.Some? ==> render(r.value.missing.value).None?
  {
    if present && !o.overwrite then Failure("Project directory " + root + " already exists.")
    else
      var built := Execute(Plan(o), render, Tree([], {}));
      assert Renders(Plan(o), render) ==> Keys(built.tree.files) == Written(Plan(o)) by {
        if Renders(Plan(o), render) {
          PlanKeys(o, render);
        }
      }
      Success(built)
  }

  lemma BlocksDistinct()
    ensures Distinct(CommonFiles) && Distinct(GradleStems) && Distinct(BazelFiles)
    ensures forall x :: x in CommonFiles ==> x !in GradleStems && x !in BazelFiles && x != CiPath
    ensures forall x :: x in GradleStems ==> x !in BazelFiles && x != CiPath
    ensures CiPath !in BazelFiles
  {
  }

  /** No two steps of the plan write the same path. */
  lemma PlanDistinct(o: Options)
    ensures Distinct(Written(Plan(o)))
  {
    PlanWritten(o);
    var gradle: seq<string> := if UsesGradle(o.buildSystem) then GradleStems else [];
    var bazel: seq<string> := if UsesBazel(o.buildSystem) then BazelFiles else [];
    BlocksDistinct();
    assert Distinct(gradle) && Distinct(bazel);
    DistinctAppend(CommonFiles, gradle);
    DistinctAppend(CommonFiles + gradle, bazel);
    DistinctAppend(CommonFiles + gradle + bazel, [CiPath]);
  }
}

=== FILE: projgen_scaffold.dfy ===
/**
  projgen's `scaffold_project`: from the options to the project tree it
  writes. The tree is the files written (path relative to the project
  directory, contents) and the directories made. An existing directory is
  either an error or removed first, so the new tree never depends on the old.
 */
module ProjgenScaffold {
  import opened Wrappers
  import opened Text
  import opened Dicts

  datatype Options = Options(
    projectName: string,
    buildSystem: string,
    language: string,
    license: string,
    ciProvider: string,
    overwrite: bool)

  datatype Project = Project(files: Dict<string>, dirs: set<string>)

  predicate UsesGradle(buildSystem: string) {
    buildSystem == "gradle" || buildSystem == "both"
  }

  predicate UsesBazel(buildSystem: string) {
    buildSystem == "bazel" || buildSystem == "both"
  }

  const CommonPaths: seq<string> := ["README.md", "LICENSE", ".gitignore"]
  const GradlePaths: seq<string> := ["build.gradle", "settings.gradle"]
  const BazelPaths: seq<string> := ["WORKSPACE", "BUILD.bazel"]
  const CiPath := ".github/workflows/ci.yml"
  const WorkflowsDir := ".github/workflows"

  const GitIgnore := "*.pyc\n__pycache__/\n.DS_Store\n"

  function Readme(name: string): (text: string)
    ensures StartsWith(text, "# " + name + "\n")
  {
    "# " + name + "\n" + "\nProject description here.\n"
  }

  function License(license: string): (text: string)
    ensures StartsWith(text, license + " License\n")
  {
    license + " License\n" + "\nCopyright (c) 2025\n"
  }

  function CiWorkflow(name: string): (text: string)
    ensures StartsWith(text, "# CI for " + name + "\n")
  {
    "# CI for " + name + "\n" + "name: CI\n\non: [push, pull_request]\n"
  }

  /** The files in the order they are written. */
  function Paths(o: Options): (paths: seq<string>)
    ensures |paths| >= 3 && paths[..3] == CommonPaths
  {
    CommonPaths
    + (if UsesGradle(o.buildSystem) then GradlePaths else [])
    + (if UsesBazel(o.buildSystem) then BazelPaths else [])
    + (if o.ciProvider == "github" then [CiPath] else [])
  }

  /** Their contents, path by path. */
  function Contents(o: Options): (contents: seq<string>)
    ensures |contents| == |Paths(o)|
    ensures contents[..3] == [Readme(o.projectName), License(o.license), GitIgnore]
  {
    var name := o.projectName;
    [Readme(name), License(o.license), GitIgnore]
    + (if UsesGradle(o.buildSystem) then ["// Gradle build for " + name + "\n", "rootProject.name = '" + name + "'\n"] else [])
    + (if UsesBazel(o.buildSystem) then ["# Workspace for " + name + "\n", "# Build for " + name + "\n"] else [])
    + (if o.ciProvider == "github" then [CiWorkflow(name)] else [])
  }

  function Dirs(o: Options): (dirs: set<string>)
    ensures "src/main/" + o.language in dirs && "src/test/" + o.language in dirs
    ensures WorkflowsDir in dirs <==> o.ciProvider == "github"
    ensures forall d :: d in dirs ==> d == "src/main/" + o.language || d == "src/test/" + o.language || d == WorkflowsDir
  {
    assert ("src/main/" + o.language)[0] == ("src/test/" + o.language)[0] == 's' != WorkflowsDir[0];
    {"src/main/" + o.language, "src/test/" + o.language} + (if o.ciProvider == "github" then {WorkflowsDir} else {})
  }

  /**
    `scaffold_project`: an existing directory without `overwrite` is an
    error before anything is written; otherwise the common files, the source
    directories, the build files the build system asks for and the GitHub
    workflow are written into a fresh directory.
   */
  function Scaffold(o: Options, present: bool): (r: Result<Project, string>)
    ensures r.Failure? <==> present && !o.overwrite
    ensures r.Failure? ==> r.error == "Directory " + o.projectName + " already exists"
    ensures r.Success? ==> Keys(r.value.files) == Paths(o) && Values(r.value.files) == Contents(o)
    ensures r.Success? ==> r.value.dirs == Dirs(o)
  {
    if present && !o.overwrite then Failure("Directory " + o.projectName + " already exists")
    else Success(Project(Zip(Paths(o), Contents(o)), Dirs(o)))
  }

  /** Gradle files are written exactly for the gradle and both build systems. */
  lemma GradleIff(o: Options)
    ensures "build.gradle" in Paths(o) <==> UsesGradle(o.buildSystem)
    ensures "settings.gradle" in Paths(o) <==> UsesGradle(o.buildSystem)
  {
  }

  /** Bazel files are written exactly for the bazel and both build systems. */
  lemma BazelIff(o: Options)
    ensures "WORKSPACE" in Paths(o) <==> UsesBazel(o.buildSystem)
    ensures "BUILD.bazel" in Paths(o) <==> UsesBazel(o.buildSystem)
  {
  }

  /** The workflow is written exactly for the GitHub provider. */
  lemma CiIff(o: Options)
    ensures CiPath in Paths(o) <==> o.ciProvider == "github"
  {
  }

  /** No path is written twice, so each file holds the one text written to it. */
  lemma PathsDistinct(o: Options)
    ensures Distinct(Paths(o))
    ensures Valid(Zip(Paths(o), Contents(o)))
  {
    var common := CommonPaths;
    var gradle := if UsesGradle(o.buildSystem) then GradlePaths else [];
    var bazel := if UsesBazel(o.buildSystem) then BazelPaths else [];
    var ci := if o.ciProvider == "github" then [CiPath] else [];
    assert Distinct(common) && Distinct(gradle) && Distinct(bazel) && Distinct(ci);
    DistinctAppend(common, gradle);
    DistinctAppend(common + gradle, bazel);
    DistinctAppend(common + gradle + bazel, ci);
    ZipValid(Paths(o), Contents(o));
  }

  /** README.md, LICENSE and .gitignore always hold their fixed texts. */
  lemma CommonFiles(o: Options, present: bool)
    requires Scaffold(o, present).Success?
    ensures var files := Scaffold(o, present).value.files;
      && Get(files, "README.md") == Some(Readme(o.projectName))
      && Get(files, "LICENSE") == Some(License(o.license))
      && Get(files, ".gitignore") == Some(GitIgnore)
  {
    var files := Zip(Paths(o), Contents(o));
    PathsDistinct(o);
    assert files[0] == ("README.md", Readme(o.projectName));
    assert files[1] == ("LICENSE", License(o.license));
    assert files[2] == (".gitignore", GitIgnore);
    GetAt(files, 0);
    GetAt(files, 1);
    GetAt(files, 2);
  }
}

=== FILE: readme_table.dfy ===
/**
  The portfolio README generator: a Markdown table with one row per project of
  the manifest, spliced into the README between a START and an END marker line.
  The manifest and the README reach the model as values; reading and writing
  the files, and the exit of `--check` mode, are the caller's business.
 */
module ReadmeTable {
  import opened Text

  /** One entry of the manifest's `projects` list. */
  datatype Project = Project(
    name: string,
    problem: string,
    stack: seq<string>,
    highlights: seq<string>,
    status: string,
    path: string)

  const HeaderTitles: string := "| Name | Problem | Stack " + "| Highlights | Status | Link |"
  const HeaderRule: string := "|---|---|---" + "|---|---|---|"
  const StartMarker: string := "<!-- PROJECTS_TABLE_START -->"
  const EndMarker: string := "<!-- PROJECTS_TABLE_END -->"

  // ---------------------------------------------------------------------------
  // The table
  // ---------------------------------------------------------------------------

  /** The cell text of a list field: its items joined by ", ". */
  function Listed(items: seq<string>): string {
    Join(items, ", ")
  }

  /** The Markdown link cell: the path as text, and `./path` as target. */
  function Link(path: string): (r: string)
    ensures StartsWith(r, "[" + path + "](./")
    ensures EndsWith(r, path + ")")
  {
    "[" + path + "](./" + path + ")"
  }

  /** One project's table row. */
  function Row(p: Project): (r: string)
    ensures StartsWith(r, "| " + p.name + " | ")
    ensures EndsWith(r, " | " + Link(p.path) + " |")
  {
    var prefix := "| " + p.name + " | ";
    var suffix := " | " + Link(p.path) + " |";
    var middle := p.problem + " | " + Listed(p.stack) + " | " + Listed(p.highlights) + " | " + p.status;
    var r := prefix + middle + suffix;
    assert r[..|prefix|] == prefix;
    assert r[|r| - |suffix|..] == suffix;
    r
  }

  function Rows(projects: seq<Project>): (rows: seq<string>)
    ensures |rows| == |projects|
    ensures forall i :: 0 <= i < |projects| ==> rows[i] == Row(projects[i])
  {
    seq(|projects|, i requires 0 <= i < |projects| => Row(projects[i]))
  }

  /**
    The rendered table: the two header lines, the rows joined by "\n", and a
    final "\n". It is its lines, each ended by a newline.
   */
  function Table(projects: seq<Project>): (text: string)
    ensures text == Terminated(TableLines(projects))
  {
    HeaderAndRows(Rows(projects));
    HeaderTitles + "\n" + HeaderRule + "\n" + Join(Rows(projects), "\n") + "\n"
  }

  /**
    The lines of the table. Without projects the joined rows are the empty
    string, so the table then holds one blank line after the header.
   */
  function TableLines(projects: seq<Project>): (lines: seq<string>)
    ensures |lines| == 2 + (if |projects| == 0 then 1 else |projects|)
  {
    [HeaderTitles, HeaderRule] + (if |projects| == 0 then [""] else Rows(projects))
  }

  lemma TerminatedPair(a: string, b: string)
    ensures Terminated([a, b]) == a + "\n" + (b + "\n")
  {
    assert [a, b][1..] == [b];
    assert [b][1..] == [];
    assert Terminated([b]) == b + "\n" + Terminated([]);
    assert b + "\n" + "" == b + "\n";
    assert Terminated([a, b]) == a + "\n" + Terminated([b]);
  }

  /** The header lines, then the rows joined by "\n" and a final "\n", are those lines each ended by a newline. */
  lemma {:induction false} HeaderAndRows(rows: seq<string>)
    ensures HeaderTitles + "\n" + HeaderRule + "\n" + Join(rows, "\n") + "\n"
      == Terminated([HeaderTitles, HeaderRule] + (if |rows| == 0 then [""] else rows))
  {
    var tail := if |rows| == 0 then [""] else rows;
    if |rows| > 0 {
      JoinNewlineTerminated(rows);
    }
    assert Join(rows, "\n") + "\n" == Terminated(tail);
    calc {
      Terminated([HeaderTitles, HeaderRule] + tail);
      { TerminatedAppend([HeaderTitles, HeaderRule], tail); }
      Terminated([HeaderTitles, HeaderRule]) + Terminated(tail);
      { TerminatedPair(HeaderTitles, HeaderRule); }
      HeaderTitles + "\n" + (HeaderRule + "\n") + Terminated(tail);
      { assert Join(rows, "\n") + "\n" == Terminated(tail); }
      HeaderTitles + "\n" + (HeaderRule + "\n") + (Join(rows, "\n") + "\n");
      HeaderTitles + "\n" + HeaderRule + "\n" + Join(rows, "\n") + "\n";
    }
  }

  /** Every field of a project is free of line breaks. */
  predicate SingleLine(p: Project) {
    && NoLineBreaks(p.name) && NoLineBreaks(p.problem) && NoLineBreaks(p.status) && NoLineBreaks(p.path)
    && (forall i :: 0 <= i < |p.stack| ==> NoLineBreaks(p.stack[i]))
    && (forall i :: 0 <= i < |p.highlights| ==> NoLineBreaks(p.highlights[i]))
  }

  lemma {:induction false} JoinNoLineBreaks(items: seq<string>, sep: string)
    requires NoLineBreaks(sep)
    requires forall i :: 0 <= i < |items| ==> NoLineBreaks(items[i])
    ensures NoLineBreaks(Join(items, sep))
    decreases |items|
  {
    if |items| > 1 {
      JoinNoLineBreaks(items[1..], sep);
      NoLineBreaksAppend(items[0], sep);
      NoLineBreaksAppend(items[0] + sep, Join(items[1..], sep));
    }
  }

  lemma RowOneLine(p: Project)
    requires SingleLine(p)
    ensures NoLineBreaks(Row(p))
  {
    JoinNoLineBreaks(p.stack, ", ");
    JoinNoLineBreaks(p.highlights, ", ");
    var r := Row(p);
    forall i | 0 <= i < |r| ensures !IsLineBreak(r[i]) {
      assert r[i] in r;
    }
  }

  lemma HeaderOneLine()
    ensures NoLineBreaks(HeaderTitles) && NoLineBreaks(HeaderRule)
  {
    TitlesStart();
    TitlesEnd();
    NoLineBreaksAppend("| Name | Problem | Stack ", "| Highlights | Status | Link |");
    RuleHalves();
    NoLineBreaksAppend("|---|---|---", "|---|---|---|");
  }

  lemma TitlesStart() ensures NoLineBreaks("| Name | Problem | Stack ") {}
  lemma TitlesEnd() ensures NoLineBreaks("| Highlights | Status | Link |") {}
  lemma RuleHalves() ensures NoLineBreaks("|---|---|---") && NoLineBreaks("|---|---|---|") {}

  lemma TableLinesOneLine(projects: seq<Project>)
    requires forall i :: 0 <= i < |projects| ==> SingleLine(projects[i])
    ensures SingleLines(TableLines(projects))
  {
    var lines := TableLines(projects);
    var rows := Rows(projects);
    RowsOneLine(projects);
    HeaderOneLine();
    var tail := if |projects| == 0 then [""] else rows;
    assert SingleLines(tail);
    assert SingleLines([HeaderTitles, HeaderRule]);
    SingleLinesAppend([HeaderTitles, HeaderRule], tail);
  }

  lemma RowsOneLine(projects: seq<Project>)
    requires forall i :: 0 <= i < |projects| ==> SingleLine(projects[i])
    ensures SingleLines(Rows(projects))
  {
    forall i | 0 <= i < |projects| ensures NoLineBreaks(Rows(projects)[i]) {
      RowOneLine(projects[i]);
    }
  }

  /** With single-line fields, the table is exactly its lines read back by `splitlines`. */
  lemma TableReadsBack(projects: seq<Project>)
    requires forall i :: 0 <= i < |projects| ==> SingleLine(projects[i])
    ensures SplitLines(Table(projects)) == TableLines(projects)
  {
    TableLinesOneLine(projects);
    SplitLinesTerminated(TableLines(projects));
  }

  // ---------------------------------------------------------------------------
  // Splicing the table into the README
  // ---------------------------------------------------------------------------

  predicate IsStart(line: string) {
    Strip(line) == StartMarker
  }

  predicate IsEnd(line: string) {
    Strip(line) == EndMarker
  }

  predicate IsMarker(line: string) {
    IsStart(line) || IsEnd(line)
  }

  /** None of the lines is a marker. */
  predicate Plain(lines: seq<string>) {
    forall i :: 0 <= i < |lines| ==> !IsMarker(lines[i])
  }

  /**
    What one README line contributes to the output, given whether it lies
    inside a block: a START line is kept and followed by the table as one
    element, an END line is kept, and any other line is kept only outside a
    block.
   */
  function Emit(line: string, table: string, inBlock: bool): (out: seq<string>)
    ensures |out| <= 2
    ensures IsStart(line) ==> out == [line, table]
    ensures !IsStart(line) ==> out == if IsEnd(line) || !inBlock then [line] else []
  {
    if IsStart(line) then [line, table]
    else if IsEnd(line) then [line]
    else if !inBlock then [line]
    else []
  }

  /** Whether the next line lies inside a block: START opens one, END closes it. */
  function Next(line: string, inBlock: bool): bool {
    if IsStart(line) then true else if IsEnd(line) then false else inBlock
  }

  /** The splice over the README's remaining lines, `inBlock` saying where they start. */
  function Splice(lines: seq<string>, table: string, inBlock: bool): (out: seq<string>)
    ensures |out| <= 2 * |lines|
    ensures forall i :: 0 <= i < |out| ==> out[i] in lines || out[i] == table
    decreases |lines|
  {
    if |lines| == 0 then []
    else
      var head := Emit(lines[0], table, inBlock);
      var rest := Splice(lines[1..], table, Next(lines[0], inBlock));
      assert forall i :: 0 <= i < |head| ==> head[i] == lines[0] || head[i] == table;
      assert forall i :: 0 <= i < |rest| ==> rest[i] in lines || rest[i] == table by {
        assert forall x :: x in lines[1..] ==> x in lines;
      }
      head + rest
  }

  lemma SpliceStep(lines: seq<string>, i: nat, table: string, inBlock: bool)
    requires i < |lines|
    ensures Splice(lines[i..], table, inBlock)
      == Emit(lines[i], table, inBlock) + Splice(lines[i + 1..], table, Next(lines[i], inBlock))
  {
    assert lines[i..][1..] == lines[i + 1..];
  }

  lemma AppendAssoc<T>(a: seq<T>, b: seq<T>, c: seq<T>)
    ensures (a + b) + c == a + (b + c)
  {
  }

  /** The loop of the script, over the README's lines. */
  method SpliceLoop(lines: seq<string>, table: string) returns (out: seq<string>)
    ensures out == Splice(lines, table, false)
  {
    out := [];
    var inBlock := false;
    var i := 0;
    while i < |lines|
      invariant 0 <= i <= |lines|
      invariant out + Splice(lines[i..], table, inBlock) == Splice(lines, table, false)
    {
      ghost var before, emitted := out, Emit(lines[i], table, inBlock);
      ghost var rest := Splice(lines[i + 1..], table, Next(lines[i], inBlock));
      SpliceStep(lines, i, table, inBlock);
      out, inBlock := SpliceLine(out, lines[i], table, inBlock);
      AppendAssoc(before, emitted, rest);
      i := i + 1;
    }
  }

  /** The body of the script's loop, for one line. */
  method SpliceLine(out: seq<string>, line: string, table: string, inBlock: bool)
    returns (out': seq<string>, inBlock': bool)
    ensures out' == out + Emit(line, table, inBlock)
    ensures inBlock' == Next(line, inBlock)
  {
    out', inBlock' := out, inBlock;
    if Strip(line) == StartMarker {
      inBlock' := true;
      out' := out' + [line];
      out' := out' + [table];
    } else if Strip(line) == EndMarker {
      inBlock' := false;
      out' := out' + [line];
    } else if !inBlock {
      out' := out' + [line];
    }
  }

  /** The first of some plain lines followed by more lines, and what comes after it. */
  lemma PlainSplit(lines: seq<string>, rest: seq<string>)
    requires Plain(lines) && |lines| > 0
    ensures !IsMarker(lines[0]) && Plain(lines[1..])
    ensures (lines + rest)[0] == lines[0] && (lines + rest)[1..] == lines[1..] + rest
    ensures [lines[0]] + lines[1..] == lines
  {
    var tail := lines[1..];
    forall i | 0 <= i < |tail| ensures !IsMarker(tail[i]) {
      assert tail[i] == lines[i + 1];
    }
    assert (lines + rest)[1..] == tail + rest;
  }

  /** A line that is not a marker is kept outside a block, dropped inside one, and keeps the state. */
  lemma PlainLine(line: string, table: string, inBlock: bool)
    requires !IsMarker(line)
    ensures Emit(line, table, inBlock) == if inBlock then [] else [line]
    ensures Next(line, inBlock) == inBlock
  {
  }

  /** Lines inside a block that are not markers are dropped. */
  lemma {:induction false} SpliceSkipsBlock(inside: seq<string>, rest: seq<string>, table: string)
    requires Plain(inside)
    ensures Splice(inside + rest, table, true) == Splice(rest, table, true)
    decreases |inside|
  {
    if |inside| > 0 {
      PlainSplit(inside, rest);
      PlainLine(inside[0], table, true);
      SpliceSkipsBlock(inside[1..], rest, table);
    } else {
      assert inside + rest == rest;
    }
  }

  /** Lines outside any block that are not markers are kept in order. */
  lemma {:induction false} SpliceKeepsOutside(outside: seq<string>, rest: seq<string>, table: string)
    requires Plain(outside)
    ensures Splice(outside + rest, table, false) == outside + Splice(rest, table, false)
    decreases |outside|
  {
    if |outside| > 0 {
      var line, tail := outside[0], outside[1..];
      PlainSplit(outside, rest);
      PlainLine(line, table, false);
      SpliceKeepsOutside(tail, rest, table);
      AppendAssoc([line], tail, Splice(rest, table, false));
    } else {
      assert outside + rest == rest;
    }
  }

  /**
    A README with one block: the lines before and after it are kept, the START
    marker is followed by the table, the old contents are dropped and the END
    marker is kept.
   */
  lemma OneBlock(before: seq<string>, start: string, inside: seq<string>, end: string, after: seq<string>, table: string)
    requires IsStart(start) && IsEnd(end)
    requires Plain(before)
    requires Plain(inside)
    requires Plain(after)
    ensures Splice(before + [start] + inside + [end] + after, table, false)
      == before + [start, table, end] + after
  {
    var block := [start] + (inside + ([end] + after));
    RegroupFive(before, [start], inside, [end], after);
    SpliceKeepsOutside(before, block, table);
    BlockSplice(start, inside, end, after, table);
    RegroupTriple(before, start, table, end, after);
  }

  /** From a START marker on: the table replaces the block's contents. */
  lemma BlockSplice(start: string, inside: seq<string>, end: string, after: seq<string>, table: string)
    requires IsStart(start) && IsEnd(end)
    requires Plain(inside)
    requires Plain(after)
    ensures Splice([start] + (inside + ([end] + after)), table, false) == [start, table] + ([end] + after)
  {
    var rest := [end] + after;
    var block := [start] + (inside + rest);
    assert block[0] == start && block[1..] == inside + rest;
    SpliceSkipsBlock(inside, rest, table);
    ClosingSplice(end, after, table);
  }

  /** From an END marker on, with no further markers: everything is kept. */
  lemma ClosingSplice(end: string, after: seq<string>, table: string)
    requires IsEnd(end)
    requires Plain(after)
    ensures Splice([end] + after, table, true) == [end] + after
  {
    EndIsNotStart(end);
    assert ([end] + after)[0] == end && ([end] + after)[1..] == after;
    SpliceKeepsOutside(after, [], table);
    assert after + [] == after;
  }

  lemma RegroupFive<T>(a: seq<T>, b: seq<T>, c: seq<T>, d: seq<T>, e: seq<T>)
    ensures a + b + c + d + e == a + (b + (c + (d + e)))
  {
  }

  lemma RegroupTriple<T>(a: seq<T>, x: T, y: T, z: T, e: seq<T>)
    ensures a + ([x, y] + ([z] + e)) == a + [x, y, z] + e
  {
  }

  lemma EndIsNotStart(line: string)
    requires IsEnd(line)
    ensures !IsStart(line)
  {
    assert StartMarker[20] != EndMarker[20];
  }

  /**
    The regenerated README text: the kept lines joined by "\n", plus a final
    "\n". A README without marker lines keeps its lines as they were.
   */
  function Regenerate(readme: string, projects: seq<Project>): (text: string)
    ensures |text| > 0 && text[|text| - 1] == '\n'
    ensures Plain(SplitLines(readme)) ==> text == Join(SplitLines(readme), "\n") + "\n"
  {
    var lines := SplitLines(readme);
    assert Plain(lines) ==> Splice(lines, Table(projects), false) == lines by {
      if Plain(lines) {
        SpliceKeepsOutside(lines, [], Table(projects));
        assert lines + [] == lines;
      }
    }
    Join(Splice(lines, Table(projects), false), "\n") + "\n"
  }

  /** `--check` mode: 1 when the README is out of date, 0 when it is current. */
  function CheckStatus(readme: string, projects: seq<Project>): (code: int)
    ensures code == 0 <==> Regenerate(readme, projects) == readme
    ensures code == 0 || code == 1
  {
    if Regenerate(readme, projects) != readme then 1 else 0
  }

  // ---------------------------------------------------------------------------
  // Regenerating is idempotent
  // ---------------------------------------------------------------------------

  /** What one line contributes once the table is written out as its lines and the blank line the join adds. */
  function EmitFlat(line: string, tableLines: seq<string>, inBlock: bool): seq<string> {
    if IsStart(line) then [line] + (tableLines + [""])
    else Emit(line, Terminated(tableLines), inBlock)
  }

  /** The splice with the table written out line by line. */
  function SpliceFlat(lines: seq<string>, tableLines: seq<string>, inBlock: bool): seq<string> {
    if |lines| == 0 then []
    else EmitFlat(lines[0], tableLines, inBlock) + SpliceFlat(lines[1..], tableLines, Next(lines[0], inBlock))
  }

  lemma EmitFlatText(line: string, tableLines: seq<string>, inBlock: bool)
    ensures Terminated(Emit(line, Terminated(tableLines), inBlock)) == Terminated(EmitFlat(line, tableLines, inBlock))
  {
    if IsStart(line) {
      var table := Terminated(tableLines);
      assert [line, table][1..] == [table];
      assert [table][1..] == [];
      TerminatedAppend(tableLines, [""]);
      assert [""][1..] == [];
      assert ([line] + (tableLines + [""]))[1..] == tableLines + [""];
    }
  }

  /** Terminating the spliced lines gives the same text as terminating the flat ones. */
  lemma {:induction false} SpliceFlatText(lines: seq<string>, tableLines: seq<string>, inBlock: bool)
    ensures Terminated(Splice(lines, Terminated(tableLines), inBlock))
      == Terminated(SpliceFlat(lines, tableLines, inBlock))
    decreases |lines|
  {
    if |lines| > 0 {
      var line, next := lines[0], Next(lines[0], inBlock);
      var table := Terminated(tableLines);
      SpliceFlatText(lines[1..], tableLines, next);
      TerminatedAppend(Emit(line, table, inBlock), Splice(lines[1..], table, next));
      TerminatedAppend(EmitFlat(line, tableLines, inBlock), SpliceFlat(lines[1..], tableLines, next));
      EmitFlatText(line, tableLines, inBlock);
    }
  }

  /** The flat splice of single lines is made of single lines. */
  lemma {:induction false} SpliceFlatOneLine(lines: seq<string>, tableLines: seq<string>, inBlock: bool)
    requires SingleLines(lines) && SingleLines(tableLines)
    ensures SingleLines(SpliceFlat(lines, tableLines, inBlock))
    decreases |lines|
  {
    if |lines| > 0 {
      var line, next := lines[0], Next(lines[0], inBlock);
      SpliceFlatOneLine(lines[1..], tableLines, next);
      EmitFlatOneLine(line, tableLines, inBlock);
      SingleLinesAppend(EmitFlat(line, tableLines, inBlock), SpliceFlat(lines[1..], tableLines, next));
    }
  }

  lemma EmitFlatOneLine(line: string, tableLines: seq<string>, inBlock: bool)
    requires NoLineBreaks(line) && SingleLines(tableLines)
    ensures SingleLines(EmitFlat(line, tableLines, inBlock))
  {
    if IsStart(line) {
      assert SingleLines([""]);
      SingleLinesAppend(tableLines, [""]);
      SingleLinesAppend([line], tableLines + [""]);
    }
  }

  /** Splicing one line's flat output, then the rest, agrees with splicing the line itself. */
  lemma EmitAgain(line: string, rest: seq<string>, tableLines: seq<string>, inBlock: bool)
    requires Plain(tableLines)
    ensures Splice(EmitFlat(line, tableLines, inBlock) + rest, Terminated(tableLines), inBlock)
      == Emit(line, Terminated(tableLines), inBlock) + Splice(rest, Terminated(tableLines), Next(line, inBlock))
  {
    var e := EmitFlat(line, tableLines, inBlock);
    if IsStart(line) {
      StartAgain(line, rest, tableLines, inBlock);
    } else if |e| == 1 {
      assert (e + rest)[0] == line;
      assert (e + rest)[1..] == rest;
    } else {
      assert e + rest == rest;
    }
  }

  /** A START line followed by the table's lines and a blank: the splice skips them and emits the table again. */
  lemma StartAgain(line: string, rest: seq<string>, tableLines: seq<string>, inBlock: bool)
    requires Plain(tableLines) && IsStart(line)
    ensures Splice([line] + (tableLines + [""]) + rest, Terminated(tableLines), inBlock)
      == [line, Terminated(tableLines)] + Splice(rest, Terminated(tableLines), true)
  {
    var table := Terminated(tableLines);
    var inside := tableLines + [""];
    BlankNotMarker();
    assert forall i :: 0 <= i < |inside| ==> !IsMarker(inside[i]) by {
      assert forall i :: 0 <= i < |tableLines| ==> inside[i] == tableLines[i];
    }
    SpliceSkipsBlock(inside, rest, table);
    AppendAssoc([line], inside, rest);
    assert ([line] + (inside + rest))[0] == line;
    assert ([line] + (inside + rest))[1..] == inside + rest;
  }

  /** Splicing the flat output again gives the same lines as the first splice. */
  lemma {:induction false} SpliceAgain(lines: seq<string>, tableLines: seq<string>, inBlock: bool)
    requires Plain(tableLines)
    ensures Splice(SpliceFlat(lines, tableLines, inBlock), Terminated(tableLines), inBlock)
      == Splice(lines, Terminated(tableLines), inBlock)
    decreases |lines|
  {
    if |lines| > 0 {
      var line, next := lines[0], Next(lines[0], inBlock);
      SpliceAgain(lines[1..], tableLines, next);
      EmitAgain(line, SpliceFlat(lines[1..], tableLines, next), tableLines, inBlock);
    }
  }

  /** No line of the table is a marker: each starts with '|' or is blank. */
  lemma TableLinesNotMarkers(projects: seq<Project>)
    ensures Plain(TableLines(projects))
  {
    var rows := Rows(projects);
    var tail := if |projects| == 0 then [""] else rows;
    HeaderNotMarkers();
    if |projects| == 0 {
      BlankNotMarker();
      assert Plain([""]);
    } else {
      RowsNotMarkers(projects);
    }
    PlainAppend([HeaderTitles, HeaderRule], tail);
  }

  lemma HeaderNotMarkers()
    ensures Plain([HeaderTitles, HeaderRule])
  {
    PipeNotMarker(HeaderTitles);
    PipeNotMarker(HeaderRule);
  }

  lemma RowsNotMarkers(projects: seq<Project>)
    ensures Plain(Rows(projects))
  {
    forall i | 0 <= i < |projects| ensures !IsMarker(Rows(projects)[i]) {
      RowNotMarker(projects[i]);
    }
  }

  lemma RowNotMarker(p: Project)
    ensures !IsMarker(Row(p))
  {
    assert StartsWith(Row(p), "| " + p.name + " | ");
    PipeNotMarker(Row(p));
  }

  /** A line that starts with '|' is not a marker. */
  lemma PipeNotMarker(line: string)
    requires |line| > 0 && line[0] == '|'
    ensures !IsMarker(line)
  {
    StripKeepsFirst(line);
    assert StartMarker[0] == '<' && EndMarker[0] == '<';
  }

  lemma BlankNotMarker()
    ensures !IsMarker("")
  {
    assert Strip("") == "";
  }

  lemma PlainAppend(a: seq<string>, b: seq<string>)
    ensures Plain(a + b) <==> Plain(a) && Plain(b)
  {
    if Plain(a) && Plain(b) {
      forall i | 0 <= i < |a + b| ensures !IsMarker((a + b)[i]) {
        if i >= |a| {
          assert (a + b)[i] == b[i - |a|];
        }
      }
    }
    if Plain(a + b) {
      assert forall i :: 0 <= i < |a| ==> (a + b)[i] == a[i];
      assert forall i :: 0 <= i < |b| ==> (a + b)[|a| + i] == b[i];
    }
  }

  /**
    Regenerating a README that was just regenerated from the same manifest
    changes nothing, so `--check` passes on it.
   */
  lemma RegenerateIdempotent(readme: string, projects: seq<Project>)
    requires forall i :: 0 <= i < |projects| ==> SingleLine(projects[i])
    ensures Regenerate(Regenerate(readme, projects), projects) == Regenerate(readme, projects)
    ensures CheckStatus(Regenerate(readme, projects), projects) == 0
  {
    TableLinesNotMarkers(projects);
    TableLinesOneLine(projects);
    SpliceTextIdempotent(SplitLines(readme), TableLines(projects));
  }

  /** The text of a splice, read back and spliced again with the same table, is unchanged. */
  lemma SpliceTextIdempotent(lines: seq<string>, tableLines: seq<string>)
    requires SingleLines(lines) && SingleLines(tableLines)
    requires Plain(tableLines)
    ensures var table := Terminated(tableLines);
      var text := Join(Splice(lines, table, false), "\n") + "\n";
      Join(Splice(SplitLines(text), table, false), "\n") + "\n" == text
  {
    var table := Terminated(tableLines);
    var out := Splice(lines, table, false);
    if |out| == 0 {
      EmptySpliceText(table);
    } else {
      var flat := SpliceFlat(lines, tableLines, false);
      JoinNewlineTerminated(out);
      SpliceFlatText(lines, tableLines, false);
      SpliceFlatOneLine(lines, tableLines, false);
      SplitLinesTerminated(flat);
      SpliceAgain(lines, tableLines, false);
    }
  }

  /** A README whose splice is empty regenerates to "\n", which is kept as it is. */
  lemma EmptySpliceText(table: string)
    ensures Join(Splice(SplitLines("\n"), table, false), "\n") + "\n" == "\n"
  {
    assert SplitLines("\n") == [""] by {
      assert "\n"[0] == '\n';
      assert !NoLineBreaks("\n");
      assert FirstBreak("\n") == 0;
    }
    BlankNotMarker();
    assert Splice([""], table, false) == [""];
  }
}

=== FILE: security.dfy ===
/**
  The bookstore's placeholder authentication: a "hash" that prefixes the
  password, a token that prefixes the username, and a resolver that strips the
  prefix and looks the name up in a fixed user table.
 */
module Security {
  import opened Wrappers
  import opened Text
  import opened Dicts

  datatype User = User(username: string)

  datatype UserInDb = UserInDb(username: string, hashedPassword: string)

  const HashPrefix: string := "hashed"
  const TokenPrefix: string := "tokenized"

  /** The built-in user table, keyed by username. */
  const FakeUsersDb: Dict<UserInDb> := [
    ("johndoe", UserInDb("johndoe", "hashedsecret")),
    ("janedoe", UserInDb("janedoe", "hashedsecret2"))
  ]

  /** Every record is stored under its own username. */
  predicate WellKeyed(db: Dict<UserInDb>) {
    forall i :: 0 <= i < |db| ==> db[i].1.username == db[i].0
  }

  /** The placeholder password hash. */
  function HashPassword(password: string): (h: string)
    ensures StartsWith(h, HashPrefix)
    ensures h[|HashPrefix|..] == password
  {
    HashPrefix + password
  }

  /** Two passwords share a hash only when they are equal. */
  lemma HashInjective(p: string, q: string)
    ensures HashPassword(p) == HashPassword(q) <==> p == q
  {
    if HashPassword(p) == HashPassword(q) {
      assert p == HashPassword(p)[|HashPrefix|..];
    }
  }

  /** The stored hashes are those of the passwords "secret" and "secret2". */
  lemma StoredHashes()
    ensures Get(FakeUsersDb, "johndoe") == Some(UserInDb("johndoe", HashPassword("secret")))
    ensures Get(FakeUsersDb, "janedoe") == Some(UserInDb("janedoe", HashPassword("secret2")))
  {
    assert HashPassword("secret") == "hashedsecret";
    assert HashPassword("secret2") == "hashedsecret2";
    assert FakeUsersDb[1..][0].0 == "janedoe";
    assert "johndoe" != "janedoe" by { assert "johndoe"[1] != "janedoe"[1]; }
  }

  /** Python's `get_user(db, username)`: the record under that key, or `None`. */
  function GetUser(db: Dict<UserInDb>, username: string): (r: Option<UserInDb>)
    ensures r.None? <==> username !in Keys(db)
    ensures r.Some? && WellKeyed(db) ==> r.value.username == username
  {
    Get(db, username)
  }

  /** The token handed out for a user. */
  function TokenFor(user: UserInDb): (token: string)
    ensures StartsWith(token, TokenPrefix)
    ensures token[|TokenPrefix|..] == user.username
  {
    TokenPrefix + user.username
  }

  /** Python's `fake_token_resolver`, over an explicit user table. */
  function ResolveToken(db: Dict<UserInDb>, token: string): (r: Option<UserInDb>)
    ensures r.Some? <==> StartsWith(token, TokenPrefix) && token[|TokenPrefix|..] in Keys(db)
    ensures r.Some? ==> (token[|TokenPrefix|..], r.value) in db
    ensures r.Some? && WellKeyed(db) ==> token == TokenPrefix + r.value.username
    ensures forall name {:trigger TokenPrefix + name} :: token == TokenPrefix + name && name !in Keys(db) ==> r.None?
  {
    if StartsWith(token, TokenPrefix) then GetUser(db, token[|TokenPrefix|..]) else None
  }

  /** Python's `get_user_from_token` over an explicit user table. */
  function UserFromTokenIn(db: Dict<UserInDb>, token: string): (r: Option<User>)
    ensures r.Some? <==> ResolveToken(db, token).Some?
    ensures r.Some? ==> r.value.username == ResolveToken(db, token).value.username
  {
    match ResolveToken(db, token)
    case Some(u) => Some(User(u.username))
    case None => None
  }

  /** Python's `get_user_from_token`, which consults the built-in table. */
  function UserFromToken(token: string): (r: Option<User>)
    ensures r.Some? ==> r.value.username in Keys(FakeUsersDb)
  {
    var r := UserFromTokenIn(FakeUsersDb, token);
    assert WellKeyed(FakeUsersDb);
    r
  }

  /** The token of any stored user resolves back to that user's name. */
  lemma {:induction false} TokenRoundTrip(db: Dict<UserInDb>, user: UserInDb)
    requires WellKeyed(db)
    requires user.username in Keys(db)
    ensures UserFromTokenIn(db, TokenFor(user)) == Some(User(user.username))
  {
    assert TokenFor(user)[|TokenPrefix|..] == user.username;
  }

  /** Conversely, a token that resolves is exactly the token of the user it names. */
  lemma {:induction false} ResolvedTokenIsIssued(db: Dict<UserInDb>, token: string)
    requires WellKeyed(db)
    requires UserFromTokenIn(db, token).Some?
    ensures token == TokenPrefix + UserFromTokenIn(db, token).value.username
  {
    assert token == TokenPrefix + token[|TokenPrefix|..];
  }

  /** A token naming a user who is not in the table resolves to nothing. */
  lemma {:induction false} UnknownUserToken(db: Dict<UserInDb>, name: string)
    requires name !in Keys(db)
    ensures UserFromTokenIn(db, TokenPrefix + name) == None
  {
    assert (TokenPrefix + name)[|TokenPrefix|..] == name;
  }

  /** The two built-in users log in by token. */
  lemma BuiltInTokens()
    ensures UserFromToken("tokenizedjohndoe") == Some(User("johndoe"))
    ensures UserFromToken("tokenizedjanedoe") == Some(User("janedoe"))
    ensures UserFromToken("johndoe") == None
  {
    TokenRoundTrip(FakeUsersDb, UserInDb("johndoe", ""));
    TokenRoundTrip(FakeUsersDb, UserInDb("janedoe", ""));
  }
}

=== FILE: text.dfy ===
/**
  The handful of Python `str` operations the modelled code relies on, with their
  Python semantics: `split`, `strip`, `join`, `find`, `startswith`, `replace`,
  `splitlines`, `upper`, f-string formatting of integers and `int(...)`.
  Strings are sequences of characters; no encoding is involved.
 */
module Text {
  import opened Wrappers

  // ---------------------------------------------------------------------------
  // Character classes
  // ---------------------------------------------------------------------------

  /** Python's `str.isspace` for one character. */
  predicate IsSpace(c: char) {
    || c == ' '
    || ('\t' <= c <= '\r')
    || ('\U{1C}' <= c <= '\U{1F}')
    || c == '\U{85}' || c == '\U{A0}' || c == '\U{1680}'
    || ('\U{2000}' <= c <= '\U{200A}')
    || c == '\U{2028}' || c == '\U{2029}' || c == '\U{202F}' || c == '\U{205F}' || c == '\U{3000}'
  }

  /** The characters at which Python's `str.splitlines` ends a line. */
  predicate IsLineBreak(c: char) {
    || c == '\n' || c == '\r' || c == '\U{0B}' || c == '\U{0C}'
    || ('\U{1C}' <= c <= '\U{1E}')
    || c == '\U{85}' || c == '\U{2028}' || c == '\U{2029}'
  }

  predicate IsDigit(c: char) {
    '0' <= c <= '9'
  }

  predicate IsAsciiLetter(c: char) {
    ('a' <= c <= 'z') || ('A' <= c <= 'Z')
  }

  predicate NoLineBreaks(s: string) {
    forall i :: 0 <= i < |s| ==> !IsLineBreak(s[i])
  }

  /** Every line of the list is free of line breaks. */
  predicate SingleLines(lines: seq<string>) {
    forall i :: 0 <= i < |lines| ==> NoLineBreaks(lines[i])
  }

  lemma SingleLinesAppend(a: seq<string>, b: seq<string>)
    ensures SingleLines(a + b) <==> SingleLines(a) && SingleLines(b)
  {
    if SingleLines(a) && SingleLines(b) {
      forall i | 0 <= i < |a + b| ensures NoLineBreaks((a + b)[i]) {
        if i >= |a| {
          assert (a + b)[i] == b[i - |a|];
        }
      }
    }
    if SingleLines(a + b) {
      assert forall i :: 0 <= i < |a| ==> (a + b)[i] == a[i];
      assert forall i :: 0 <= i < |b| ==> (a + b)[|a| + i] == b[i];
    }
  }

  /** A concatenation of two texts without line breaks has none. */
  lemma NoLineBreaksAppend(a: string, b: string)
    requires NoLineBreaks(a) && NoLineBreaks(b)
    ensures NoLineBreaks(a + b)
  {
    forall i | 0 <= i < |a + b| ensures !IsLineBreak((a + b)[i]) {
      if i >= |a| {
        assert (a + b)[i] == b[i - |a|];
      }
    }
  }

  // ---------------------------------------------------------------------------
  // Searching
  // ---------------------------------------------------------------------------

  predicate StartsWith(s: string, prefix: string) {
    |prefix| <= |s| && s[..|prefix|] == prefix
  }

  predicate EndsWith(s: string, suffix: string) {
    |suffix| <= |s| && s[|s| - |suffix|..] == suffix
  }

  /** `sub` occurs in `s` starting at index `i`. */
  predicate OccursAt(s: string, sub: string, i: int) {
    0 <= i && i + |sub| <= |s| && s[i..i + |sub|] == sub
  }

  /** Python's `s.find(sub, start)`: the lowest index at or after `start` where `sub` occurs, else -1. */
  function FindFrom(s: string, sub: string, start: nat): (r: int)
    requires start <= |s|
    ensures r == -1 || (start <= r && OccursAt(s, sub, r))
    ensures r == -1 ==> forall i :: start <= i ==> !OccursAt(s, sub, i)
    ensures r != -1 ==> forall i :: start <= i < r ==> !OccursAt(s, sub, i)
    decreases |s| - start
  {
    if OccursAt(s, sub, start) then start
    else if start == |s| then -1
    else FindFrom(s, sub, start + 1)
  }

  /** Python's `s.find(sub)`. */
  function Find(s: string, sub: string): (r: int)
    ensures r == -1 <==> forall i :: !OccursAt(s, sub, i)
    ensures r != -1 ==> OccursAt(s, sub, r) && forall i :: 0 <= i < r ==> !OccursAt(s, sub, i)
  {
    FindFrom(s, sub, 0)
  }

  /** Python's `sub in s`. */
  predicate Contains(s: string, sub: string) {
    Find(s, sub) != -1
  }

  /** A text contains each piece it is built from. */
  lemma ContainsMiddle(head: string, sub: string, tail: string)
    ensures Contains(head + sub + tail, sub)
  {
    var s := head + sub + tail;
    assert s[|head|..|head| + |sub|] == sub;
    assert OccursAt(s, sub, |head|);
  }

  /** Index of the first occurrence of `c` (Python's `s.index(c)`). */
  function IndexOf(s: string, c: char): (r: nat)
    requires c in s
    ensures r < |s| && s[r] == c
    ensures forall j :: 0 <= j < r ==> s[j] != c
  {
    if s[0] == c then 0 else 1 + IndexOf(s[1..], c)
  }

  /** Index of the last occurrence of `c` (Python's `s.rindex(c)`). */
  function LastIndexOf(s: string, c: char): (r: nat)
    requires c in s
    ensures r < |s| && s[r] == c
    ensures forall j :: r < j < |s| ==> s[j] != c
  {
    if s[|s| - 1] == c then |s| - 1 else LastIndexOf(s[..|s| - 1], c)
  }

  // ---------------------------------------------------------------------------
  // Joining and splitting
  // ---------------------------------------------------------------------------

  /** Python's `sep.join(parts)`. */
  function Join(parts: seq<string>, sep: string): string
  {
    if |parts| == 0 then ""
    else if |parts| == 1 then parts[0]
    else parts[0] + sep + Join(parts[1..], sep)
  }

  /** A join ends with the last character of its last part, when that part is not empty. */
  lemma {:induction false} JoinEnd(parts: seq<string>, sep: string)
    requires |parts| > 0 && |parts[|parts| - 1]| > 0
    ensures var j := Join(parts, sep); var last := parts[|parts| - 1];
      |j| > 0 && j[|j| - 1] == last[|last| - 1]
    decreases |parts|
  {
    if |parts| > 1 {
      JoinEnd(parts[1..], sep);
      assert parts[1..][|parts| - 2] == parts[|parts| - 1];
    }
  }

  /** Python's `s.split(sep)` for a one-character separator. */
  function Split(s: string, sep: char): (parts: seq<string>)
    ensures |parts| >= 1
    ensures forall i :: 0 <= i < |parts| ==> sep !in parts[i]
    ensures Join(parts, [sep]) == s
    decreases |s|
  {
    if sep !in s then [s]
    else
      var k := IndexOf(s, sep);
      assert s == s[..k] + [sep] + s[k + 1..];
      [s[..k]] + Split(s[k + 1..], sep)
  }

  /** `Split` undoes `Join` when no part contains the separator. */
  lemma {:induction false} SplitJoin(parts: seq<string>, sep: char)
    requires |parts| >= 1
    requires forall i :: 0 <= i < |parts| ==> sep !in parts[i]
    ensures Split(Join(parts, [sep]), sep) == parts
    decreases |parts|
  {
    if |parts| > 1 {
      var s := Join(parts, [sep]);
      var rest := Join(parts[1..], [sep]);
      assert s == parts[0] + [sep] + rest;
      assert s[|parts[0]|] == sep;
      assert sep in s;
      var k := IndexOf(s, sep);
      assert forall j :: 0 <= j < |parts[0]| ==> s[j] == parts[0][j];
      assert k == |parts[0]|;
      assert s[..k] == parts[0];
      assert s[k + 1..] == rest;
      SplitJoin(parts[1..], sep);
    }
  }

  /** Python's `s.split(sep, 1)` for a one-character separator. */
  function SplitOnce(s: string, sep: char): (parts: seq<string>)
    ensures sep !in s ==> parts == [s]
    ensures sep in s ==> |parts| == 2 && sep !in parts[0] && s == parts[0] + [sep] + parts[1]
  {
    if sep !in s then [s]
    else
      var k := IndexOf(s, sep);
      assert s == s[..k] + [sep] + s[k + 1..];
      [s[..k], s[k + 1..]]
  }

  /** `SplitOnce` cuts at the separator that follows a separator-free head. */
  lemma SplitOnceOf(head: string, sep: char, tail: string)
    requires sep !in head
    ensures SplitOnce(head + [sep] + tail, sep) == [head, tail]
  {
    var s := head + [sep] + tail;
    assert s[|head|] == sep;
    var k := IndexOf(s, sep);
    assert forall j :: 0 <= j < |head| ==> s[j] == head[j];
    assert k == |head|;
    assert s[..k] == head;
    assert s[k + 1..] == tail;
  }

  /** Python's `s.rsplit(sep, 1)[0]`: everything before the last `sep`, or all of `s`. */
  function BeforeLast(s: string, sep: char): (r: string)
    ensures sep !in s ==> r == s
    ensures sep in s ==> exists tail :: sep !in tail && s == r + [sep] + tail
  {
    if sep !in s then s
    else
      var k := LastIndexOf(s, sep);
      assert s == s[..k] + [sep] + s[k + 1..];
      assert sep !in s[k + 1..];
      s[..k]
  }

  /** `BeforeLast` finds the separator placed before a separator-free tail. */
  lemma BeforeLastOf(head: string, sep: char, tail: string)
    requires sep !in tail
    ensures BeforeLast(head + [sep] + tail, sep) == head
  {
    var s := head + [sep] + tail;
    assert s[|head|] == sep;
    var k := LastIndexOf(s, sep);
    assert forall j :: |head| < j < |s| ==> s[j] == tail[j - |head| - 1];
    assert s[..k] == head;
  }

  /** Python's `s.split(sep)` for a separator of one or more characters. */
  function SplitOn(s: string, sep: string): (parts: seq<string>)
    requires |sep| > 0
    ensures |parts| >= 1
    ensures Join(parts, sep) == s
    ensures forall i :: 0 <= i < |parts| ==> !Contains(parts[i], sep)
    decreases |s|
  {
    var k := Find(s, sep);
    if k == -1 then [s]
    else
      var head := s[..k];
      assert s == head + sep + s[k + |sep|..];
      assert forall i :: OccursAt(head, sep, i) ==> OccursAt(s, sep, i) by {
        forall i | OccursAt(head, sep, i) ensures OccursAt(s, sep, i) {
          assert s[i..i + |sep|] == head[i..i + |sep|];
        }
      }
      [head] + SplitOn(s[k + |sep|..], sep)
  }

  /** Python's `s.split()` with no argument: the maximal runs of non-space characters. */
  function SplitWs(s: string): (words: seq<string>)
    ensures forall i :: 0 <= i < |words| ==> IsWord(words[i])
    decreases |s|
  {
    var t := LStrip(s);
    if |t| == 0 then []
    else
      FirstWord(t);
      var n := WordLength(t);
      PrependWord(t[..n], SplitWs(t[n..]))
  }

  /** A word in front of a list of words. */
  function PrependWord(w: string, words: seq<string>): (r: seq<string>)
    requires IsWord(w) && forall i :: 0 <= i < |words| ==> IsWord(words[i])
    ensures forall i :: 0 <= i < |r| ==> IsWord(r[i])
  {
    assert forall i :: 0 < i <= |words| ==> ([w] + words)[i] == words[i - 1];
    [w] + words
  }

  /** A text that starts with a non-space character starts with a word. */
  lemma FirstWord(t: string)
    requires |t| > 0 && !IsSpace(t[0])
    ensures 0 < WordLength(t) <= |t| && IsWord(t[..WordLength(t)])
  {
    var n := WordLength(t);
    assert forall j :: 0 <= j < n ==> t[..n][j] == t[j];
  }

  /** A non-empty run of non-space characters. */
  predicate IsWord(w: string) {
    |w| > 0 && forall j :: 0 <= j < |w| ==> !IsSpace(w[j])
  }

  /** Length of the leading run of non-space characters. */
  function WordLength(t: string): (n: nat)
    ensures n <= |t|
    ensures forall j :: 0 <= j < n ==> !IsSpace(t[j])
    ensures n < |t| ==> IsSpace(t[n])
    ensures |t| > 0 && !IsSpace(t[0]) ==> n > 0
  {
    if |t| == 0 || IsSpace(t[0]) then 0 else 1 + WordLength(t[1..])
  }

  /** `split()` undoes joining words with single spaces. */
  lemma {:induction false} SplitWsJoin(words: seq<string>)
    requires forall i :: 0 <= i < |words| ==> IsWord(words[i])
    ensures SplitWs(Join(words, " ")) == words
    decreases |words|
  {
    if |words| == 0 {
      SplitWsEmpty();
    } else if |words| == 1 {
      SplitWsOne(words[0]);
    } else {
      var w, tail := words[0], words[1..];
      var rest := Join(tail, " ");
      calc {
        SplitWs(Join(words, " "));
        SplitWs(w + " " + rest);
        { SplitWsCons(w, rest); }
        [w] + SplitWs(rest);
        { SplitWsJoin(tail); }
        [w] + tail;
        words;
      }
    }
  }

  /** The empty text has no words. */
  lemma SplitWsEmpty()
    ensures SplitWs("") == []
  {
    assert LStrip("") == "";
  }

  /** `split()` of a single word. */
  lemma SplitWsOne(w: string)
    requires IsWord(w)
    ensures SplitWs(w) == [w]
  {
    assert w + "" == w;
    WordLengthOf(w, "");
    SplitWsFirst(w);
    assert w[..|w|] == w && w[|w|..] == "";
    assert LStrip("") == "";
  }

  /** `split()` of a word, a space and more text. */
  lemma SplitWsCons(w: string, rest: string)
    requires IsWord(w)
    ensures SplitWs(w + " " + rest) == [w] + SplitWs(rest)
  {
    var s := w + " " + rest;
    assert s == w + (" " + rest);
    WordLengthOf(w, " " + rest);
    SplitWsFirst(s);
    assert s[..|w|] == w && s[|w|..] == " " + rest;
    SplitWsSkipSpace(" " + rest);
    assert (" " + rest)[1..] == rest;
  }

  /** `split()` of a text that starts with a word: that word, then the words of the rest. */
  lemma SplitWsFirst(s: string)
    requires |s| > 0 && !IsSpace(s[0])
    ensures SplitWs(s) == [s[..WordLength(s)]] + SplitWs(s[WordLength(s)..])
  {
    assert LStrip(s) == s;
  }

  /** A leading space does not change `split()`. */
  lemma SplitWsSkipSpace(s: string)
    requires |s| > 0 && IsSpace(s[0])
    ensures SplitWs(s) == SplitWs(s[1..])
  {
    assert LStrip(s) == LStrip(s[1..]);
  }

  /** A run of non-space characters followed by a space, or by nothing, is read whole. */
  lemma {:induction false} WordLengthOf(w: string, tail: string)
    requires forall j :: 0 <= j < |w| ==> !IsSpace(w[j])
    requires |tail| == 0 || IsSpace(tail[0])
    ensures WordLength(w + tail) == |w|
    decreases |w|
  {
    if |w| == 0 {
      assert w + tail == tail;
    } else {
      assert (w + tail)[0] == w[0];
      assert (w + tail)[1..] == w[1..] + tail;
      WordLengthOf(w[1..], tail);
    }
  }

  /** A text that strips to nothing has no words. */
  lemma BlankHasNoWords(s: string)
    requires Strip(s) == ""
    ensures SplitWs(s) == []
  {
    assert |LStrip(s)| == 0;
  }

  /** `split(sep)` of a text in which `sep` occurs exactly once. */
  lemma SplitOnAt(head: string, sep: string, tail: string)
    requires |sep| > 0
    requires forall i :: OccursAt(head + sep + tail, sep, i) ==> i == |head|
    ensures SplitOn(head + sep + tail, sep) == [head, tail]
  {
    var s := head + sep + tail;
    assert s[|head|..|head| + |sep|] == sep;
    assert OccursAt(s, sep, |head|);
    var k := Find(s, sep);
    assert k == |head|;
    assert s[..k] == head;
    assert s[k + |sep|..] == tail;
    forall i ensures !OccursAt(tail, sep, i) {
      if OccursAt(tail, sep, i) {
        assert s[|head| + |sep| + i..|head| + |sep| + i + |sep|] == tail[i..i + |sep|];
        assert OccursAt(s, sep, |head| + |sep| + i);
      }
    }
    assert Find(tail, sep) == -1;
  }

  /** Python's `str.splitlines()`: lines without their terminators; "\r\n" is one terminator. */
  function SplitLines(s: string): (lines: seq<string>)
    ensures forall i :: 0 <= i < |lines| ==> NoLineBreaks(lines[i])
    ensures s == "" <==> lines == []
    decreases |s|
  {
    if |s| == 0 then []
    else if NoLineBreaks(s) then [s]
    else
      var k := FirstBreak(s);
      var skip := if s[k] == '\r' && k + 1 < |s| && s[k + 1] == '\n' then 2 else 1;
      [s[..k]] + SplitLines(s[k + skip..])
  }

  /** Index of the first line-break character. */
  function FirstBreak(s: string): (k: nat)
    requires !NoLineBreaks(s)
    ensures k < |s| && IsLineBreak(s[k])
    ensures NoLineBreaks(s[..k])
  {
    if IsLineBreak(s[0]) then 0
    else
      var k := 1 + FirstBreak(s[1..]);
      assert s[..k] == [s[0]] + s[1..][..k - 1];
      k
  }

  /** Each line followed by "\n": the text `"\n".join(lines) + "\n"` for a non-empty list. */
  function Terminated(lines: seq<string>): string
  {
    if |lines| == 0 then "" else lines[0] + "\n" + Terminated(lines[1..])
  }

  lemma {:induction false} TerminatedAppend(a: seq<string>, b: seq<string>)
    ensures Terminated(a + b) == Terminated(a) + Terminated(b)
    decreases |a|
  {
    if |a| > 0 {
      assert (a + b)[1..] == a[1..] + b;
      TerminatedAppend(a[1..], b);
    } else {
      assert a + b == b;
    }
  }

  /** Joining with "\n" and adding a final "\n" is terminating every line. */
  lemma {:induction false} JoinNewlineTerminated(lines: seq<string>)
    requires |lines| > 0
    ensures Join(lines, "\n") + "\n" == Terminated(lines)
    decreases |lines|
  {
    if |lines| > 1 {
      JoinNewlineTerminated(lines[1..]);
    }
  }

  /** `splitlines` reads back exactly the lines of a text in which each line ends in "\n". */
  lemma {:induction false} SplitLinesTerminated(lines: seq<string>)
    requires forall i :: 0 <= i < |lines| ==> NoLineBreaks(lines[i])
    ensures SplitLines(Terminated(lines)) == lines
    decreases |lines|
  {
    if |lines| > 0 {
      var s := Terminated(lines);
      var x := lines[0];
      var rest := Terminated(lines[1..]);
      assert s == x + "\n" + rest;
      FirstBreakAfter(x, rest);
      assert s[..|x|] == x;
      assert s[|x| + 1..] == rest;
      SplitLinesTerminated(lines[1..]);
    }
  }

  /** In `x + "\n" + rest`, with `x` free of line breaks, the first break is the "\n" after `x`. */
  lemma {:induction false} FirstBreakAfter(x: string, rest: string)
    requires NoLineBreaks(x)
    ensures !NoLineBreaks(x + "\n" + rest)
    ensures FirstBreak(x + "\n" + rest) == |x|
    decreases |x|
  {
    var s := x + "\n" + rest;
    assert s[|x|] == '\n';
    if |x| > 0 {
      assert s[0] == x[0];
      assert s[1..] == x[1..] + "\n" + rest;
      FirstBreakAfter(x[1..], rest);
    }
  }

  // ---------------------------------------------------------------------------
  // Stripping
  // ---------------------------------------------------------------------------

  /** Python's `s.lstrip()`. */
  function LStrip(s: string): (r: string)
    ensures |r| <= |s| && r == s[|s| - |r|..]
    ensures forall i :: 0 <= i < |s| - |r| ==> IsSpace(s[i])
    ensures |r| > 0 ==> !IsSpace(r[0])
  {
    if |s| > 0 && IsSpace(s[0]) then LStrip(s[1..]) else s
  }

  /** Python's `s.rstrip()`. */
  function RStrip(s: string): (r: string)
    ensures |r| <= |s| && r == s[..|r|]
    ensures forall i :: |r| <= i < |s| ==> IsSpace(s[i])
    ensures |r| > 0 ==> !IsSpace(r[|r| - 1])
  {
    if |s| > 0 && IsSpace(s[|s| - 1]) then RStrip(s[..|s| - 1]) else s
  }

  /** Python's `s.strip()`. */
  function Strip(s: string): (r: string)
    ensures |r| <= |s|
    ensures |r| > 0 ==> !IsSpace(r[0]) && !IsSpace(r[|r| - 1])
  {
    RStrip(LStrip(s))
  }

  /** Python's `s.lstrip(chars)`. */
  function LStripChars(s: string, chars: set<char>): (r: string)
    ensures |r| <= |s| && r == s[|s| - |r|..]
    ensures forall i :: 0 <= i < |s| - |r| ==> s[i] in chars
    ensures |r| > 0 ==> r[0] !in chars
  {
    if |s| > 0 && s[0] in chars then LStripChars(s[1..], chars) else s
  }

  /** Python's `s.rstrip(chars)`. */
  function RStripChars(s: string, chars: set<char>): (r: string)
    ensures |r| <= |s| && r == s[..|r|]
    ensures forall i :: |r| <= i < |s| ==> s[i] in chars
    ensures |r| > 0 ==> r[|r| - 1] !in chars
  {
    if |s| > 0 && s[|s| - 1] in chars then RStripChars(s[..|s| - 1], chars) else s
  }

  /** Python's `s.strip(chars)`. */
  function StripChars(s: string, chars: set<char>): string {
    RStripChars(LStripChars(s, chars), chars)
  }

  /** A string that starts with a non-space character keeps that character first after `strip()`. */
  lemma StripKeepsFirst(s: string)
    requires |s| > 0 && !IsSpace(s[0])
    ensures |Strip(s)| > 0 && Strip(s)[0] == s[0]
  {
    assert LStrip(s) == s;
  }

  // ---------------------------------------------------------------------------
  // Replacing and case
  // ---------------------------------------------------------------------------

  /** Python's `s.replace(pat, rep)` for a one-character `pat`. */
  function ReplaceChar(s: string, pat: char, rep: char): (r: string)
    ensures |r| == |s|
    ensures forall i :: 0 <= i < |s| ==> r[i] == (if s[i] == pat then rep else s[i])
    ensures pat != rep ==> pat !in r
  {
    if |s| == 0 then ""
    else [if s[0] == pat then rep else s[0]] + ReplaceChar(s[1..], pat, rep)
  }

  lemma {:induction false} ReplaceCharAppend(a: string, b: string, pat: char, rep: char)
    ensures ReplaceChar(a + b, pat, rep) == ReplaceChar(a, pat, rep) + ReplaceChar(b, pat, rep)
    decreases |a|
  {
    if |a| == 0 {
      assert a + b == b;
    } else {
      assert (a + b)[1..] == a[1..] + b;
      ReplaceCharAppend(a[1..], b, pat, rep);
    }
  }

  lemma ReplaceCharAbsent(s: string, pat: char, rep: char)
    requires pat !in s
    ensures ReplaceChar(s, pat, rep) == s
  {
  }

  /** Python's `s.replace(pat, rep)`: leftmost, non-overlapping occurrences. */
  function ReplaceAll(s: string, pat: string, rep: string): string
    requires |pat| > 0
    decreases |s|
  {
    if |s| == 0 then ""
    else if StartsWith(s, pat) then rep + ReplaceAll(s[|pat|..], pat, rep)
    else [s[0]] + ReplaceAll(s[1..], pat, rep)
  }

  /** Replacing a pattern that does not occur leaves the text as it is. */
  lemma {:induction false} ReplaceAllAbsent(s: string, pat: string, rep: string)
    requires |pat| > 0
    requires forall i :: !OccursAt(s, pat, i)
    ensures ReplaceAll(s, pat, rep) == s
    decreases |s|
  {
    if |s| > 0 {
      assert !OccursAt(s, pat, 0);
      assert !StartsWith(s, pat);
      forall i ensures !OccursAt(s[1..], pat, i) {
        assert !OccursAt(s, pat, i + 1);
        if 0 <= i && i + |pat| <= |s| - 1 {
          assert s[i + 1..i + 1 + |pat|] == s[1..][i..i + |pat|];
        }
      }
      ReplaceAllAbsent(s[1..], pat, rep);
    }
  }

  /** `ReplaceAll` on a text with exactly one occurrence of `pat`, at its end. */
  lemma ReplaceSuffix(stem: string, pat: string, rep: string)
    requires |pat| > 0
    requires forall i :: !OccursAt(stem + pat, pat, i) || i == |stem|
    ensures ReplaceAll(stem + pat, pat, rep) == stem + rep
  {
    ReplaceSuffixFrom(stem, pat, rep, 0);
  }

  lemma {:induction false} ReplaceSuffixFrom(stem: string, pat: string, rep: string, k: nat)
    requires |pat| > 0 && k <= |stem|
    requires forall i :: !OccursAt(stem + pat, pat, i) || i == |stem|
    ensures ReplaceAll((stem + pat)[k..], pat, rep) == stem[k..] + rep
    decreases |stem| - k
  {
    var s := stem + pat;
    var t := s[k..];
    if k == |stem| {
      assert t == pat;
      assert StartsWith(t, pat);
      assert t[|pat|..] == "";
    } else {
      assert !OccursAt(s, pat, k);
      assert !StartsWith(t, pat) by {
        if |pat| <= |t| {
          assert s[k..k + |pat|] == t[..|pat|];
        }
      }
      assert t[1..] == s[k + 1..];
      ReplaceSuffixFrom(stem, pat, rep, k + 1);
      assert stem[k..] == [stem[k]] + stem[k + 1..];
    }
  }

  /** Python's `str.upper()` restricted to ASCII letters. */
  function Upper(s: string): (r: string)
    ensures |r| == |s|
    ensures forall i :: 0 <= i < |s| ==> r[i] == UpperChar(s[i])
  {
    if |s| == 0 then "" else [UpperChar(s[0])] + Upper(s[1..])
  }

  function UpperChar(c: char): char {
    if 'a' <= c <= 'z' then (c as int - 'a' as int + 'A' as int) as char else c
  }

  // ---------------------------------------------------------------------------
  // Integers: f-string formatting and int(...)
  // ---------------------------------------------------------------------------

  function DigitChar(d: nat): (c: char)
    requires d < 10
    ensures IsDigit(c) && DigitValue(c) == d
  {
    ('0' as int + d) as char
  }

  function DigitValue(c: char): nat
    requires IsDigit(c)
  {
    c as int - '0' as int
  }

  /** Decimal digits of a natural number, as `f"{n}"` prints it. */
  function NatToString(n: nat): (r: string)
    ensures |r| >= 1
    ensures forall i :: 0 <= i < |r| ==> IsDigit(r[i])
    decreases n
  {
    if n < 10 then [DigitChar(n)] else NatToString(n / 10) + [DigitChar(n % 10)]
  }

  /** `f"{n}"` for an integer. */
  function IntToString(n: int): string {
    if n < 0 then "-" + NatToString(-n) else NatToString(n)
  }

  predicate AllDigits(s: string) {
    forall i :: 0 <= i < |s| ==> IsDigit(s[i])
  }

  /** The value of a string of decimal digits. */
  function DigitsValue(s: string): nat
    requires AllDigits(s)
  {
    if |s| == 0 then 0 else DigitsValue(s[..|s| - 1]) * 10 + DigitValue(s[|s| - 1])
  }

  lemma {:induction false} NatToStringValue(n: nat)
    ensures DigitsValue(NatToString(n)) == n
    decreases n
  {
    if n >= 10 {
      var s := NatToString(n);
      assert s[..|s| - 1] == NatToString(n / 10);
      NatToStringValue(n / 10);
    }
  }

  /** Digits with single underscores between them, as Python's `int()` accepts. */
  predicate IsDigitGroups(s: string) {
    && |s| > 0
    && IsDigit(s[0]) && IsDigit(s[|s| - 1])
    && (forall i :: 0 <= i < |s| ==> IsDigit(s[i]) || s[i] == '_')
    && (forall i :: 0 <= i < |s| - 1 ==> s[i] == '_' ==> s[i + 1] != '_')
  }

  function DropUnderscores(s: string): (r: string)
    requires forall i :: 0 <= i < |s| ==> IsDigit(s[i]) || s[i] == '_'
    ensures AllDigits(r)
  {
    if |s| == 0 then ""
    else if s[0] == '_' then DropUnderscores(s[1..])
    else [s[0]] + DropUnderscores(s[1..])
  }

  lemma {:induction false} DropUnderscoresOfDigits(s: string)
    requires AllDigits(s)
    ensures DropUnderscores(s) == s
    decreases |s|
  {
    if |s| > 0 {
      DropUnderscoresOfDigits(s[1..]);
    }
  }

  /**
    Python's `int(s)` in base 10 for a text whose digits are ASCII: `None`
    where Python raises `ValueError`. Python also reads the other Unicode
    decimal digits (`"８０"` is 80); here they are not digits.
   */
  function ParseInt(s: string): (r: Option<int>)
    ensures r.Some? ==> |Strip(s)| > 0
  {
    ParseSigned(Strip(s))
  }

  /** `int()` on a text already stripped of surrounding spaces: an optional sign, then digit groups. */
  function ParseSigned(t: string): (r: Option<int>)
    ensures r.Some? ==> |t| > 0
  {
    var signed := |t| > 0 && (t[0] == '-' || t[0] == '+');
    var body := if signed then t[1..] else t;
    if !IsDigitGroups(body) then None
    else
      var magnitude := DigitsValue(DropUnderscores(body));
      Some(if signed && t[0] == '-' then -(magnitude as int) else magnitude as int)
  }

  /** `strip()` leaves alone a text that neither starts nor ends with a space. */
  lemma {:induction false} StripUnpadded(s: string)
    requires |s| > 0 && !IsSpace(s[0]) && !IsSpace(s[|s| - 1])
    ensures Strip(s) == s
  {
    assert LStrip(s) == s;
    assert RStrip(s) == s;
  }

  /** The value `int()` reads from an unsigned digit string. */
  lemma {:induction false} ParseDigits(digits: string)
    requires |digits| > 0 && AllDigits(digits)
    ensures ParseInt(digits) == Some(DigitsValue(digits))
  {
    DropUnderscoresOfDigits(digits);
    StripUnpadded(digits);
    assert IsDigitGroups(digits);
  }

  /** `int()` of a stripped text made of a minus sign and digit groups. */
  lemma {:induction false} ParseSignedNegative(t: string)
    requires |t| > 0 && t[0] == '-' && IsDigitGroups(t[1..])
    ensures ParseSigned(t) == Some(-(DigitsValue(DropUnderscores(t[1..])) as int))
  {
  }

  /** The value `int()` reads from a minus sign followed by digits. */
  lemma {:induction false} ParseNegativeDigits(digits: string)
    requires |digits| > 0 && AllDigits(digits)
    ensures ParseInt("-" + digits) == Some(-(DigitsValue(digits) as int))
  {
    var m := "-" + digits;
    NegativeUnpadded(digits);
    NegativeSigned(digits);
    assert ParseInt(m) == ParseSigned(m);
  }

  lemma {:induction false} NegativeUnpadded(digits: string)
    requires |digits| > 0 && AllDigits(digits)
    ensures Strip("-" + digits) == "-" + digits
  {
    var m := "-" + digits;
    assert m[0] == '-';
    assert m[|m| - 1] == digits[|digits| - 1];
    StripUnpadded(m);
  }

  lemma {:induction false} NegativeSigned(digits: string)
    requires |digits| > 0 && AllDigits(digits)
    ensures ParseSigned("-" + digits) == Some(-(DigitsValue(digits) as int))
  {
    DropUnderscoresOfDigits(digits);
    var m := "-" + digits;
    assert m[0] == '-';
    assert m[1..] == digits;
    ParseSignedNegative(m);
    var v: int := DigitsValue(digits);
    assert DigitsValue(DropUnderscores(m[1..])) == v;
  }

  /** `int(f"{n}") == n`. */
  lemma IntToStringParses(n: int)
    ensures ParseInt(IntToString(n)) == Some(n)
  {
    var m: nat := if n < 0 then -n else n;
    NatToStringValue(m);
    if n < 0 {
      ParseNegativeDigits(NatToString(m));
    } else {
      ParseDigits(NatToString(m));
    }
  }
}

=== FILE: validation.dfy ===
/**
  projgen's `TemplateValidator`: it checks a project configuration and a
  template manifest, collecting error and warning messages, and renders them
  as a report. The validator's two lists are the `Validator` value threaded
  through each check.
 */
module Validation {
  import opened Wrappers
  import opened Text
  import opened Dicts

  datatype Validator = Validator(errors: seq<string>, warnings: seq<string>)

  /** The languages projgen supports, in its configured order. */
  const Languages: seq<string> :=
    ["java", "kotlin", "groovy", "cpp", "c", "python", "rust", "node", "typescript"]

  const BuildSystems: seq<string> := ["bazel", "gradle", "both"]

  /** Licenses accepted without a warning. */
  const CommonLicenses: seq<string> :=
    ["MIT", "Apache-2.0", "GPL-3.0", "BSD-3-Clause", "Unlicense", "ISC", "LGPL-2.1", "MPL-2.0"]

  const LongNameLength := 50

  // ---------------------------------------------------------------------------
  // Project name
  // ---------------------------------------------------------------------------

  predicate IsAsciiLetter(c: char) {
    ('a' <= c <= 'z') || ('A' <= c <= 'Z')
  }

  predicate IsNameChar(c: char) {
    IsAsciiLetter(c) || ('0' <= c <= '9') || c == '_' || c == '-'
  }

  /** The whole name matches `[a-zA-Z][a-zA-Z0-9_-]*`. */
  predicate NamePattern(name: string) {
    |name| >= 1 && IsAsciiLetter(name[0]) && forall i :: 1 <= i < |name| ==> IsNameChar(name[i])
  }

  /**
    What `re.match(r'^[a-zA-Z][a-zA-Z0-9_-]*$', name)` accepts: Python's `$`
    also matches just before a newline that ends the string.
   */
  predicate NameMatchesAsWritten(name: string) {
    NamePattern(name) || (|name| >= 2 && name[|name| - 1] == '\n' && NamePattern(name[..|name| - 1]))
  }

  /** A name with a trailing newline passes the pattern as written but is not a name. */
  lemma TrailingNewlineAccepted()
    ensures NameMatchesAsWritten("demo\n") && !NamePattern("demo\n")
  {
    assert "demo\n"[..4] == "demo";
    assert !IsNameChar("demo\n"[4]);
  }

  const NameRequired := "Project name is required"
  const NameMalformed := "Project name must start with a letter and contain only letters, numbers, hyphens, and underscores"
  const NameLong := "Project name is quite long (>50 chars)"

  /**
    `_validate_project_name`, with the pattern matched against the whole name.
    An empty name and a malformed name are errors; a long one only warns.
   */
  function CheckName(v: Validator, name: string): (out: (bool, Validator))
    ensures out.0 <==> NamePattern(name)
    ensures out.0 ==> forall i :: 0 <= i < |name| ==> IsNameChar(name[i])
    ensures !out.0 ==> out.1 == v.(errors := v.errors + [if name == "" then NameRequired else NameMalformed])
    ensures out.0 ==> out.1.errors == v.errors
    ensures out.0 ==> out.1.warnings == v.warnings + (if |name| > LongNameLength then [NameLong] else [])
  {
    if name == "" then (false, v.(errors := v.errors + [NameRequired]))
    else if !NamePattern(name) then (false, v.(errors := v.errors + [NameMalformed]))
    else if |name| > LongNameLength then (true, v.(warnings := v.warnings + [NameLong]))
    else (true, v)
  }

  // ---------------------------------------------------------------------------
  // Language, build system, license
  // ---------------------------------------------------------------------------

  const LanguageRequired := "Programming language is required"
  const BuildSystemRequired := "Build system is required"
  const NoLicense := "No license specified"

  /** `_validate_language`: the language must be one of `Languages`. */
  function CheckLanguage(v: Validator, language: string): (out: (bool, Validator))
    ensures out.0 <==> language in Languages
    ensures out.0 ==> out.1 == v
    ensures !out.0 ==> out.1.warnings == v.warnings && |out.1.errors| == |v.errors| + 1
    ensures language == "" ==> out.1.errors == v.errors + [LanguageRequired]
    ensures !out.0 && language != "" ==> out.1.errors == v.errors + ["Unsupported language: " + language]
  {
    if language == "" then (false, v.(errors := v.errors + [LanguageRequired]))
    else if language !in Languages then (false, v.(errors := v.errors + ["Unsupported language: " + language]))
    else (true, v)
  }

  /** `_validate_build_system`: exactly one of bazel, gradle, both. */
  function CheckBuildSystem(v: Validator, buildSystem: string): (out: (bool, Validator))
    ensures out.0 <==> buildSystem in BuildSystems
    ensures out.0 ==> out.1 == v
    ensures !out.0 ==> out.1.warnings == v.warnings && |out.1.errors| == |v.errors| + 1
    ensures buildSystem == "" ==> out.1.errors == v.errors + [BuildSystemRequired]
    ensures !out.0 && buildSystem != "" ==> out.1.errors == v.errors + ["Invalid build system: " + buildSystem]
  {
    if buildSystem == "" then (false, v.(errors := v.errors + [BuildSystemRequired]))
    else if buildSystem !in BuildSystems then (false, v.(errors := v.errors + ["Invalid build system: " + buildSystem]))
    else (true, v)
  }

  /** `_validate_license`: never fails; a missing or uncommon license only warns. */
  function CheckLicense(v: Validator, license: string): (out: (bool, Validator))
    ensures out.0
    ensures out.1.errors == v.errors
    ensures license in CommonLicenses <==> out.1 == v
    ensures license == "" ==> out.1.warnings == v.warnings + [NoLicense]
    ensures license != "" && license !in CommonLicenses ==> out.1.warnings == v.warnings + ["Uncommon license: " + license]
  {
    if license == "" then (true, v.(warnings := v.warnings + [NoLicense]))
    else if license !in CommonLicenses then (true, v.(warnings := v.warnings + ["Uncommon license: " + license]))
    else (true, v)
  }

  /** A configuration value, `""` when the key is absent. */
  function Field(config: Dict<string>, key: string): (s: string)
    ensures key !in Keys(config) ==> s == ""
  {
    Get(config, key).GetOr("")
  }

  /**
    `validate_project_config`: the lists are cleared, then name, language,
    build system and license are checked in that order, the first failure
    ending the validation with its single error.
   */
  function ValidateConfig(config: Dict<string>): (out: (bool, Validator))
    ensures var name := Field(config, "project_name");
      out.0 <==> NamePattern(name) && Field(config, "language") in Languages && Field(config, "build_system") in BuildSystems
    ensures out.0 <==> out.1.errors == []
    ensures |out.1.errors| <= 1
    ensures var name := Field(config, "project_name");
      !NamePattern(name) ==> out.1 == Validator([if name == "" then NameRequired else NameMalformed], [])
    ensures !out.0 ==> |out.1.warnings| <= 1
  {
    var start := Validator([], []);
    var (nameOk, v1) := CheckName(start, Field(config, "project_name"));
    if !nameOk then (false, v1)
    else
      var (languageOk, v2) := CheckLanguage(v1, Field(config, "language"));
      if !languageOk then (false, v2)
      else
        var (buildOk, v3) := CheckBuildSystem(v2, Field(config, "build_system"));
        if !buildOk then (false, v3)
        else
          var (licenseOk, v4) := CheckLicense(v3, Field(config, "license_id"));
          (licenseOk && v4.errors == [], v4)
  }

  /** The license is consulted only once everything else has passed. */
  lemma LicenseLast(config: Dict<string>)
    requires Field(config, "license_id") !in CommonLicenses
    ensures var (ok, v) := ValidateConfig(config);
      ok <==> |v.warnings| == |CheckName(Validator([], []), Field(config, "project_name")).1.warnings| + 1
  {
  }

  /** The project names the test suite accepts and rejects. */
  lemma NameExamples(v: Validator)
    ensures CheckName(v, "my-project").0 && CheckName(v, "MyProject123").0 && CheckName(v, "project_name").0
    ensures !CheckName(v, "").0 && !CheckName(v, "123project").0 && !CheckName(v, "my project").0
  {
    assert !IsNameChar("my project"[2]);
    assert !IsAsciiLetter("123project"[0]);
  }

  /** The languages and build systems the test suite accepts and rejects. */
  lemma ChoiceExamples(v: Validator)
    ensures CheckLanguage(v, "python").0 && CheckLanguage(v, "java").0
    ensures !CheckLanguage(v, "invalid").0 && !CheckLanguage(v, "").0
    ensures CheckBuildSystem(v, "gradle").0 && CheckBuildSystem(v, "bazel").0 && CheckBuildSystem(v, "both").0
    ensures !CheckBuildSystem(v, "maven").0 && !CheckBuildSystem(v, "").0
  {
  }

  const GoodConfig: Dict<string> :=
    [("project_name", "test-project"), ("language", "python"), ("build_system", "gradle"), ("license_id", "MIT")]
  const BadConfig: Dict<string> :=
    [("project_name", "123invalid"), ("language", "invalid"), ("build_system", "invalid"), ("license_id", "MIT")]

  /** The test suite's valid configuration passes. */
  lemma GoodConfigExample()
    ensures ValidateConfig(GoodConfig).0
  {
    GoodConfigFields();
    TestProjectName();
    assert "python" in Languages && "gradle" in BuildSystems;
  }

  lemma TestProjectName()
    ensures NamePattern("test-project")
  {
    var name := "test-project";
    forall i | 1 <= i < |name| ensures IsNameChar(name[i]) { }
  }

  lemma GoodConfigFields()
    ensures Field(GoodConfig, "project_name") == "test-project"
    ensures Field(GoodConfig, "language") == "python"
    ensures Field(GoodConfig, "build_system") == "gradle"
  {
  }

  /** The test suite's invalid configuration fails on its name alone. */
  lemma BadConfigExample()
    ensures ValidateConfig(BadConfig) == (false, Validator([NameMalformed], []))
  {
    assert Field(BadConfig, "project_name") == "123invalid";
    assert !IsAsciiLetter("123invalid"[0]);
  }

  // ---------------------------------------------------------------------------
  // Manifest
  // ---------------------------------------------------------------------------

  const RequiredFields: seq<string> := ["name", "description", "version", "templates"]

  /** A `templates` entry: a mapping (with its keys) or any other value. */
  datatype Entry = EntryObject(keys: set<string>) | EntryOther

  /**
    The value under `templates`: one the loop can iterate, as the entries it
    yields (a list gives its items; a mapping its keys and a string its
    characters, none of them an object), or one it cannot (`null`, a number,
    a boolean), named by its Python type.
   */
  datatype Templates = Iterable(entries: seq<Entry>) | NotIterable(typeName: string)

  /**
    What reading a manifest gives: a mapping, a null document (an empty file),
    malformed YAML, or no file. `templates` matters only when `"templates"` is
    one of the keys.
   */
  datatype ManifestDoc = Mapping(keys: set<string>, templates: Templates) | NullDoc | BadYaml(error: string) | NoFile

  /** A `TypeError` the manifest check does not catch, and the errors recorded before it. */
  datatype Raised = Raised(message: string, state: Validator)

  /** The `TypeError` that `field not in manifest` raises on a null document. */
  const NoneNotIterable: string := "argument of type 'NoneType' is not iterable"

  /** The `TypeError` that `for template in ...` raises on a value it cannot iterate. */
  function NotIterableMessage(typeName: string): string {
    "'" + typeName + "' object is not iterable"
  }

  const MissingPrefix := "Missing required field in manifest: "

  /** The error for one absent required field; the field reads back from it. */
  function MissingMessage(field: string): (m: string)
    ensures StartsWith(m, MissingPrefix) && m[|MissingPrefix|..] == field
  {
    MissingPrefix + field
  }

  /**
    One error per absent field, in the order the fields are listed: a list of
    absent fields gives each its message, a list of present ones gives none,
    and MissingFieldsAppend puts the two together.
   */
  function MissingFields(keys: set<string>, fields: seq<string>): (errs: seq<string>)
    ensures |errs| <= |fields|
    ensures errs == [] <==> forall i :: 0 <= i < |fields| ==> fields[i] in keys
    ensures (forall i :: 0 <= i < |fields| ==> fields[i] !in keys) ==>
      |errs| == |fields| && forall i :: 0 <= i < |fields| ==> errs[i] == MissingMessage(fields[i])
    decreases |fields|
  {
    if |fields| == 0 then []
    else
      var first := if fields[0] in keys then [] else [MissingMessage(fields[0])];
      first + MissingFields(keys, fields[1..])
  }

  /** The errors for a list of fields are those of its two parts, in order. */
  lemma {:induction false} MissingFieldsAppend(keys: set<string>, a: seq<string>, b: seq<string>)
    ensures MissingFields(keys, a + b) == MissingFields(keys, a) + MissingFields(keys, b)
    decreases |a|
  {
    if |a| > 0 {
      assert (a + b)[1..] == a[1..] + b;
      MissingFieldsAppend(keys, a[1..], b);
    } else {
      assert a + b == b;
    }
  }

  /** A manifest with none of the required fields gets the four errors in order. */
  lemma NoRequiredField()
    ensures MissingFields({}, RequiredFields) ==
      [MissingMessage("name"), MissingMessage("description"), MissingMessage("version"), MissingMessage("templates")]
  {
  }

  predicate GoodEntry(e: Entry) {
    e.EntryObject? && "source" in e.keys && "target" in e.keys
  }

  const NotAnObject := "Template entries must be objects"
  const NoSourceTarget := "Template entries must have 'source' and 'target'"

  /** The error a bad entry gets: one for a non-object, the other for a mapping without both keys. */
  function EntryMessage(e: Entry): (m: string)
    requires !GoodEntry(e)
    ensures m == NotAnObject <==> e.EntryOther?
    ensures m == NoSourceTarget <==> e.EntryObject?
  {
    if e.EntryOther? then NotAnObject else NoSourceTarget
  }

  /**
    One error per bad entry, in order: a list of bad entries gives each its
    message, a list of good ones gives none, and EntryErrorsAppend puts the
    two together.
   */
  function EntryErrors(entries: seq<Entry>): (errs: seq<string>)
    ensures |errs| <= |entries|
    ensures errs == [] <==> forall i :: 0 <= i < |entries| ==> GoodEntry(entries[i])
    ensures (forall i :: 0 <= i < |entries| ==> !GoodEntry(entries[i])) ==>
      |errs| == |entries| && forall i :: 0 <= i < |entries| ==> errs[i] == EntryMessage(entries[i])
    decreases |entries|
  {
    if |entries| == 0 then []
    else
      var first := if GoodEntry(entries[0]) then [] else [EntryMessage(entries[0])];
      first + EntryErrors(entries[1..])
  }

  /** The errors for a list of entries are those of its two parts, in order. */
  lemma {:induction false} EntryErrorsAppend(a: seq<Entry>, b: seq<Entry>)
    ensures EntryErrors(a + b) == EntryErrors(a) + EntryErrors(b)
    decreases |a|
  {
    if |a| > 0 {
      assert (a + b)[1..] == a[1..] + b;
      EntryErrorsAppend(a[1..], b);
    } else {
      assert a + b == b;
    }
  }

  /** Whether the check reaches the `templates` loop and the loop raises. */
  predicate TemplatesRaise(doc: ManifestDoc) {
    doc.Mapping? && "templates" in doc.keys && doc.templates.NotIterable?
  }

  /** A manifest with every required field and only well-formed template entries. */
  predicate ManifestOk(doc: ManifestDoc) {
    && doc.Mapping?
    && (forall f :: f in RequiredFields ==> f in doc.keys)
    && doc.templates.Iterable?
    && forall i :: 0 <= i < |doc.templates.entries| ==> GoodEntry(doc.templates.entries[i])
  }

  /**
    `validate_template_manifest`. Unlike the configuration check it does not
    clear the lists: its errors are appended, and any error already recorded
    makes it fail. A null document, and a `templates` value the loop cannot
    iterate, raise a `TypeError`, which the method does not catch; the errors
    appended before the raise stay recorded.
   */
  function ValidateManifest(v: Validator, path: string, doc: ManifestDoc): (out: Result<(bool, Validator), Raised>)
    ensures out.Failure? <==> doc.NullDoc? || TemplatesRaise(doc)
    ensures doc.NullDoc? ==> out == Failure(Raised(NoneNotIterable, v))
    ensures TemplatesRaise(doc) ==>
      out == Failure(Raised(NotIterableMessage(doc.templates.typeName),
                            v.(errors := v.errors + MissingFields(doc.keys, RequiredFields))))
    ensures doc.Mapping? && out.Success? ==> out.value.1.errors == v.errors + MappingErrors(doc.keys, doc.templates)
    ensures out.Success? ==> out.value.1.warnings == v.warnings
    ensures out.Success? ==> |out.value.1.errors| >= |v.errors| && out.value.1.errors[..|v.errors|] == v.errors
    ensures out.Success? ==> (out.value.0 <==> v.errors == [] && ManifestOk(doc))
    ensures doc.NoFile? ==> out.Success? && out.value.1.errors == v.errors + ["Manifest file not found: " + path]
  {
    match doc
    case NullDoc => Failure(Raised(NoneNotIterable, v))
    case BadYaml(e) => Success((false, Record(v, ["Invalid YAML in manifest: " + e])))
    case NoFile => Success((false, Record(v, ["Manifest file not found: " + path])))
    case Mapping(keys, templates) =>
      if TemplatesRaise(doc) then
        Failure(Raised(NotIterableMessage(templates.typeName), Record(v, MissingFields(keys, RequiredFields))))
      else
        var v' := Record(v, MappingErrors(keys, templates));
        MappingErrorsEmpty(keys, templates);
        Success((v'.errors == [], v'))
  }

  /** Errors appended to a validator: its warnings and earlier errors are kept. */
  function Record(v: Validator, errs: seq<string>): (v': Validator)
    ensures v'.warnings == v.warnings && v'.errors == v.errors + errs
    ensures v'.errors[..|v.errors|] == v.errors
    ensures v'.errors == [] <==> v.errors == [] && errs == []
  {
    v.(errors := v.errors + errs)
  }

  /**
    The errors a mapping whose `templates` loop does not raise gets: the
    missing-field errors, then, when there is a `templates` key, the entry
    errors.
   */
  function MappingErrors(keys: set<string>, templates: Templates): seq<string>
    requires !("templates" in keys && templates.NotIterable?)
  {
    MissingFields(keys, RequiredFields) + (if "templates" in keys then EntryErrors(templates.entries) else [])
  }

  /** Such a mapping gets no error exactly when it is a well-formed manifest. */
  lemma MappingErrorsEmpty(keys: set<string>, templates: Templates)
    requires !("templates" in keys && templates.NotIterable?)
    ensures MappingErrors(keys, templates) == [] <==> ManifestOk(Mapping(keys, templates))
  {
    var missing := MissingFields(keys, RequiredFields);
    assert missing == [] <==> forall f :: f in RequiredFields ==> f in keys;
  }

  /**
    A manifest without `description` and `version`, whose entries are a
    string and a mapping with only `source`, gets four errors in order.
   */
  lemma ManifestErrorsExample(v: Validator)
    ensures var doc := Mapping({"name", "templates"}, Iterable([EntryOther, EntryObject({"source"})]));
      ValidateManifest(v, "manifest.yaml", doc) == Success((false, v.(errors := v.errors +
        [MissingMessage("description"), MissingMessage("version"), NotAnObject, NoSourceTarget])))
  {
    var keys := {"name", "templates"};
    assert "description" !in keys && "version" !in keys;
    assert MissingFields(keys, ["templates"]) == [];
    assert MissingFields(keys, RequiredFields) == [MissingMessage("description"), MissingMessage("version")];
    assert "target" !in {"source"};
    assert EntryErrors([EntryOther, EntryObject({"source"})]) == [NotAnObject, NoSourceTarget];
    var errs := MappingErrors(keys, Iterable([EntryOther, EntryObject({"source"})]));
    assert errs == [MissingMessage("description"), MissingMessage("version"), NotAnObject, NoSourceTarget];
    assert Record(v, errs).errors != [];
  }

  // ---------------------------------------------------------------------------
  // Report
  // ---------------------------------------------------------------------------

  const ErrorsHeading := "❌ Errors:"
  const WarningsHeading := "⚠️  Warnings:"
  const AllPassed := "✅ All validations passed!"

  function Bullet(message: string): (line: string)
    ensures StartsWith(line, "  • ") && line[0] == ' '
  {
    "  • " + message
  }

  function Bullets(messages: seq<string>): (lines: seq<string>)
    ensures |lines| == |messages|
    ensures forall i :: 0 <= i < |messages| ==> lines[i] == Bullet(messages[i])
  {
    seq(|messages|, i requires 0 <= i < |messages| => Bullet(messages[i]))
  }

  function Section(heading: string, messages: seq<string>): (lines: seq<string>)
    ensures messages == [] ==> lines == []
    ensures messages != [] ==> |lines| == |messages| + 1 && lines[0] == heading && lines[1..] == Bullets(messages)
  {
    if messages == [] then [] else [heading] + Bullets(messages)
  }

  /** The report's lines: errors, then warnings, or the all-clear line when there are neither. */
  function ReportLines(v: Validator): (lines: seq<string>)
    ensures lines == Section(ErrorsHeading, v.errors) + Section(WarningsHeading, v.warnings)
                     + (if v.errors == [] && v.warnings == [] then [AllPassed] else [])
  {
    if v.errors == [] && v.warnings == [] then [AllPassed]
    else Section(ErrorsHeading, v.errors) + Section(WarningsHeading, v.warnings)
  }

  /** `get_validation_report`. */
  function Report(v: Validator): (r: string)
    ensures v.errors == [] && v.warnings == [] ==> r == AllPassed
  {
    Join(ReportLines(v), "\n")
  }

  /** No line of a section can be taken for the all-clear line. */
  lemma SectionNotPassed(heading: string, messages: seq<string>)
    requires |heading| > 0 && heading[0] != AllPassed[0]
    ensures AllPassed !in Section(heading, messages)
  {
  }

  /** The all-clear line appears exactly when there is nothing to report. */
  lemma AllPassedIff(v: Validator)
    ensures AllPassed in ReportLines(v) <==> v.errors == [] && v.warnings == []
  {
    if v.errors != [] || v.warnings != [] {
      SectionNotPassed(ErrorsHeading, v.errors);
      SectionNotPassed(WarningsHeading, v.warnings);
    }
  }
}

=== FILE: vm_control.dfy ===
/**
  The VM half of the devstack manager's backend: which virtualisation tool is
  in charge, how list/start/stop/status requests are dispatched to it, and how
  each tool's text output is read back into VM records and status reports.

  Running a tool is a parameter: `run` maps a command line to its outcome, the
  standard output of a run that succeeded or the error text of one that failed.
 */
module VmControl {
  import opened Wrappers
  import opened Text
  import opened Dicts

  // ---------------------------------------------------------------------------
  // Providers
  // ---------------------------------------------------------------------------

  datatype Provider = VirtualBox | Libvirt | Vagrant | NoProvider

  function ProviderName(p: Provider): string {
    match p
    case VirtualBox => "virtualbox"
    case Libvirt => "libvirt"
    case Vagrant => "vagrant"
    case NoProvider => "none"
  }

  /** The command-line tools probed, in priority order, and the provider each one selects. */
  const ToolOrder: seq<string> := ["VBoxManage", "virsh", "vagrant"]
  const Providers: seq<Provider> := [VirtualBox, Libvirt, Vagrant]

  /** The tool that drives a provider. */
  function Tool(p: Provider): string
    requires p != NoProvider
  {
    if p == VirtualBox then ToolOrder[0] else if p == Libvirt then ToolOrder[1] else ToolOrder[2]
  }

  /** Index of the first element satisfying `p`. */
  function First<T>(xs: seq<T>, p: T -> bool): (r: Option<nat>)
    ensures r.None? <==> forall i :: 0 <= i < |xs| ==> !p(xs[i])
    ensures r.Some? ==> r.value < |xs| && p(xs[r.value])
    ensures r.Some? ==> forall i :: 0 <= i < r.value ==> !p(xs[i])
  {
    if |xs| == 0 then None
    else if p(xs[0]) then Some(0)
    else match First(xs[1..], p)
      case None => None
      case Some(i) => Some(i + 1)
  }

  /** The provider chosen at construction from the tools found on the path. */
  function DetectProvider(onPath: set<string>): (p: Provider)
    ensures p == match First(ToolOrder, t => t in onPath)
      case None => NoProvider
      case Some(i) => Providers[i]
    ensures p != NoProvider ==> Tool(p) in onPath
  {
    var first := First(ToolOrder, t => t in onPath);
    assert ToolOrder[0] == "VBoxManage" && ToolOrder[1] == "virsh" && ToolOrder[2] == "vagrant";
    if "VBoxManage" in onPath then VirtualBox
    else if "virsh" in onPath then Libvirt
    else if "vagrant" in onPath then Vagrant
    else NoProvider
  }

  // ---------------------------------------------------------------------------
  // Commands and reports
  // ---------------------------------------------------------------------------

  datatype Outcome = Completed(stdout: string) | Failed(error: string)

  /** What running a command line produces. */
  type Runner = seq<string> -> Outcome

  /**
    Whether a command line can be started at all: `Some(e)` when launching it
    raises (the tool is missing, say), with `e` the exception's text.
   */
  type Launcher = seq<string> -> Option<string>

  /** A JSON-like response: string keys and string values in insertion order. */
  type Report = Dict<string>

  const NoProviderMessage := "No VM provider available"

  function ErrorReport(message: string): Report {
    [("status", "error"), ("message", message)]
  }

  function NotFound(name: string): Report {
    [("status", "not_found"), ("name", name)]
  }

  datatype Power = Start | Stop

  /** The status a successful power change reports. */
  function Done(power: Power): string {
    if power == Start then "started" else "stopped"
  }

  function FailurePrefix(power: Power): string {
    if power == Start then "Failed to start VM: " else "Failed to stop VM: "
  }

  /** The command line that starts or stops a VM with a provider's tool. */
  function Command(p: Provider, power: Power, name: string): (cmd: seq<string>)
    requires p != NoProvider
    ensures |cmd| >= 3 && cmd[0] == Tool(p) && cmd[2] == name
  {
    match power
    case Start =>
      if p == VirtualBox then ["VBoxManage", "startvm", name, "--type", "headless"]
      else if p == Libvirt then ["virsh", "start", name]
      else ["vagrant", "up", name]
    case Stop =>
      if p == VirtualBox then ["VBoxManage", "controlvm", name, "poweroff"]
      else if p == Libvirt then ["virsh", "shutdown", name]
      else ["vagrant", "halt", name]
  }

  /**
    `start_vm` and `stop_vm`: the provider's tool is run once; success reports
    the new state with the VM and provider names, failure reports an error.
   */
  function Control(p: Provider, power: Power, name: string, run: Runner): (r: Report)
    ensures Get(r, "status") == Some("error") <==> p == NoProvider || run(Command(p, power, name)).Failed?
    ensures Get(r, "status") == Some(Done(power)) <==> p != NoProvider && run(Command(p, power, name)).Completed?
    ensures Get(r, "status") == Some(Done(power)) ==>
      Get(r, "name") == Some(name) && Get(r, "provider") == Some(ProviderName(p))
    ensures p == NoProvider ==> Get(r, "message") == Some(NoProviderMessage)
    ensures p != NoProvider && run(Command(p, power, name)).Failed? ==>
      Get(r, "message") == Some(FailurePrefix(power) + run(Command(p, power, name)).error)
  {
    if p == NoProvider then ErrorReport(NoProviderMessage)
    else match run(Command(p, power, name))
      case Completed(_) => [("status", Done(power)), ("name", name), ("provider", ProviderName(p))]
      case Failed(e) => ErrorReport(FailurePrefix(power) + e)
  }

  // ---------------------------------------------------------------------------
  // Status reports: `key=value` (VirtualBox) and `Key: value` (libvirt) lines
  // ---------------------------------------------------------------------------

  /** Reads one output line into at most one report entry. */
  type FieldReader = string -> Option<(string, string)>

  /** The entries the lines yield, in order; assigning them in turn builds the report. */
  function Fields(lines: seq<string>, field: FieldReader): (kvs: seq<(string, string)>)
    decreases |lines|
  {
    if |lines| == 0 then []
    else (match field(lines[0]) case None => [] case Some(kv) => [kv]) + Fields(lines[1..], field)
  }

  lemma {:induction false} FieldsAppend(a: seq<string>, b: seq<string>, field: FieldReader)
    ensures Fields(a + b, field) == Fields(a, field) + Fields(b, field)
    decreases |a|
  {
    if |a| > 0 {
      assert (a + b)[0] == a[0];
      assert (a + b)[1..] == a[1..] + b;
      FieldsAppend(a[1..], b, field);
    } else {
      assert a + b == b;
    }
  }

  /** A key no line produces is not among the entries. */
  lemma {:induction false} FieldsWithout(lines: seq<string>, field: FieldReader, k: string)
    requires forall i :: 0 <= i < |lines| ==> field(lines[i]).None? || field(lines[i]).value.0 != k
    ensures k !in Keys(Fields(lines, field))
    decreases |lines|
  {
    if |lines| > 0 {
      FieldsWithout(lines[1..], field, k);
      var head := match field(lines[0]) case None => [] case Some(kv) => [kv];
      assert Keys(head + Fields(lines[1..], field)) == Keys(head) + Keys(Fields(lines[1..], field));
    }
  }

  /** The report a status command's output fills in, starting from `base`. */
  function FillReport(base: Report, stdout: string, field: FieldReader): (r: Report)
    ensures forall k {:trigger Get(r, k)} ::
      Get(r, k) == (var last := LastValue(Fields(Split(stdout, '\n'), field), k); if last.Some? then last else Get(base, k))
  {
    var kvs := Fields(Split(stdout, '\n'), field);
    assert forall k {:trigger Get(PutAll(base, kvs), k)} ::
      Get(PutAll(base, kvs), k) == (if LastValue(kvs, k).Some? then LastValue(kvs, k) else Get(base, k))
    by {
      forall k ensures Get(PutAll(base, kvs), k) == (if LastValue(kvs, k).Some? then LastValue(kvs, k) else Get(base, k)) {
        GetPutAll(base, kvs, k);
      }
    }
    PutAll(base, kvs)
  }

  /** A key the lines never produce keeps the value `base` gave it. */
  lemma FillReportKeeps(base: Report, stdout: string, field: FieldReader, k: string)
    requires forall line :: field(line).None? || field(line).value.0 != k
    ensures Get(FillReport(base, stdout, field), k) == Get(base, k)
  {
    var lines := Split(stdout, '\n');
    FieldsWithout(lines, field, k);
    GetPutAll(base, Fields(lines, field), k);
  }

  /** The value of the last line that produces `k` is the one the report holds. */
  lemma FillReportLast(base: Report, stdout: string, field: FieldReader,
                       before: seq<string>, line: string, after: seq<string>, k: string, v: string)
    requires Split(stdout, '\n') == before + [line] + after
    requires field(line) == Some((k, v))
    requires forall i :: 0 <= i < |after| ==> field(after[i]).None? || field(after[i]).value.0 != k
    ensures Get(FillReport(base, stdout, field), k) == Some(v)
  {
    FieldsAppend(before + [line], after, field);
    FieldsAppend(before, [line], field);
    assert Fields([line], field) == [(k, v)];
    var kvs := Fields(before, field) + [(k, v)];
    FieldsWithout(after, field, k);
    LastValueAppend(kvs, Fields(after, field), k);
    assert LastValue(kvs, k) == Some(v);
    GetPutAll(base, kvs + Fields(after, field), k);
  }

  /** The text after the `=` that follows `key` (Python's `line.split('=')[1]`). */
  function AfterEquals(line: string, key: string): (r: string)
    requires StartsWith(line, key + "=")
  {
    assert line[|key|] == (key + "=")[|key|];
    Split(line, '=')[1]
  }

  /** With an `=`-free key, the value runs up to the next `=` or the end of the line. */
  lemma AfterEqualsOf(key: string, value: string)
    requires '=' !in key && '=' !in value
    ensures StartsWith(key + "=" + value, key + "=")
    ensures AfterEquals(key + "=" + value, key) == value
  {
    var line := key + "=" + value;
    assert line[..|key| + 1] == key + "=";
    assert line == key + ['='] + value;
    SplitOnceOf(key, '=', value);
    assert line[|key|] == '=';
    var k := IndexOf(line, '=');
    assert forall j :: 0 <= j < |key| ==> line[j] == key[j];
    assert k == |key|;
    assert line[k + 1..] == value;
    assert Split(value, '=') == [value];
  }

  const Quote: set<char> := {'"'}

  /** `VMState="running"` gives `running`: the quotes are stripped. */
  lemma UnquoteOf(value: string)
    requires '"' !in value
    ensures StripChars("\"" + value + "\"", Quote) == value
  {
    LStripQuote(value);
    if |value| == 0 {
      assert RStripChars("", Quote) == "";
    } else {
      RStripQuote(value);
    }
  }

  lemma LStripQuote(value: string)
    requires '"' !in value
    ensures LStripChars("\"" + value + "\"", Quote) == if |value| == 0 then "" else value + "\""
  {
    var q := "\"" + value + "\"";
    var rest := value + "\"";
    assert q[0] == '"' && q[1..] == rest;
    assert LStripChars(q, Quote) == LStripChars(rest, Quote);
    if |value| == 0 {
      assert rest[0] == '"' && rest[1..] == "";
    } else {
      assert rest[0] == value[0];
      assert value[0] in value;
    }
  }

  lemma RStripQuote(value: string)
    requires '"' !in value && |value| > 0
    ensures RStripChars(value + "\"", Quote) == value
  {
    var v := value + "\"";
    assert v[..|v| - 1] == value;
    assert value[|value| - 1] in value;
  }

  const VmStateKey := "VMState"
  const MemoryKey := "memory"
  const CpusKey := "cpus"

  /** One line of `VBoxManage showvminfo --machinereadable` in the status report. */
  function VBoxField(line: string): (f: Option<(string, string)>)
    ensures f.Some? ==> f.value.0 in {"status", "memory", "cpus"}
    ensures f.Some? && f.value.0 == "status" ==> StartsWith(line, VmStateKey + "=")
  {
    if StartsWith(line, VmStateKey + "=") then Some(("status", StripChars(AfterEquals(line, VmStateKey), Quote)))
    else if StartsWith(line, MemoryKey + "=") then Some(("memory", AfterEquals(line, MemoryKey)))
    else if StartsWith(line, CpusKey + "=") then Some(("cpus", AfterEquals(line, CpusKey)))
    else None
  }

  function VBoxInfoCommand(vm: string): seq<string> {
    ["VBoxManage", "showvminfo", vm, "--machinereadable"]
  }

  function VBoxStatus(name: string, run: Runner): (r: Report)
    ensures run(VBoxInfoCommand(name)).Failed? ==> r == NotFound(name)
    ensures Get(r, "name") == Some(name)
    ensures run(VBoxInfoCommand(name)).Completed? ==> Get(r, "provider") == Some("virtualbox")
  {
    match run(VBoxInfoCommand(name))
    case Failed(_) => NotFound(name)
    case Completed(out) =>
      var base := [("name", name), ("provider", "virtualbox")];
      FillReportKeeps(base, out, VBoxField, "name");
      FillReportKeeps(base, out, VBoxField, "provider");
      FillReport(base, out, VBoxField)
  }

  /** A `VMState="<value>"` line yields the unquoted value as the status. */
  lemma VBoxStateLine(value: string)
    requires '"' !in value && '=' !in value
    ensures VBoxField(VmStateKey + "=\"" + value + "\"") == Some(("status", value))
  {
    var quoted := "\"" + value + "\"";
    assert VmStateKey + "=\"" + value + "\"" == VmStateKey + "=" + quoted;
    AfterEqualsOf(VmStateKey, quoted);
    UnquoteOf(value);
  }

  /** The status is the quoted value of the last `VMState=` line. */
  lemma VBoxStatusOf(name: string, run: Runner, before: seq<string>, value: string, after: seq<string>)
    requires run(VBoxInfoCommand(name)).Completed?
    requires Split(run(VBoxInfoCommand(name)).stdout, '\n') == before + [VmStateKey + "=\"" + value + "\""] + after
    requires '"' !in value && '=' !in value
    requires forall i :: 0 <= i < |after| ==> !StartsWith(after[i], VmStateKey + "=")
    ensures Get(VBoxStatus(name, run), "status") == Some(value)
  {
    VBoxStateLine(value);
    FillReportLast([("name", name), ("provider", "virtualbox")], run(VBoxInfoCommand(name)).stdout, VBoxField,
                   before, VmStateKey + "=\"" + value + "\"", after, "status", value);
  }

  /** The text after the first `:`, stripped (Python's `line.split(':', 1)[1].strip()`). */
  function AfterColon(line: string): string
    requires ':' in line
  {
    Strip(SplitOnce(line, ':')[1])
  }

  /** One line of `virsh dominfo` in the status report. */
  function LibvirtField(line: string): (f: Option<(string, string)>)
    ensures f.Some? ==> f.value.0 in {"status", "max_memory", "used_memory", "cpus"}
    ensures f.Some? && f.value.0 == "status" ==> StartsWith(line, "State:")
  {
    if StartsWith(line, "State:") then
      assert line[5] == "State:"[5];
      Some(("status", AfterColon(line)))
    else if StartsWith(line, "Max memory:") then
      assert line[10] == "Max memory:"[10];
      Some(("max_memory", AfterColon(line)))
    else if StartsWith(line, "Used memory:") then
      assert line[11] == "Used memory:"[11];
      Some(("used_memory", AfterColon(line)))
    else if StartsWith(line, "CPU(s):") then
      assert line[6] == "CPU(s):"[6];
      Some(("cpus", AfterColon(line)))
    else None
  }

  function DominfoCommand(vm: string): seq<string> {
    ["virsh", "dominfo", vm]
  }

  function LibvirtStatus(name: string, run: Runner): (r: Report)
    ensures run(DominfoCommand(name)).Failed? ==> r == NotFound(name)
    ensures Get(r, "name") == Some(name)
    ensures run(DominfoCommand(name)).Completed? ==> Get(r, "provider") == Some("libvirt")
  {
    match run(DominfoCommand(name))
    case Failed(_) => NotFound(name)
    case Completed(out) =>
      var base := [("name", name), ("provider", "libvirt")];
      FillReportKeeps(base, out, LibvirtField, "name");
      FillReportKeeps(base, out, LibvirtField, "provider");
      FillReport(base, out, LibvirtField)
  }

  /** A `State:<value>` line yields the stripped value as the status. */
  lemma LibvirtStateLine(value: string)
    ensures LibvirtField("State:" + value) == Some(("status", Strip(value)))
  {
    var line := "State:" + value;
    assert line == "State" + [':'] + value;
    SplitOnceOf("State", ':', value);
    assert line[..6] == "State:";
  }

  /** The status is the stripped text after `State:` on the last such line. */
  lemma LibvirtStatusOf(name: string, run: Runner, before: seq<string>, value: string, after: seq<string>)
    requires run(DominfoCommand(name)).Completed?
    requires Split(run(DominfoCommand(name)).stdout, '\n') == before + ["State:" + value] + after
    requires forall i :: 0 <= i < |after| ==> !StartsWith(after[i], "State:")
    ensures Get(LibvirtStatus(name, run), "status") == Some(Strip(value))
  {
    LibvirtStateLine(value);
    FillReportLast([("name", name), ("provider", "libvirt")], run(DominfoCommand(name)).stdout, LibvirtField,
                   before, "State:" + value, after, "status", Strip(value));
  }

  /** A line of `vagrant status <name>` that mentions the VM and has a state after its first word. */
  predicate StatusLine(line: string, name: string) {
    Contains(line, name) && |SplitWs(line)| >= 2
  }

  /** Some line of the output is a status line for the VM. */
  predicate HasStatusLine(lines: seq<string>, name: string) {
    exists i :: 0 <= i < |lines| && StatusLine(lines[i], name)
  }

  /** The state words of the first status line, joined by spaces. */
  function FirstStatus(lines: seq<string>, name: string): (r: Option<string>)
    ensures r.Some? <==> HasStatusLine(lines, name)
  {
    var found := First(lines, line => StatusLine(line, name));
    assert found.None? <==> forall i :: 0 <= i < |lines| ==> !StatusLine(lines[i], name);
    match found
    case None => None
    case Some(i) => Some(Join(SplitWs(lines[i])[1..], " "))
  }

  /** The report of a VM whose state Vagrant printed. */
  function VagrantFound(name: string, status: string): (r: Report)
    ensures Get(r, "name") == Some(name) && Get(r, "status") == Some(status) && Get(r, "provider") == Some("vagrant")
  {
    [("name", name), ("status", status), ("provider", "vagrant")]
  }

  lemma NotFoundFields(name: string)
    ensures Get(NotFound(name), "name") == Some(name) && Get(NotFound(name), "provider") == None
  {
  }

  function VagrantStatusCommand(vm: string): seq<string> {
    ["vagrant", "status", vm]
  }

  /** The report read from the lines of `vagrant status <name>`. */
  function VagrantLinesReport(name: string, lines: seq<string>): (r: Report)
    ensures Get(r, "name") == Some(name)
    ensures Get(r, "provider") == Some("vagrant") <==> HasStatusLine(lines, name)
    ensures Get(r, "provider") != Some("vagrant") ==> r == NotFound(name)
    ensures Get(r, "provider") == Some("vagrant") ==> Get(r, "status") == FirstStatus(lines, name)
  {
    NotFoundFields(name);
    var status := FirstStatus(lines, name);
    if status.None? then NotFound(name) else VagrantFound(name, status.value)
  }

  /** `_get_vagrant_vm_status` once the command has run: `not_found` unless some line names the VM with a state. */
  function VagrantStatusOf(name: string, outcome: Outcome): (r: Report)
    ensures outcome.Failed? ==> r == NotFound(name)
    ensures Get(r, "name") == Some(name)
    ensures outcome.Completed? ==>
      var lines := Split(outcome.stdout, '\n');
      (Get(r, "provider") == Some("vagrant") <==> HasStatusLine(lines, name))
      && (Get(r, "provider") != Some("vagrant") ==> r == NotFound(name))
      && (Get(r, "provider") == Some("vagrant") ==> Get(r, "status") == FirstStatus(lines, name))
  {
    NotFoundFields(name);
    if outcome.Failed? then NotFound(name)
    else VagrantLinesReport(name, Split(outcome.stdout, '\n'))
  }

  /** `_get_vagrant_vm_status`: runs `vagrant status <name>` and reads its output. */
  function VagrantStatus(name: string, run: Runner): (r: Report)
    ensures Get(r, "name") == Some(name)
    ensures run(["vagrant", "status", name]).Failed? ==> r == NotFound(name)
    ensures Get(r, "provider") == Some("vagrant") <==>
      run(["vagrant", "status", name]).Completed? && HasStatusLine(Split(run(["vagrant", "status", name]).stdout, '\n'), name)
  {
    VagrantStatusOf(name, run(VagrantStatusCommand(name)))
  }

  // ---------------------------------------------------------------------------
  // Listing
  // ---------------------------------------------------------------------------

  /** A VM as `list_vms` reports it; each provider reports its own fields. */
  datatype Vm =
    | VBoxVm(name: string, uuid: string, status: string)
    | LibvirtVm(name: string, domainId: Option<string>, status: string)
    | VagrantVm(name: string, machineId: string, status: string, directory: string)
    | ListError(message: string)

  function VmProvider(vm: Vm): Provider {
    match vm
    case VBoxVm(_, _, _) => VirtualBox
    case LibvirtVm(_, _, _) => Libvirt
    case VagrantVm(_, _, _, _) => Vagrant
    case ListError(_) => NoProvider
  }

  /** Every entry is a VM of provider `p` or an error. */
  predicate ListedBy(vms: seq<Vm>, p: Provider) {
    forall i :: 0 <= i < |vms| ==> vms[i].ListError? || VmProvider(vms[i]) == p
  }

  const VBoxSeparator := "\" {"
  const Brace: set<char> := {'}'}

  /** One line of `VBoxManage list vms`, `"<name>" {<uuid>}`, read as (name, uuid). */
  function VBoxLine(line: string): Option<(string, string)> {
    var parts := SplitOn(line, VBoxSeparator);
    if |parts| == 2 then Some((StripChars(parts[0], Quote), RStripChars(parts[1], Brace))) else None
  }

  /** The line `VBoxManage list vms` prints for a VM. */
  function VBoxListLine(name: string, uuid: string): string {
    "\"" + name + VBoxSeparator + uuid + "}"
  }

  /** In a listing line the separator occurs only after the name. */
  lemma VBoxSeparatorOnce(name: string, uuid: string, i: int)
    requires '"' !in name && '{' !in name && '"' !in uuid
    requires OccursAt("\"" + name + VBoxSeparator + (uuid + "}"), VBoxSeparator, i)
    ensures i == |name| + 1
  {
    var line := "\"" + name + VBoxSeparator + (uuid + "}");
    assert line[i..i + 3] == VBoxSeparator;
    assert line[i] == '"' && line[i + 1] == ' ' && line[i + 2] == '{';
    assert forall j :: 1 <= j <= |name| ==> line[j] == name[j - 1];
    assert forall j :: |name| + 4 <= j < |line| - 1 ==> line[j] == uuid[j - |name| - 4];
    assert line[|name| + 2] == ' ' && line[|name| + 3] == '{' && line[|line| - 1] == '}';
    if |name| == 0 {
      assert line[1] == '"';
    } else if |name| == 1 {
      assert line[2] == '"';
    } else {
      assert line[2] == name[1];
    }
  }

  lemma StripLeadingQuote(name: string)
    requires '"' !in name
    ensures StripChars("\"" + name, Quote) == name
  {
    var q := "\"" + name;
    assert q[0] == '"' && q[1..] == name;
    assert LStripChars(q, Quote) == LStripChars(name, Quote);
    if |name| > 0 {
      assert name[0] in name && name[|name| - 1] in name;
    }
  }

  lemma StripClosingBrace(uuid: string)
    requires |uuid| == 0 || uuid[|uuid| - 1] != '}'
    ensures RStripChars(uuid + "}", Brace) == uuid
  {
    var b := uuid + "}";
    assert b[..|b| - 1] == uuid;
  }

  /** Reading a listing line gives back the name and uuid it was printed from. */
  lemma VBoxLineOf(name: string, uuid: string)
    requires '"' !in name && '{' !in name && '"' !in uuid
    requires |uuid| == 0 || uuid[|uuid| - 1] != '}'
    ensures VBoxLine(VBoxListLine(name, uuid)) == Some((name, uuid))
  {
    var head := "\"" + name;
    var tail := uuid + "}";
    assert VBoxListLine(name, uuid) == head + VBoxSeparator + tail;
    forall i | OccursAt(head + VBoxSeparator + tail, VBoxSeparator, i) ensures i == |head| {
      VBoxSeparatorOnce(name, uuid, i);
    }
    SplitOnAt(head, VBoxSeparator, tail);
    StripLeadingQuote(name);
    StripClosingBrace(uuid);
  }

  /** The state `showvminfo` reports for a VM: the first `VMState=` line, else "unknown". */
  function VBoxState(info: Outcome): (state: string)
    ensures info.Failed? ==> state == "unknown"
    ensures info.Completed? ==>
      ((forall i :: 0 <= i < |Split(info.stdout, '\n')| ==> !StartsWith(Split(info.stdout, '\n')[i], VmStateKey + "="))
       ==> state == "unknown")
  {
    match info
    case Failed(_) => "unknown"
    case Completed(out) =>
      var lines := Split(out, '\n');
      match First(lines, line => StartsWith(line, VmStateKey + "="))
      case None => "unknown"
      case Some(i) => StripChars(AfterEquals(lines[i], VmStateKey), Quote)
  }

  /** The first `VMState="<value>"` line decides the state. */
  lemma VBoxStateOf(out: string, before: seq<string>, value: string, after: seq<string>)
    requires Split(out, '\n') == before + [VmStateKey + "=\"" + value + "\""] + after
    requires '"' !in value && '=' !in value
    requires forall i :: 0 <= i < |before| ==> !StartsWith(before[i], VmStateKey + "=")
    ensures VBoxState(Completed(out)) == value
  {
    var lines := Split(out, '\n');
    var line := VmStateKey + "=\"" + value + "\"";
    VBoxStateLine(value);
    assert lines[|before|] == line;
    assert forall i :: 0 <= i < |before| ==> lines[i] == before[i];
  }

  /** The VMs of a `VBoxManage list vms` listing, each with the state `showvminfo` gives for its uuid. */
  function VBoxEntries(lines: seq<string>, run: Runner): (vms: seq<Vm>)
    ensures |vms| <= |lines|
    ensures forall i :: 0 <= i < |vms| ==> vms[i].VBoxVm?
    decreases |lines|
  {
    if |lines| == 0 then []
    else
      var here := if lines[0] != "" && VBoxLine(lines[0]).Some? then
        var (name, uuid) := VBoxLine(lines[0]).value;
        [VBoxVm(name, uuid, VBoxState(run(VBoxInfoCommand(uuid))))]
      else [];
      here + VBoxEntries(lines[1..], run)
  }

  /** A (name, uuid) pair `VBoxManage list vms` prints unambiguously. */
  predicate Printable(vm: (string, string)) {
    '"' !in vm.0 && '{' !in vm.0 && '"' !in vm.1 && (|vm.1| == 0 || vm.1[|vm.1| - 1] != '}')
  }

  function VBoxListing(vms: seq<(string, string)>): (lines: seq<string>)
    decreases |vms|
  {
    if |vms| == 0 then [] else [VBoxListLine(vms[0].0, vms[0].1)] + VBoxListing(vms[1..])
  }

  /** The VMs a listing describes, each with the state `showvminfo` gives for its uuid. */
  function Described(vms: seq<(string, string)>, run: Runner): (out: seq<Vm>)
    decreases |vms|
  {
    if |vms| == 0 then []
    else [VBoxVm(vms[0].0, vms[0].1, VBoxState(run(VBoxInfoCommand(vms[0].1))))] + Described(vms[1..], run)
  }

  /** A readable line contributes its VM ahead of the rest. */
  lemma VBoxEntriesCons(line: string, rest: seq<string>, run: Runner)
    requires line != "" && VBoxLine(line).Some?
    ensures VBoxEntries([line] + rest, run)
      == [VBoxVm(VBoxLine(line).value.0, VBoxLine(line).value.1, VBoxState(run(VBoxInfoCommand(VBoxLine(line).value.1))))]
         + VBoxEntries(rest, run)
  {
    assert ([line] + rest)[0] == line && ([line] + rest)[1..] == rest;
  }

  /** Reading a printed listing gives every VM back, in order. */
  lemma {:induction false} VBoxEntriesOf(vms: seq<(string, string)>, run: Runner)
    requires forall i :: 0 <= i < |vms| ==> Printable(vms[i])
    ensures VBoxEntries(VBoxListing(vms), run) == Described(vms, run)
    decreases |vms|
  {
    if |vms| > 0 {
      var (name, uuid) := vms[0];
      assert Printable(vms[0]);
      VBoxLineOf(name, uuid);
      var line := VBoxListLine(name, uuid);
      assert line[0] == '"';
      VBoxEntriesCons(line, VBoxListing(vms[1..]), run);
      assert forall i :: 0 <= i < |vms| - 1 ==> vms[1..][i] == vms[i + 1];
      VBoxEntriesOf(vms[1..], run);
    }
  }

  /** A listing line that names a VM, so `showvminfo` is run on its uuid. */
  predicate Readable(line: string) {
    line != "" && VBoxLine(line).Some?
  }

  /**
    The first exception raised by starting a `showvminfo` call for the
    listing's lines, in order, or `None` when every call starts.
   */
  function VBoxFault(lines: seq<string>, launch: Launcher): (r: Option<string>)
    ensures r.None? <==>
      forall i :: 0 <= i < |lines| && Readable(lines[i]) ==> launch(VBoxInfoCommand(VBoxLine(lines[i]).value.1)).None?
    ensures r.Some? ==> exists i :: 0 <= i < |lines| && Readable(lines[i]) && launch(VBoxInfoCommand(VBoxLine(lines[i]).value.1)) == r
    decreases |lines|
  {
    if |lines| == 0 then None
    else if Readable(lines[0]) && launch(VBoxInfoCommand(VBoxLine(lines[0]).value.1)).Some? then
      launch(VBoxInfoCommand(VBoxLine(lines[0]).value.1))
    else
      var r := VBoxFault(lines[1..], launch);
      assert forall i :: 1 <= i < |lines| ==> lines[i] == lines[1..][i - 1];
      r
  }

  const VBoxListCommand: seq<string> := ["VBoxManage", "list", "vms"]

  /**
    One `showvminfo` call that cannot be started loses the whole listing:
    the result is the single catch-all entry, whatever the other VMs are.
   */
  lemma InfoFaultDropsListing(run: Runner, launch: Launcher, i: nat)
    requires launch(VBoxListCommand).None? && run(VBoxListCommand).Completed?
    requires var lines := Split(Strip(run(VBoxListCommand).stdout), '\n');
      i < |lines| && Readable(lines[i]) && launch(VBoxInfoCommand(VBoxLine(lines[i]).value.1)).Some?
    ensures |ListVBox(run, launch)| == 1 && ListVBox(run, launch)[0].ListError?
    ensures StartsWith(ListVBox(run, launch)[0].message, "Error listing VMs: ")
  {
  }

  /**
    `_list_virtualbox_vms`. A listing that exits with an error gives the
    `CalledProcessError` entry; any other exception, such as a `VBoxManage`
    that cannot be started for the listing or for one of the `showvminfo`
    calls, replaces the whole result with the catch-all entry.
   */
  function ListVBox(run: Runner, launch: Launcher): (vms: seq<Vm>)
    ensures launch(VBoxListCommand).Some? ==>
      vms == [ListError("Error listing VMs: " + launch(VBoxListCommand).value)]
    ensures launch(VBoxListCommand).None? && run(VBoxListCommand).Failed? ==>
      vms == [ListError("Failed to list VirtualBox VMs: " + run(VBoxListCommand).error)]
    ensures launch(VBoxListCommand).None? && run(VBoxListCommand).Completed? ==>
      var lines := Split(Strip(run(VBoxListCommand).stdout), '\n');
      && (VBoxFault(lines, launch).Some? ==> vms == [ListError("Error listing VMs: " + VBoxFault(lines, launch).value)])
      && (VBoxFault(lines, launch).None? ==> vms == VBoxEntries(lines, run))
    ensures ListedBy(vms, VirtualBox)
  {
    if launch(VBoxListCommand).Some? then [ListError("Error listing VMs: " + launch(VBoxListCommand).value)]
    else match run(VBoxListCommand)
      case Failed(e) => [ListError("Failed to list VirtualBox VMs: " + e)]
      case Completed(out) =>
        var lines := Split(Strip(out), '\n');
        match VBoxFault(lines, launch)
        case Some(e) => [ListError("Error listing VMs: " + e)]
        case None => VBoxEntries(lines, run)
  }

  /** One row of `virsh list --all`: id (or `-`), name, and a state of one or more words. */
  function LibvirtRow(line: string): (vms: seq<Vm>)
    ensures |vms| <= 1
    ensures |vms| == 1 <==> |SplitWs(line)| >= 3
  {
    var parts := SplitWs(line);
    if |parts| >= 3 then [LibvirtVm(parts[1], if parts[0] == "-" then None else Some(parts[0]), Join(parts[2..], " "))]
    else []
  }

  /** A row printed from its words reads back: `-` means no id, the state keeps its words. */
  lemma LibvirtRowOf(words: seq<string>)
    requires |words| >= 3
    requires forall i :: 0 <= i < |words| ==> IsWord(words[i])
    ensures LibvirtRow(Join(words, " "))
      == [LibvirtVm(words[1], if words[0] == "-" then None else Some(words[0]), Join(words[2..], " "))]
  {
    SplitWsJoin(words);
  }

  function LibvirtEntries(lines: seq<string>): (vms: seq<Vm>)
    ensures |vms| <= |lines|
    ensures forall i :: 0 <= i < |vms| ==> vms[i].LibvirtVm?
    decreases |lines|
  {
    if |lines| == 0 then []
    else (if Strip(lines[0]) != "" then LibvirtRow(lines[0]) else []) + LibvirtEntries(lines[1..])
  }

  /** Python's `lines[2:]`: the listing without its two header lines. */
  function DropHeader(lines: seq<string>): (body: seq<string>)
    ensures |body| == if |lines| <= 2 then 0 else |lines| - 2
    ensures forall i :: 0 <= i < |body| ==> body[i] == lines[i + 2]
  {
    if |lines| <= 2 then [] else lines[2..]
  }

  function ListLibvirt(run: Runner): (vms: seq<Vm>)
    ensures run(["virsh", "list", "--all"]).Failed? ==>
      vms == [ListError("Failed to list libvirt VMs: " + run(["virsh", "list", "--all"]).error)]
    ensures run(["virsh", "list", "--all"]).Completed? ==>
      |vms| <= |DropHeader(Split(Strip(run(["virsh", "list", "--all"]).stdout), '\n'))|
    ensures ListedBy(vms, Libvirt)
  {
    match run(["virsh", "list", "--all"])
    case Failed(e) => [ListError("Failed to list libvirt VMs: " + e)]
    case Completed(out) => LibvirtEntries(DropHeader(Split(Strip(out), '\n')))
  }

  /** One row of `vagrant global-status`: id, name, provider, state, directory. */
  function VagrantRow(line: string): (vms: seq<Vm>)
    ensures |vms| <= 1
    ensures |vms| == 1 <==> |SplitWs(line)| >= 4
  {
    var parts := SplitWs(line);
    if |parts| >= 4 then [VagrantVm(parts[1], parts[0], parts[3], if |parts| > 4 then parts[4] else "")]
    else []
  }

  /** A row printed from its words reads back; the directory is empty when the row has none. */
  lemma VagrantRowOf(words: seq<string>)
    requires |words| >= 4
    requires forall i :: 0 <= i < |words| ==> IsWord(words[i])
    ensures VagrantRow(Join(words, " ")) == [VagrantVm(words[1], words[0], words[3], if |words| > 4 then words[4] else "")]
  {
    SplitWsJoin(words);
  }

  /**
    The rows collected while the section flag is set: a line starting with `id`
    sets it, one starting with `---` clears it, and neither is a row.
   */
  function VagrantScan(lines: seq<string>, inSection: bool): (vms: seq<Vm>)
    ensures |vms| <= |lines|
    ensures forall i :: 0 <= i < |vms| ==> vms[i].VagrantVm?
    decreases |lines|
  {
    if |lines| == 0 then []
    else if StartsWith(lines[0], "id") then VagrantScan(lines[1..], true)
    else if StartsWith(lines[0], "---") then VagrantScan(lines[1..], false)
    else (if inSection && Strip(lines[0]) != "" then VagrantRow(lines[0]) else []) + VagrantScan(lines[1..], inSection)
  }

  /** Without an `id` line the flag is never set and nothing is listed. */
  lemma {:induction false} VagrantOutsideSection(lines: seq<string>)
    requires forall i :: 0 <= i < |lines| ==> !StartsWith(lines[i], "id")
    ensures VagrantScan(lines, false) == []
    decreases |lines|
  {
    if |lines| > 0 {
      VagrantOutsideSection(lines[1..]);
    }
  }

  /**
    A header line followed at once by a `---` rule leaves the flag cleared, so
    the rows under the rule are not listed.
   */
  lemma VagrantHeaderThenRule(header: string, rule: string, rows: seq<string>)
    requires StartsWith(header, "id") && StartsWith(rule, "---")
    requires forall i :: 0 <= i < |rows| ==> !StartsWith(rows[i], "id")
    ensures VagrantScan([header] + ([rule] + rows), false) == []
  {
    VagrantFlagLine(header, [rule] + rows, false);
    VagrantFlagLine(rule, rows, true);
    RuleIsNotHeader(rule);
    VagrantOutsideSection(rows);
  }

  lemma RuleIsNotHeader(rule: string)
    requires StartsWith(rule, "---")
    ensures !StartsWith(rule, "id")
  {
    assert rule[0] == "---"[0];
  }

  /** A line that sets or clears the flag is not a row. */
  lemma VagrantFlagLine(line: string, rest: seq<string>, inSection: bool)
    requires StartsWith(line, "id") || StartsWith(line, "---")
    ensures VagrantScan([line] + rest, inSection) == VagrantScan(rest, StartsWith(line, "id"))
  {
    assert ([line] + rest)[0] == line && ([line] + rest)[1..] == rest;
  }

  /** Inside the section, a row is listed in place. */
  lemma VagrantSectionRow(line: string, rest: seq<string>)
    requires !StartsWith(line, "id") && !StartsWith(line, "---")
    requires |SplitWs(line)| >= 4
    ensures VagrantScan([line] + rest, true) == VagrantRow(line) + VagrantScan(rest, true)
  {
    assert ([line] + rest)[1..] == rest;
    assert Strip(line) != "" by {
      if Strip(line) == "" {
        BlankHasNoWords(line);
      }
    }
  }

  function ListVagrant(run: Runner): (vms: seq<Vm>)
    ensures run(["vagrant", "global-status"]).Failed? ==>
      vms == [ListError("Failed to list Vagrant VMs: " + run(["vagrant", "global-status"]).error)]
    ensures ListedBy(vms, Vagrant)
  {
    match run(["vagrant", "global-status"])
    case Failed(e) => [ListError("Failed to list Vagrant VMs: " + e)]
    case Completed(out) => VagrantScan(Split(Strip(out), '\n'), false)
  }

  // ---------------------------------------------------------------------------
  // The service: dispatch on the provider fixed at construction
  // ---------------------------------------------------------------------------

  function ListVms(p: Provider, run: Runner, launch: Launcher): (vms: seq<Vm>)
    ensures p == NoProvider ==> vms == []
    ensures ListedBy(vms, p)
  {
    match p
    case VirtualBox => ListVBox(run, launch)
    case Libvirt => ListLibvirt(run)
    case Vagrant => ListVagrant(run)
    case NoProvider => []
  }

  function VmStatus(p: Provider, name: string, run: Runner): (r: Report)
    ensures p == NoProvider ==> r == ErrorReport(NoProviderMessage)
    ensures p != NoProvider ==> Get(r, "name") == Some(name)
  {
    match p
    case VirtualBox => VBoxStatus(name, run)
    case Libvirt => LibvirtStatus(name, run)
    case Vagrant => VagrantStatus(name, run)
    case NoProvider => ErrorReport(NoProviderMessage)
  }
}

=== FILE: wrappers.dfy ===
/** Failure-compatible wrapper types shared by every module of the model. */
module Wrappers {

  /** A value that may be absent: Python's `None` versus a present value. */
  datatype Option<+T> = None | Some(value: T) {

    /** The wrapped value, or `default` when absent (Python's `d.get(k, default)`). */
    function GetOr(default: T): T {
      match this
      case Some(v) => v
      case None => default
    }
  }

  /** Either a value or an error, standing for a Python call that may raise. */
  datatype Result<+R, +E> = Success(value: R) | Failure(error: E) {

    predicate IsFailure() {
      Failure?
    }

    function PropagateFailure<U>(): Result<U, E>
      requires Failure?
    {
      Failure(error)
    }

    function Extract(): R
      requires Success?
    {
      value
    }
  }
}
